=== FILE: README.md ===
# Paint mixing core of aop_leptos, in Dafny

This project models the core of aop_leptos, a web app that suggests real paint
mixtures for a target colour. The model covers:

- **Paint models** (`PaintModels`). The mix choices, their names and parsing,
  the error texts, and the records exchanged with the search.
- **Kubelka-Munk mixing and the weight optimiser** (`Optimization`). The
  reflectance ↔ K/S conversions, the weighted K/S mix, the mean squared error,
  and the projected finite-difference gradient search with its best-iterate
  tracking and final renormalisation.
- **Spectral reconstruction scaffolding** (`Lhtss`). The T-matrix shape check,
  the black and white special cases, and the bounded Newton loop with early
  return on convergence, best-iterate fallback and error. It also covers the
  31-band window, the 31→36 band padding for XYZ, the smoothness (difference)
  matrix and the CIE76 ΔE.
- **Combination search** (`PaintMixing`, `Ranking`). The five strategies' candidate
  enumerations (black + white + 2 or 3 others, sliding windows of 3–5
  paints, a grey plus a pair, black-free windows of 3–4 paints), the
  evaluation of every candidate, and the stable sort by error followed by
  taking the first five.
- **Server functions** (`ServerPaint`). Brand display names, colour listings,
  saving and loading the paint settings as JSON `{brand: [colours]}`, and the
  validation chains of `find_paint_mix` and `test_paint_mix`.
- **Authentication service** (`Auth`). Registration, login with a five-strike,
  fifteen-minute lockout, and single-use hashed verification and reset tokens
  with lifetimes of 24 hours and 1 hour.
- **The three paint pages as state machines** (`TargetMix`, `TestMix`,
  `Settings`):
  - the target page's hex text ↔ RGB channels and the image-click sampling
    coordinates;
  - the test-mix list (add, remove, update weight, total) and its request to the
    server;
  - the settings page's selection toggles, the effects that apply saved settings
    and auto-select every colour, and the save status line.

Helper modules: `Wrappers` (Option and Result), `Text` (ASCII lower-casing,
trimming, word splitting, capitalisation, decimal printing), `Reals` (sums, clamping,
normalisation), `Seqs` (filter), `Colour` (the `Rgb` triple of `u8`).

Some numerical pieces are parameters, so the proofs hold for every choice of
them: the square root, `tanh`, the Newton residual and linear solve, the weight
optimiser and the ΔE scorer used by the search, JSON parsing and rendering,
`bincode` curve decoding, and the reflectance-to-hex conversion of
`test_paint_mix`. Arithmetic is over unbounded `real` and `int`.

Behaviours of the code worth knowing, each stated by the model:

- The search does not deduplicate results and has no tie-break of its own. Results
  with equal errors keep their enumeration order, because `sort_by` is stable.
- The "all available colours" and "no black" strategies take contiguous windows
  of the catalogue order, not every subset of that size.
- "No black" excludes paints whose lower-cased name contains `black`.
- The optimiser runs one gradient descent from the uniform start. It clamps each
  weight into [0, 1] after every step and renormalises the sum once at the end.
- The K/S round trip gives back R only after R is clamped into [0.001, 0.999]
  (`Optimization.KsRoundTripExact`).
- A hex pair with a leading `+` is accepted by `u8::from_str_radix`, so
  `"#+f+f+f"` sets every channel to 15 (`TargetMix.PlusSignedPairsAccepted`).
- "All selected" on the settings page compares only how many colours are
  available and selected, not which ones (`Settings.AllSelectedComparesCounts`).
- Before toggle-all is used, deselecting the last selected colour selects every
  colour again, because the auto-select effect re-runs on the empty selection
  (`Settings.DeselectLastReselectsAll`).

## Model

| member | source | states |
|---|---|---|
| PaintModels.ErrorMessage | src/models/paint.rs:29-38 | Each error renders as its `thiserror` message, with the colour name or detail appended. |
| PaintModels.FromStr | src/models/paint.rs:61-70 | A string is accepted exactly when its lower-cased form is one of the five choice names. It then yields the choice with that name. |
| PaintModels.All | src/models/paint.rs:72-80 | Lists five choices. Every choice appears, with no repeats and no two sharing a name. |
| PaintModels.RoundTrip | src/models/paint.rs:51-70 | Parsing a choice's name gives that choice back. |
| PaintModels.CaseInsensitive | src/models/paint.rs:61-62 | Parsing does not depend on letter case. |
| PaintModels.AsStrInjective | src/models/paint.rs:51-59 | Different choices have different names. |
| Optimization.ReflectanceToKs | src/services/optimization.rs:12-16 | Because of the clamp, K/S is strictly positive and at most 499.0005 for every input. |
| Optimization.KsToReflectance | src/services/optimization.rs:21-28 | A non-positive K/S is pure white (1.0). Every result lies in [0, 1]. |
| Optimization.KsRoundTripExact | src/services/optimization.rs:12-28 | If the square root is exact where it is used, K/S → reflectance returns the input reflectance clamped into [0.001, 0.999]. |
| Optimization.KubelkaMunkMix | src/services/optimization.rs:32-58 | The mix has the first curve's length and stays within [0, 1]. Weights summing to zero or less give the all-zero curve. |
| Optimization.MixScaleInvariant | src/services/optimization.rs:35-42 | Scaling every weight by the same positive factor leaves the mix unchanged, because weights are normalised. |
| Optimization.MixOfIdenticalCurves | src/services/optimization.rs:32-58 | Mixing copies of one curve, under any non-negative weights with a positive sum, gives that curve's K/S round trip. |
| Optimization.MeanSquaredError | src/services/optimization.rs:97-98 | The error is non-negative. An empty curve reads as `f64::MAX`, like `mean()` returning `None`. |
| Optimization.ComputeError | src/services/optimization.rs:154-157 | The error of a mix against the target is non-negative. |
| Optimization.ComputeErrorProperties | src/services/optimization.rs:154-157 | A curve compared with itself has error 0. The error does not depend on argument order. |
| Optimization.Descend | src/services/optimization.rs:136-139 | A gradient step keeps the length and leaves every weight in [0, 1]. |
| Optimization.Gradients | src/services/optimization.rs:115-133 | Weight i's entry is the error after adding 0.001 to weight i and renormalising, minus the pass error, divided by 0.001. |
| Optimization.Step | src/services/optimization.rs:115-139 | A pass that goes on moves to the clamped descent step along that finite-difference gradient, with the pass's step size. |
| Optimization.AlphaSchedule | src/services/optimization.rs:110-113 | The step size changes only at the positive multiples of 100 passes, and there it shrinks by 0.9. |
| Optimization.DecayAlpha | src/services/optimization.rs:110-113 | Starting from 0.5, the step size used in pass k is 0.5 · 0.9^(k div 100). |
| Optimization.Renormalize | src/services/optimization.rs:142-150 | The final weights lie in [0, 1]. They sum to 1, or are all 0. |
| Optimization.RenormalizeKeepsMix | src/services/optimization.rs:142-150 | The final renormalisation does not change the mixed curve. |
| Optimization.RunningBestSnoc | src/services/optimization.rs:100-104 | Replacing the best only on a strictly smaller error keeps it the first pass with the lowest error. While every error is `f64::MAX`, the starting weights stay. |
| Optimization.UpdateBest | src/services/optimization.rs:100-104 | The best is replaced exactly when the new error is strictly smaller, and stays the first lowest-error pass. |
| Optimization.Score | src/services/optimization.rs:84-98 | A pass scores the renormalised pending weights. Its error is the mix error of exactly those weights, and the record of passes grows by that pass. |
| Optimization.Record | src/services/optimization.rs:84-104 | After scoring, the trace and iterates grow by one entry each, and the best so far is up to date. |
| Optimization.Advance | src/services/optimization.rs:106-139 | A pass whose error is at least 1e-8 leaves, as the next pending weights, its descent step with the next step size. |
| Optimization.Pass | src/services/optimization.rs:83-140 | One pass adds exactly one error to the trace and keeps the earlier ones. The loop stops exactly when that error is below 1e-8. |
| Optimization.PassesUpToAll | src/services/optimization.rs:83-140 | The record built pass by pass gives, for every pass, the error of its weights and the step that links it to the pass before. |
| Optimization.Search | src/services/optimization.rs:83-140 | Runs 1 to 1000 passes and stops early exactly when a pass error is below 1e-8. Pass 0 scores the renormalised start. Pass k+1 scores the renormalised clamped descent step from pass k, with step size 0.5 · 0.9^(k div 100). Each trace entry is the mix error of its pass's weights. The kept weights are the first pass with the lowest error. When every error is `f64::MAX`, the start is kept. |
| Optimization.OptimizeWeights | src/services/optimization.rs:62-151 | Always `Ok`. The weights lie in [0, 1] and sum to 1 or are all 0. It records the same passes as `Search`. Once some error is finite, the result is the renormalised first lowest-error pass, and its own mix error is the minimum of the pass errors. Otherwise it is the renormalised start. |
| Lhtss.New | src/services/lhtss.rs:16-24 | Accepted exactly when the T-matrix is 3×36. Otherwise the error carries the actual shape. |
| Lhtss.Pad | src/services/lhtss.rs:133-144 | A 31-band curve goes into bands 2..32 of 36. The first value is copied to bands 0-1 and the last to bands 33-35. Other lengths pass through. |
| Lhtss.PadWindowRoundTrip | src/services/lhtss.rs:133-144 | Taking the 400-700 nm window of a padded curve gives the curve back. |
| Lhtss.ReflectanceToXyz | src/services/lhtss.rs:131-148 | Each XYZ component is the T-matrix row's dot product with the padded curve. |
| Lhtss.DeltaEProperties | src/services/lhtss.rs:172-177 | ΔE is symmetric. It is zero between a colour and itself whenever sqrt(0) = 0. |
| Lhtss.SetBandsFromCorrect | src/services/lhtss.rs:181-189 | Filling the bands row by row produces every row's band entries. |
| Lhtss.DifferenceMatrixEntries | src/services/lhtss.rs:179-193 | Entries are 4 on the diagonal (2 at both corners), -2 beside the diagonal, and 0 elsewhere. |
| Lhtss.DifferenceMatrixSymmetric | src/services/lhtss.rs:179-193 | The difference matrix is symmetric. |
| Lhtss.DifferenceMatrixRowsSumToZero | src/services/lhtss.rs:179-193 | Every row sums to 0, so a constant curve has zero roughness. |
| Lhtss.Window | src/services/lhtss.rs:77-79 | The returned curve is bands 2 to 32 of the 36-band curve. |
| Lhtss.ExitIsUnique | src/services/lhtss.rs:48-82 | The loop exits early at no more than one pass, by convergence or by a failed step. |
| Lhtss.ComputeReflectanceTarget | src/services/lhtss.rs:27-96 | Black and white give constant 0.0001 and 1.0 curves. Otherwise: the first converged pass returns its window; a failed step is an error; after 500 passes the best iterate is used if its error is below 1, else it is an error naming the colour's channels and the best error. |
| Ranking.StableSort | src/services/paint_mixing.rs:52-57 | The result is sorted by error and is a permutation of the input. |
| Ranking.StableSortKeepsTies | src/services/paint_mixing.rs:52-57 | Results with equal errors keep their input order. |
| Ranking.StableSortIsUnique | src/services/paint_mixing.rs:52-57 | Two sorted sequences with the same tie order are equal, so every stable sort agrees. |
| Ranking.Rank | src/services/paint_mixing.rs:51-58 | At most five results, sorted, all taken from the input. |
| Ranking.RankKeepsSmallest | src/services/paint_mixing.rs:51-58 | Every kept result has an error no larger than any dropped result. |
| Ranking.AnyStableSortRanksAlike | src/services/paint_mixing.rs:51-58 | Any stable sort by error, cut to five, gives the ranking. |
| PaintMixing.PairsAreIncreasingPicks | src/services/paint_mixing.rs:96-105 | The pair loop yields exactly the pairs o[i], o[j] with i < j. |
| PaintMixing.PairsCount | src/services/paint_mixing.rs:96-105 | There are C(n, 2) pairs. |
| PaintMixing.TriplesAreIncreasingPicks | src/services/paint_mixing.rs:110-122 | The triple loop yields exactly the triples o[i], o[j], o[k] with i < j < k. |
| PaintMixing.TriplesCount | src/services/paint_mixing.rs:110-122 | There are C(n, 3) triples. |
| PaintMixing.Windows | src/services/paint_mixing.rs:153-157 | The windows are the n-long slices at every start where one fits (`saturating_sub`), in order. |
| PaintMixing.Others | src/services/paint_mixing.rs:81-90 | Keeps exactly the paints other than titanium white, ivory black and warm white. |
| PaintMixing.FirstNamed | src/services/paint_mixing.rs:69-72 | Finds a paint exactly when one is named so after lower-casing and trimming. The paint found is the first so named in catalogue order. |
| PaintMixing.Anchors | src/services/paint_mixing.rs:69-78 | On success, the anchors are the first catalogue paint named titanium white and the first named ivory black. |
| PaintMixing.AnchorsMissingWhite | src/services/paint_mixing.rs:69-72 | With no titanium white, the error names "Titanium White". |
| PaintMixing.AnchorsMissingBlack | src/services/paint_mixing.rs:74-77 | With white present but no ivory black, the error names "Ivory Black". |
| PaintMixing.AnchorsFound | src/services/paint_mixing.rs:69-78 | With both present, the anchors are found. |
| PaintMixing.BlackWhiteCandidates | src/services/paint_mixing.rs:62-126 | Fails exactly when an anchor is missing. Otherwise there are C(k, 2) or C(k, 3) candidates for k others, and none for other counts. |
| PaintMixing.BlackWhitePairShape | src/services/paint_mixing.rs:93-106 | A 2-colour candidate is exactly white, black and then a pair of the others in order. |
| PaintMixing.BlackWhiteTripleShape | src/services/paint_mixing.rs:107-123 | A 3-colour candidate is exactly white, black and then a triple of the others in order. |
| PaintMixing.AllAvailableCandidates | src/services/paint_mixing.rs:150-158 | The candidates list every 3-wide window by start index, then every 4-wide one, then every 5-wide one. |
| PaintMixing.WindowMembers | src/services/paint_mixing.rs:153-157 | A combo is a window exactly when it is a contiguous slice of that width. |
| PaintMixing.AllAvailableAreWindows | src/services/paint_mixing.rs:150-158 | An "all available" candidate is exactly a contiguous 3- to 5-paint slice. |
| PaintMixing.Greys | src/services/paint_mixing.rs:181-187 | Keeps exactly the paints whose lower-cased name contains grey or gray. |
| PaintMixing.NonGreys | src/services/paint_mixing.rs:193-204 | Keeps exactly the paints that are neither grey nor one of the three reserved paints. |
| PaintMixing.GreyCombos | src/services/paint_mixing.rs:207-214 | One candidate for every grey and pair. |
| PaintMixing.GreyCombosMembers | src/services/paint_mixing.rs:207-214 | A candidate is exactly a grey followed by one of the pairs. |
| PaintMixing.NeutralGreyCandidates | src/services/paint_mixing.rs:181-214 | No greys gives no candidates. Otherwise there are (#greys) × C(#others, 2) candidates. |
| PaintMixing.NeutralGreyCandidateShape | src/services/paint_mixing.rs:193-214 | A candidate is exactly a grey followed by an in-order pair of the non-grey others. |
| PaintMixing.Blackless | src/services/paint_mixing.rs:237-241 | Keeps exactly the paints whose lower-cased name does not contain black. |
| PaintMixing.NoBlackCandidates | src/services/paint_mixing.rs:232-250 | Every candidate has 3 or 4 paints. The candidates list every 3-wide window of the black-free paints by start index, then every 4-wide one. |
| PaintMixing.NoBlackAreWindows | src/services/paint_mixing.rs:232-250 | A list is a candidate exactly when it is a contiguous 3- or 4-slice of the black-free paints. |
| PaintMixing.NoBlackExcludesBlack | src/services/paint_mixing.rs:237-250 | No paint of any "no black" candidate has black in its name. |
| PaintMixing.Candidates | src/services/paint_mixing.rs:36-49 | Only the black-and-white strategies can fail, and only with a missing colour. |
| PaintMixing.Uniform | src/services/paint_mixing.rs:134 | The initial weights have one entry per paint and sum to 1. |
| PaintMixing.CreateResult | src/services/paint_mixing.rs:267-291 | The result lists the combo's names and hex colours in order, with the optimised weights and their ΔE score. |
| PaintMixing.Evaluate | src/services/paint_mixing.rs:128-141 | Dropping failed optimisations never adds results. |
| PaintMixing.EvaluateAppend | src/services/paint_mixing.rs:130-139 | Evaluation works combo by combo, so input order is kept. |
| PaintMixing.EvaluateTotal | src/services/paint_mixing.rs:130-139 | When every optimisation succeeds, there is one result per candidate, naming that candidate's paints. |
| PaintMixing.FindCombinations | src/services/paint_mixing.rs:30-59 | Unknown choices are rejected with "Invalid mix choice". Missing colours only come from black-and-white strategies. Success is sorted and at most five long. |
| PaintMixing.AsStrAccepted | src/services/paint_mixing.rs:36-48 | Every choice's own name is accepted. |
| PaintMixing.FindCombinationsIsStableTop | src/services/paint_mixing.rs:36-58 | The result is the first five of any stable sort by error of the evaluated candidates. |
| ServerPaint.BrandDisplayName | src/server_fns/paint.rs:45-56 | The display name's words are the id's underscore- and space-separated words, each capitalised. They are joined by single spaces. |
| ServerPaint.DisplayNameHasNoUnderscore | src/server_fns/paint.rs:45-56 | Display names have no underscores. |
| ServerPaint.DisplayNameIdempotent | src/server_fns/paint.rs:45-56 | Applying the display-name formatting twice changes nothing. |
| ServerPaint.PaintBrands | src/server_fns/paint.rs:42-59 | One brand per table id, in order, with its display name. |
| ServerPaint.HexOf | src/server_fns/paint.rs:80 | The stored hex, or #808080 when there is none. |
| ServerPaint.PaintColors | src/server_fns/paint.rs:76-82 | One entry per catalogue row, in order, with its id and hex. |
| ServerPaint.StringItems | src/server_fns/paint.rs:116-123 | An array of strings yields those strings. A non-array yields none. |
| ServerPaint.StringsOf | src/server_fns/paint.rs:119-121 | Keeps the string items. When all items are strings, it keeps them all in order. |
| ServerPaint.FirstMember | src/server_fns/paint.rs:114-115 | There is a first member exactly for a non-empty object. |
| ServerPaint.DecodeSettingsSelection | src/server_fns/paint.rs:107-130 | Missing text, unparsable text or a non-object/empty object gives an empty brand and no colours. |
| ServerPaint.GetUserPaintSettings | src/server_fns/paint.rs:87-139 | Unauthenticated requests fail. A user without a settings row gets the default (empty) settings. |
| ServerPaint.SaveUserPaintSettings | src/server_fns/paint.rs:144-172 | Stores the mix choice and the rendering of `{brand: colours}`. |
| ServerPaint.SettingsRoundTrip | src/server_fns/paint.rs:107-165 | With a faithful JSON codec, loading saved settings returns exactly what was saved. |
| ServerPaint.SelectionOf | src/server_fns/paint.rs:207-228 | Missing or unparsable selection: "Please select your paints first". A parsed value that is not a non-empty object: "Invalid paint selection". |
| ServerPaint.Decoded | src/server_fns/paint.rs:241-247 | A row yields paint data exactly when it has a curve that decodes. The data carries its id, the decoded curve and its hex. |
| ServerPaint.PaintData | src/server_fns/paint.rs:238-248 | Never more entries than catalogue rows. |
| ServerPaint.PaintDataMembers | src/server_fns/paint.rs:238-248 | An entry is exactly the decoded data of a selected row with a decodable curve. |
| ServerPaint.LengthMismatch | src/server_fns/paint.rs:264-273 | Reports a paint whose curve length differs from the target's, exactly when one exists. The paint reported is the first such paint. |
| Text.DecimalString | src/server_fns/paint.rs:266-271 | Lengths in the message are non-empty decimal digit strings. |
| Text.DecimalRoundTrip | src/server_fns/paint.rs:266-271 | Reading the printed length back gives the length. |
| ServerPaint.FindPaintMix | src/server_fns/paint.rs:176-280 | Authentication, missing settings and selection errors, with their messages. |
| ServerPaint.FindPaintMixSearchesValidInput | src/server_fns/paint.rs:230-279 | Success needs a non-empty selection, at least 3 decodable paints, a reconstructed target and matching curve lengths. The result is then the combination search on them. |
| ServerPaint.FindPaintMixRejections | src/server_fns/paint.rs:230-279 | Each later validation failure produces its message, in order. On input that passes them all, a failed search gives "Failed to find combinations: " followed by the error's message, and a successful one gives `Ok` with the search's results. |
| ServerPaint.RowNamed | src/server_fns/paint.rs:327 | Finds a catalogue row exactly when one has that id. |
| ServerPaint.Reflectances | src/server_fns/paint.rs:333-342 | At most one curve per requested paint. |
| ServerPaint.ReflectancesComplete | src/server_fns/paint.rs:333-346 | Every requested paint has a curve exactly when each one names a row with a decodable curve. |
| ServerPaint.TestPaintMix | src/server_fns/paint.rs:284-409 | Authentication, missing-settings and selection errors, with their messages. A panic happens only for a list other than one paint whose curves the mix cannot index. |
| ServerPaint.TestPaintMixOutcomes | src/server_fns/paint.rs:325-409 | A single known paint returns its stored hex. Otherwise "Could not find all paint data" is returned exactly when some paint is unknown or undecodable. With complete data, the call panics exactly when there is no curve, the first has fewer than 31 bands, or the weights sum above zero and a weight has no curve or a weighted curve is shorter than the first. Otherwise the answer is the hex of the first 31 bands of the Kubelka-Munk mix. |
| ServerPaint.TestPaintMixEmptyPanics | src/server_fns/paint.rs:333-349 | An empty paint list passes the completeness check, then panics on the missing first curve. |
| Auth.UserByEmail | src/db/mod.rs:155-160 | Finds a user stored under the lower-cased email, exactly when one exists. |
| Auth.Register | src/services/auth.rs:45-55 | A taken email is refused and nothing changes. Otherwise one user is added with the lower-cased email and the password's hash. |
| Auth.Login | src/services/auth.rs:57-85 | Success only for the matching user and a verifying password. A locked account changes nothing. Only the two credential errors occur. |
| Auth.LockedLoginRefused | src/services/auth.rs:62-70 | A lock still in the future refuses login without touching the store. |
| Auth.UnparseableLockIgnored | src/services/auth.rs:63-67 | An unparsable lock time counts as no lock. The error and the resulting store are the same as with no lock; a successful login returns the record with its stored lock. |
| Auth.WrongPasswordCounts | src/services/auth.rs:72-81 | A wrong password adds one failed attempt. A lock is set for 15 minutes exactly when the count reaches five. |
| Auth.RightPasswordResets | src/services/auth.rs:83-84 | A right password returns the user and clears the count and lock. |
| Auth.RegisterThenLogin | src/services/auth.rs:45-85 | A newly registered user can log in with the same password. |
| Auth.FiveFailuresLock | src/services/auth.rs:72-80 | Five wrong passwords in a row lock the account, even against the right password. |
| Auth.CreateToken | src/services/auth.rs:95-109 | Returns the plain token and stores only its hash, its kind and its expiry. |
| Auth.CreateVerificationToken | src/services/auth.rs:87-89 | Verification tokens expire after 24 hours. |
| Auth.CreateResetToken | src/services/auth.rs:91-93 | Reset tokens expire after 1 hour. |
| Auth.DeleteToken | src/services/auth.rs:121 | Removes exactly the tokens with that id. |
| Auth.VerifyToken | src/services/auth.rs:111-123 | Fails, unchanged, exactly when no token of that kind matches the hash or it has expired. An unparsable expiry counts as expired. On success it returns the first matching token's user id and deletes every token with that token's id. |
| Auth.CreateTokenKeepsSingleUse | src/services/auth.rs:95-109 | Issuing a token with a fresh hash keeps each (hash, kind) pair tied to a single token id. |
| Auth.SecondUseFails | src/services/auth.rs:111-123 | A token that verified once fails the second time. |
| Auth.TokenLifetime | src/services/auth.rs:95-123 | A fresh token verifies for its user up to its expiry and not after. |
| Auth.VerifyEmail | src/services/auth.rs:125-130 | Succeeds exactly when the verification token does, and then marks exactly that user verified. The token is consumed as verification consumes it, no other field changes, and a failure leaves the store unchanged. |
| Auth.IssuedTokenVerifiesEmail | src/services/auth.rs:87-130 | A fresh verification token, used within 24 hours, verifies its user's email and no one else's. |
| Auth.ResetPassword | src/services/auth.rs:132-138 | Succeeds exactly when the reset token does, and then rehashes exactly that user's password. The token is consumed as verification consumes it, no other field changes, and a failure leaves the store unchanged. |
| Auth.IssuedTokenResetsPassword | src/services/auth.rs:91-138 | A fresh reset token, used within an hour, makes the new password verify for its user; other users keep their hashes. |
| TargetMix.Initial | src/pages/target_mix.rs:17-18 | The page starts at #808080 with every channel 128. |
| TargetMix.HexDigit | src/pages/target_mix.rs:33-35 | A character is a hex digit exactly when it is 0-9, a-f or A-F, with value below 16. |
| TargetMix.ParseHexU8 | src/pages/target_mix.rs:33-35 | A parsed pair is non-empty, is not a bare sign, and has no minus sign. |
| TargetMix.TwoDigits | src/pages/target_mix.rs:33-35 | Two hex digits parse to 16·high + low. |
| TargetMix.ParseIgnoresCase | src/pages/target_mix.rs:33-35 | Parsing a pair does not depend on letter case. |
| TargetMix.Hex2RoundTrip | src/pages/target_mix.rs:47 | A byte formatted as two lower-case digits parses back to itself. |
| TargetMix.FormatHex | src/pages/target_mix.rs:47 | The hex text is # and six lower-case hex digits. |
| TargetMix.UpdateHex | src/pages/target_mix.rs:46-49 | The text becomes the colour's hex, and the channels stay. |
| TargetMix.ParseHexColour | src/pages/target_mix.rs:31-36 | Accepted exactly for seven characters starting with # whose three pairs parse. The channels are those pairs. |
| TargetMix.UpdateFromHex | src/pages/target_mix.rs:30-43 | The text always becomes the input. The channels change only when all three pairs parse. |
| TargetMix.FormatParseRoundTrip | src/pages/target_mix.rs:30-49 | Parsing a formatted colour gives the colour back. |
| TargetMix.UpdateRoundTrip | src/pages/target_mix.rs:30-49 | Feeding the formatted hex back into the text box changes nothing. |
| TargetMix.ParseHexColourIgnoresCase | src/pages/target_mix.rs:31-36 | Upper- and lower-case hex give the same colour. |
| TargetMix.PlusSignedPairsAccepted | src/pages/target_mix.rs:32-36 | "#+f+f+f" sets every channel to 15. |
| TargetMix.InvalidPairKeepsChannels | src/pages/target_mix.rs:31-42 | A non-digit other than a leading plus leaves the channels unchanged. |
| TargetMix.RoundHalfAway | src/pages/target_mix.rs:114 | Rounds to the nearest integer, with halves away from zero. |
| TargetMix.SaturateU32 | src/pages/target_mix.rs:114 | The `as u32` cast saturates at 0 and 2^32 - 1. |
| TargetMix.ScaleOffset | src/pages/target_mix.rs:111-119 | The pixel is inside the image. It is the rounded scaled offset when that fits, the last pixel when it is past the end, and 0 for a non-positive offset. |
| TargetMix.ClickPixel | src/pages/target_mix.rs:102-119 | No pixel exactly when a dimension is zero. Otherwise the pixel is inside the image. |
| TargetMix.UnscaledClickIsIdentity | src/pages/target_mix.rs:111-119 | At natural size, the clicked offset is the pixel. |
| TargetMix.ImageClick | src/pages/target_mix.rs:86-152 | A zero-sized image or a failed pixel read changes nothing. A sampled pixel sets the channels, and the hex text parses back to them. |
| TestMix.AddPaint | src/pages/test_mix.rs:79-86 | Afterwards the paint is present. A new paint is appended with weight 1; a present one changes nothing. |
| TestMix.AddPaintKeepsUnique | src/pages/test_mix.rs:79-86 | Adding keeps paint names unique. |
| TestMix.AddPaintIdempotent | src/pages/test_mix.rs:79-86 | Adding twice is adding once. |
| TestMix.AddPaintAddsOne | src/pages/test_mix.rs:79-86 | A new paint raises the weight sum by exactly 1. |
| TestMix.RemovePaint | src/pages/test_mix.rs:88-92 | The paint is gone, and every other entry stays. |
| TestMix.RemovePaintPiecewise | src/pages/test_mix.rs:88-92 | Removal works piecewise over concatenation, so order is kept. |
| TestMix.RemoveAbsentPaint | src/pages/test_mix.rs:88-92 | Removing an absent paint changes nothing. |
| TestMix.RemoveUndoesAdd | src/pages/test_mix.rs:79-92 | Removing a just-added paint restores the list. |
| TestMix.FirstIndex | src/pages/test_mix.rs:96 | Finds the first entry with that paint, exactly when there is one. |
| TestMix.UpdateWeight | src/pages/test_mix.rs:94-100 | Only the first matching entry's weight changes, to the new one. Names and every other entry stay. |
| TestMix.UpdateWeightOfUnique | src/pages/test_mix.rs:94-100 | With unique names, every entry of that paint gets the new weight. |
| TestMix.TotalWeight | src/pages/test_mix.rs:39-46 | The total is the weight sum, or 0.001 when that is smaller. It is never below 0.001. |
| TestMix.TotalWeightIsSum | src/pages/test_mix.rs:39-46 | A non-empty list of weights of at least 0.001 each totals to its sum. |
| TestMix.MixRequest | src/pages/test_mix.rs:53-63 | No request for an empty list. Otherwise the names and weights in list order. |
| TestMix.CalculateMix | src/pages/test_mix.rs:49-72 | An empty list clears colour and error. A server colour replaces the result. A server error is shown beside the old result. |
| TestMix.EmptyMixIgnoresServer | src/pages/test_mix.rs:53-57 | The empty list's outcome depends neither on the server nor on the previous view. |
| TestMix.ApplySavedBrand | src/pages/test_mix.rs:18-23 | A non-empty saved brand replaces the current one. |
| Settings.Initial | src/pages/settings.rs:16-21 | The page starts with Michael Harding, no colours, "black + white + 2 colours", and both flags off. |
| Settings.ToggleColor | src/pages/settings.rs:97-105 | A selected colour is removed with all its copies. An unselected one is appended. Other colours stay. |
| Settings.ToggleFlipsMembership | src/pages/settings.rs:97-105 | A toggle flips that colour's membership and no other's. |
| Settings.ToggleAbsentTwice | src/pages/settings.rs:97-105 | Toggling an unselected colour twice restores the selection exactly. |
| Settings.ToggleAll | src/pages/settings.rs:189-200 | Marks interaction. Clears the selection when all are selected, else selects every loaded colour. |
| Settings.ToggleAllAlternates | src/pages/settings.rs:189-200 | With colours loaded, toggle-all alternates between all and none. |
| Settings.AllSelectedComparesCounts | src/pages/settings.rs:77-81 | "All selected" holds for another set of ids of the same size. |
| Settings.ChangeBrand | src/pages/settings.rs:147-151 | Stores the new brand and clears the selection. The auto-select effect then re-runs on the list still loaded, so an initialised page whose toggle-all is untouched selects the previous brand's colours again. |
| Settings.BrandChangeSelection | src/pages/settings.rs:22-151 | After a brand change and the arrival of the new list, the selection is: empty after toggle-all or before initialisation; otherwise the previous list if one was loaded, else the new one. |
| Settings.BrandChangeAfterToggleAllClears | src/pages/settings.rs:53-151 | Once toggle-all has been used, a brand change leaves nothing selected. |
| Settings.ChangeMixChoice | src/pages/settings.rs:113-118 | Stores the strategy and nothing else. |
| Settings.ApplySaved | src/pages/settings.rs:36-66 | The brand applies if non-empty, the colours only with a non-empty brand, and the strategy if non-empty. The page is then initialised, and an empty selection with colours already loaded and toggle-all untouched becomes every loaded colour. A failed load changes nothing. |
| Settings.ColoursFirstFreshUserSelectsAll | src/pages/settings.rs:36-74 | When the colours load before the settings, a user with no saved brand still gets every colour selected. |
| Settings.ColoursLoaded | src/pages/settings.rs:53-74 | Stores the list. Selects it all exactly when initialised, not yet interacted, with nothing selected and a non-empty list. |
| Settings.FreshUserSelectsAll | src/pages/settings.rs:36-66 | A user with no saved brand gets every colour of the default brand. |
| Settings.FailedLoadNeverAutoSelects | src/pages/settings.rs:36-66 | If settings fail to load, colours are never auto-selected. |
| Settings.EditSelection | src/pages/settings.rs:53-66 | The auto-select effect re-runs after a selection edit. An edit that empties the selection of an initialised page with colours loaded and toggle-all untouched selects every colour. Any other edit stands. |
| Settings.DeselectLastReselectsAll | src/pages/settings.rs:53-105 | Before toggle-all is used, deselecting the only selected colour selects every colour again. |
| Settings.EditedSelectionNeverEmpty | src/pages/settings.rs:53-66 | Under those conditions no edit leaves the selection empty. |
| Settings.ToggleAllStopsAutoSelect | src/pages/settings.rs:53-66 | After toggle-all, arriving colours never override the selection. |
| Settings.SaveStatus | src/pages/settings.rs:90-92 | "Settings saved!" on success, otherwise "Error: " and the message. |

## Left out

- Floating point. `f64` rounding, NaN and infinities are not modelled: arithmetic is on exact reals. As a result, the `partial_cmp(..).unwrap_or(Equal)` fallback never applies, and the 1e-9 tolerance of the K/S round trip becomes an exact equality.
- The colour science behind the scores. sRGB linearisation, `xyz_to_lab`, the CIE tables, gamma correction and `get_default_t_matrix` are outside the model. They appear only through the `score`, `reconstruct` and `toHex` parameters.
- The Newton step of the reconstruction. The residual, the Jacobian (`create_jacobian`), the linear solve and `tanh` are parameters. The loop around them is modelled.
- `mix_reflectance` and `weighted_geometric_mean`. Nothing in the search calls them.
- Parallelism. Rayon's `par_iter().filter_map().collect()` keeps input order, so it is modelled as a sequential filter-map.
- Storage, sessions and I/O. Database rows, `get_current_user` (reduced to a `loggedIn` flag), the axum state extraction, e-mail sending and HTML markup are inputs or omitted.
- Libraries. argon2 and SHA-256 hashes are injective constructors, UUIDs are parameters, and times are integer seconds with a parsed/unparsable stamp.
- Serialisation. `serde_json` and `bincode` are parameters. JSON object member order is the parser's iteration order.
- Text. Strings are sequences of characters, and lower-casing, trimming and capitalisation are ASCII-only. Byte length versus character length is not distinguished, so the `&hex[1..3]` slice panic on non-ASCII input is not modelled.
- Page plumbing. Loading flags, Suspense views and reactive effect scheduling are outside the model. Effects are functions applied when they run.
- Settings.ChangeBrand: the auto-select re-run after a brand change reads the colour list still loaded. The model assumes the colour resource keeps the previous brand's list until the new one arrives.
- Lhtss.New: the `assert_eq!` panic on a wrongly shaped T-matrix is modelled as an `Err` carrying the shape.
- The brand colour list on the settings page. It is held as the colour ids, in server order.
- Auth.Login: `failed_attempts` is an `i32` in the database; its wrap-around after 2^31 - 1 failures is not modelled.
- Optimization.OptimizeWeights: requires non-negative initial weights. With negative ones, `f64` division can produce NaN, which reals cannot express. All callers pass 1/n.
- Optimization.KsRoundTripExact: assumes only that the square root is exact at the one point where it is applied. Arbitrary `sqrt` parameters are not covered.
- PaintMixing.Evaluate: its own contract only bounds the length. Order and contents are stated by `EvaluateAppend` and `EvaluateTotal`.
- ServerPaint.PaintData: its own contract only bounds the length. Which rows are kept is stated by `PaintDataMembers`.
- ServerPaint.Reflectances: its own contract only bounds the length. Completeness is stated by `ReflectancesComplete`.
- ServerPaint.TestPaintMix: its contract covers the early errors and when a panic can happen. The remaining outcomes are in `TestPaintMixOutcomes`. The XYZ → sRGB → hex conversion of the mixed curve is the `toHex` parameter.
- Lhtss.ComputeReflectanceTarget: the `{:.6}` rendering of the best error in the non-convergence message is the `fixed6` parameter.
- ServerPaint.FindPaintMix: its contract covers the early errors. Success and the later outcomes are in `FindPaintMixSearchesValidInput` and `FindPaintMixRejections`.
- Lhtss.ReflectanceToXyz: requires a 31- or 36-band curve. For any other length the fixed-size matrix product panics. The search passes only 31-band curves here.
- TargetMix.ParseHexU8: its contract gives only the shape of accepted input. Values are stated by `TwoDigits`, `Hex2RoundTrip` and `ParseIgnoresCase`.
- TargetMix.ImageClick: the canvas draw and `get_image_data` are the `pixel` parameter.

=== FILE: auth.dfy ===
/**
 * Accounts, login lockout and single-use tokens, as a state machine over the
 * user and token tables.
 *
 * Time is an integer number of seconds supplied by the caller (`Utc::now()`).
 * A stored RFC 3339 timestamp is either a parsed instant or unparseable.
 * Password hashing (argon2) and token hashing (SHA-256) are modelled as
 * injective constructors, so a password verifies exactly against the hash made
 * from it. Fresh UUIDs are parameters.
 */
module Auth {
  import opened Wrappers
  import Text

  /** Failed attempts at which an account locks. */
  const MaxFailedAttempts: int := 5

  /** Lock duration: 15 minutes. */
  const LockSeconds: int := 15 * 60

  /** Lifetimes of verification and reset tokens: 24 hours and 1 hour. */
  const VerifyTokenSeconds: int := 24 * 3600
  const ResetTokenSeconds: int := 1 * 3600

  const VerifyKind: string := "verify"
  const ResetKind: string := "reset"

  /** A stored timestamp as `DateTime::parse_from_rfc3339` sees it. */
  datatype Stamp = Parsed(t: int) | Unparseable

  /** The argon2 hash of a password (salt left out: verification only depends on the password). */
  datatype PasswordHash = Argon2Of(password: string)

  /** The SHA-256 digest of a token string. */
  datatype TokenHash = Sha256Of(token: string)

  datatype User = User(id: string, email: string, emailVerified: bool, passwordHash: PasswordHash,
                       failedAttempts: int, lockedUntil: Option<Stamp>)

  datatype Token = Token(id: string, userId: string, kind: string, hash: TokenHash, expires: Stamp)

  datatype Store = Store(users: seq<User>, tokens: seq<Token>)

  datatype AuthError = InvalidCredentials | EmailExists | AccountLocked | InvalidToken | EmailNotVerified | Other(message: string)

  /** `verify_password` */
  predicate VerifyPassword(password: string, hash: PasswordHash) {
    hash == Argon2Of(password)
  }

  // ---------------------------------------------------------------------------
  // Users

  /** Index of the user stored under the lower-cased email. */
  function UserByEmail(users: seq<User>, email: string): (r: Option<nat>)
    ensures r.Some? ==> r.value < |users| && users[r.value].email == Text.Lower(email)
    ensures r.None? <==> forall k :: 0 <= k < |users| ==> users[k].email != Text.Lower(email)
  {
    FirstWhere(users, Text.Lower(email), 0)
  }

  function FirstWhere(users: seq<User>, email: string, from: nat): (r: Option<nat>)
    requires from <= |users|
    ensures r.Some? ==> from <= r.value < |users| && users[r.value].email == email
    ensures r.Some? ==> forall k :: from <= k < r.value ==> users[k].email != email
    ensures r.None? <==> forall k :: from <= k < |users| ==> users[k].email != email
    decreases |users| - from
  {
    if from == |users| then None
    else if users[from].email == email then Some(from)
    else FirstWhere(users, email, from + 1)
  }

  /** `register`: a new unverified user with no failed attempts, unless the email is taken. */
  function Register(store: Store, email: string, password: string, newId: string): (out: (Result<string, AuthError>, Store))
    ensures UserByEmail(store.users, email).Some? ==> out == (Err(EmailExists), store)
    ensures UserByEmail(store.users, email).None? ==>
              out.0 == Ok(newId) &&
              out.1 == store.(users := store.users + [User(newId, Text.Lower(email), false, Argon2Of(password), 0, None)])
  {
    if UserByEmail(store.users, email).Some? then (Err(EmailExists), store)
    else
      var user := User(newId, Text.Lower(email), false, Argon2Of(password), 0, None);
      (Ok(newId), store.(users := store.users + [user]))
  }

  /** The lock is in force: it parses and lies strictly after `now`. An unparseable lock does not hold. */
  predicate Locked(user: User, now: int) {
    user.lockedUntil.Some? && user.lockedUntil.value.Parsed? && user.lockedUntil.value.t > now
  }

  /** Sets the attempt counter and lock of every row with the user's id (`update_failed_attempts`). */
  function SetAttempts(users: seq<User>, id: string, count: int, lock: Option<Stamp>): (r: seq<User>)
    ensures |r| == |users|
    ensures forall k :: 0 <= k < |users| ==>
              r[k] == if users[k].id == id then users[k].(failedAttempts := count, lockedUntil := lock) else users[k]
  {
    seq(|users|, k requires 0 <= k < |users| =>
      if users[k].id == id then users[k].(failedAttempts := count, lockedUntil := lock) else users[k])
  }

  /** `login`: lookup, lockout check, password check, then counter update. */
  function Login(store: Store, email: string, password: string, now: int): (out: (Result<User, AuthError>, Store))
    ensures out.0.Ok? ==> out.0.value.email == Text.Lower(email) && VerifyPassword(password, out.0.value.passwordHash)
    ensures out.0 == Err(AccountLocked) ==> out.1 == store
    ensures out.0.Err? ==> out.0 == Err(InvalidCredentials) || out.0 == Err(AccountLocked)
  {
    match UserByEmail(store.users, email)
    case None => (Err(InvalidCredentials), store)
    case Some(k) =>
      var user := store.users[k];
      if Locked(user, now) then (Err(AccountLocked), store)
      else if !VerifyPassword(password, user.passwordHash) then
        var attempts := user.failedAttempts + 1;
        var lock := if attempts >= MaxFailedAttempts then Some(Parsed(now + LockSeconds)) else None;
        (Err(InvalidCredentials), store.(users := SetAttempts(store.users, user.id, attempts, lock)))
      else
        (Ok(user), store.(users := SetAttempts(store.users, user.id, 0, None)))
  }

  /** A lock in force refuses even the right password and changes nothing. */
  lemma LockedLoginRefused(store: Store, email: string, password: string, now: int)
    requires UserByEmail(store.users, email).Some?
    requires Locked(store.users[UserByEmail(store.users, email).value], now)
    ensures Login(store, email, password, now) == (Err(AccountLocked), store)
  {
  }

  /** An unparseable lock behaves exactly like no lock. */
  lemma UnparseableLockIgnored(store: Store, email: string, password: string, now: int)
    requires UserByEmail(store.users, email).Some?
    requires store.users[UserByEmail(store.users, email).value].lockedUntil == Some(Unparseable)
    ensures var k := UserByEmail(store.users, email).value;
            var unlocked := store.(users := store.users[k := store.users[k].(lockedUntil := None)]);
            var (a, b) := (Login(store, email, password, now), Login(unlocked, email, password, now));
            a.1 == b.1 && a.0.Err? == b.0.Err? &&
            (a.0.Err? ==> a.0 == b.0) &&
            (a.0.Ok? ==> a.0.value == b.0.value.(lockedUntil := Some(Unparseable)))
  {
    var k := UserByEmail(store.users, email).value;
    var unlocked := store.(users := store.users[k := store.users[k].(lockedUntil := None)]);
    assert UserByEmail(unlocked.users, email) == UserByEmail(store.users, email) by {
      FirstWhereUnchanged(store.users, unlocked.users, Text.Lower(email), 0);
    }
    var user := store.users[k];
    if !VerifyPassword(password, user.passwordHash) {
      var attempts := user.failedAttempts + 1;
      var lock := if attempts >= MaxFailedAttempts then Some(Parsed(now + LockSeconds)) else None;
      SetAttemptsForgetsLock(store.users, k, attempts, lock);
    } else {
      SetAttemptsForgetsLock(store.users, k, 0, None);
    }
  }

  /** Setting the counter and lock overwrites whatever lock row `k` had. */
  lemma SetAttemptsForgetsLock(users: seq<User>, k: nat, count: int, lock: Option<Stamp>)
    requires k < |users|
    ensures SetAttempts(users[k := users[k].(lockedUntil := None)], users[k].id, count, lock) ==
            SetAttempts(users, users[k].id, count, lock)
  {
    var a := SetAttempts(users[k := users[k].(lockedUntil := None)], users[k].id, count, lock);
    var b := SetAttempts(users, users[k].id, count, lock);
    assert forall m :: 0 <= m < |a| ==> a[m] == b[m];
  }

  /** Rows with the same emails give the same lookup. */
  lemma {:induction false} FirstWhereUnchanged(a: seq<User>, b: seq<User>, email: string, from: nat)
    requires |a| == |b| && from <= |a|
    requires forall k :: 0 <= k < |a| ==> a[k].email == b[k].email
    ensures FirstWhere(a, email, from) == FirstWhere(b, email, from)
    decreases |a| - from
  {
    if from < |a| {
      FirstWhereUnchanged(a, b, email, from + 1);
    }
  }

  /**
   * A wrong password on an unlocked account counts one more failure, and
   * locks for 15 minutes exactly when the count reaches 5 or more.
   */
  lemma WrongPasswordCounts(store: Store, email: string, password: string, now: int)
    requires UserByEmail(store.users, email).Some?
    requires var user := store.users[UserByEmail(store.users, email).value];
             !Locked(user, now) && !VerifyPassword(password, user.passwordHash)
    ensures var k := UserByEmail(store.users, email).value;
            var out := Login(store, email, password, now);
            out.0 == Err(InvalidCredentials) &&
            out.1.users[k].failedAttempts == store.users[k].failedAttempts + 1 &&
            (out.1.users[k].lockedUntil == Some(Parsed(now + LockSeconds)) <==> store.users[k].failedAttempts + 1 >= MaxFailedAttempts) &&
            (out.1.users[k].lockedUntil == None <==> store.users[k].failedAttempts + 1 < MaxFailedAttempts)
  {
  }

  /** The right password on an unlocked account clears the counter and the lock, and returns the record as it was. */
  lemma RightPasswordResets(store: Store, email: string, password: string, now: int)
    requires UserByEmail(store.users, email).Some?
    requires var user := store.users[UserByEmail(store.users, email).value];
             !Locked(user, now) && VerifyPassword(password, user.passwordHash)
    ensures var k := UserByEmail(store.users, email).value;
            var out := Login(store, email, password, now);
            out.0 == Ok(store.users[k]) &&
            out.1.users[k].failedAttempts == 0 && out.1.users[k].lockedUntil == None
  {
  }

  /** After registering, the same email and password log in (at any time). */
  lemma RegisterThenLogin(store: Store, email: string, password: string, newId: string, now: int)
    requires UserByEmail(store.users, email).None?
    ensures var registered := Register(store, email, password, newId).1;
            Login(registered, email, password, now).0.Ok?
  {
    var registered := Register(store, email, password, newId).1;
    var k := |store.users|;
    assert registered.users[k].email == Text.Lower(email);
    assert UserByEmail(registered.users, email) == Some(k);
  }

  /**
   * Five wrong passwords in a row on a fresh account lock it: a sixth attempt
   * at the same instant is refused even with the right password.
   */
  lemma FiveFailuresLock(store: Store, email: string, wrong: string, right: string, now: int)
    requires UserByEmail(store.users, email).Some?
    requires var user := store.users[UserByEmail(store.users, email).value];
             user.failedAttempts == 0 && user.lockedUntil == None &&
             !VerifyPassword(wrong, user.passwordHash)
    ensures var s1 := Login(store, email, wrong, now).1;
            var s2 := Login(s1, email, wrong, now).1;
            var s3 := Login(s2, email, wrong, now).1;
            var s4 := Login(s3, email, wrong, now).1;
            var s5 := Login(s4, email, wrong, now).1;
            Login(s5, email, right, now) == (Err(AccountLocked), s5)
  {
    var k := UserByEmail(store.users, email).value;
    var s0 := store;
    var s1 := FailStep(s0, email, wrong, now, k, 0);
    var s2 := FailStep(s1, email, wrong, now, k, 1);
    var s3 := FailStep(s2, email, wrong, now, k, 2);
    var s4 := FailStep(s3, email, wrong, now, k, 3);
    var s5 := FailStep(s4, email, wrong, now, k, 4);
    assert s5.users[k].lockedUntil == Some(Parsed(now + LockSeconds));
  }

  /** One failed login against user `k` with `n` failures and no lock in force. */
  lemma FailStep(store: Store, email: string, wrong: string, now: int, k: nat, n: int) returns (next: Store)
    requires UserByEmail(store.users, email) == Some(k)
    requires store.users[k].failedAttempts == n && !Locked(store.users[k], now)
    requires !VerifyPassword(wrong, store.users[k].passwordHash)
    requires 0 <= n < MaxFailedAttempts
    ensures next == Login(store, email, wrong, now).1
    ensures UserByEmail(next.users, email) == Some(k)
    ensures next.users[k].failedAttempts == n + 1
    ensures next.users[k].passwordHash == store.users[k].passwordHash
    ensures n + 1 < MaxFailedAttempts ==> !Locked(next.users[k], now)
    ensures n + 1 == MaxFailedAttempts ==> next.users[k].lockedUntil == Some(Parsed(now + LockSeconds))
  {
    next := Login(store, email, wrong, now).1;
    FirstWhereUnchanged(store.users, next.users, Text.Lower(email), 0);
  }

  // ---------------------------------------------------------------------------
  // Tokens

  /** `create_token`: stores the digest of the fresh token with its kind and expiry; returns the token. */
  function CreateToken(store: Store, userId: string, kind: string, lifetime: int, now: int,
                       token: string, tokenId: string): (out: (Result<string, AuthError>, Store))
    ensures out.0 == Ok(token)
    ensures out.1.users == store.users
    ensures out.1.tokens == store.tokens + [Token(tokenId, userId, kind, Sha256Of(token), Parsed(now + lifetime))]
  {
    (Ok(token), store.(tokens := store.tokens + [Token(tokenId, userId, kind, Sha256Of(token), Parsed(now + lifetime))]))
  }

  function CreateVerificationToken(store: Store, userId: string, now: int, token: string, tokenId: string): (out: (Result<string, AuthError>, Store))
    ensures out.1.tokens == store.tokens + [Token(tokenId, userId, VerifyKind, Sha256Of(token), Parsed(now + 86400))]
  {
    CreateToken(store, userId, VerifyKind, VerifyTokenSeconds, now, token, tokenId)
  }

  function CreateResetToken(store: Store, userId: string, now: int, token: string, tokenId: string): (out: (Result<string, AuthError>, Store))
    ensures out.1.tokens == store.tokens + [Token(tokenId, userId, ResetKind, Sha256Of(token), Parsed(now + 3600))]
  {
    CreateToken(store, userId, ResetKind, ResetTokenSeconds, now, token, tokenId)
  }

  /** Index of the first stored token with this digest and kind (`get_token`). */
  function TokenIndex(tokens: seq<Token>, hash: TokenHash, kind: string): (r: Option<nat>)
    ensures r.Some? ==> r.value < |tokens| && tokens[r.value].hash == hash && tokens[r.value].kind == kind
    ensures r.Some? ==> forall k :: 0 <= k < r.value ==> !(tokens[k].hash == hash && tokens[k].kind == kind)
    ensures r.None? <==> forall k :: 0 <= k < |tokens| ==> !(tokens[k].hash == hash && tokens[k].kind == kind)
  {
    TokenIndexFrom(tokens, hash, kind, 0)
  }

  function TokenIndexFrom(tokens: seq<Token>, hash: TokenHash, kind: string, from: nat): (r: Option<nat>)
    requires from <= |tokens|
    ensures r.Some? ==> from <= r.value < |tokens| && tokens[r.value].hash == hash && tokens[r.value].kind == kind
    ensures r.Some? ==> forall k :: from <= k < r.value ==> !(tokens[k].hash == hash && tokens[k].kind == kind)
    ensures r.None? <==> forall k :: from <= k < |tokens| ==> !(tokens[k].hash == hash && tokens[k].kind == kind)
    decreases |tokens| - from
  {
    if from == |tokens| then None
    else if tokens[from].hash == hash && tokens[from].kind == kind then Some(from)
    else TokenIndexFrom(tokens, hash, kind, from + 1)
  }

  /** The search finds the first matching token after `from`. */
  lemma {:induction false} FirstMatchingToken(tokens: seq<Token>, hash: TokenHash, kind: string, from: nat, n: nat)
    requires from <= n < |tokens| && tokens[n].hash == hash && tokens[n].kind == kind
    requires forall k :: from <= k < n ==> !(tokens[k].hash == hash && tokens[k].kind == kind)
    ensures TokenIndexFrom(tokens, hash, kind, from) == Some(n)
    decreases n - from
  {
    if from < n {
      FirstMatchingToken(tokens, hash, kind, from + 1, n);
    }
  }

  /** The tokens without those carrying id `id` (`delete_token`). */
  function DeleteToken(tokens: seq<Token>, id: string): (r: seq<Token>)
    ensures forall k :: 0 <= k < |r| ==> r[k].id != id && r[k] in tokens
    ensures forall k :: 0 <= k < |tokens| && tokens[k].id != id ==> tokens[k] in r
  {
    if |tokens| == 0 then []
    else (if tokens[0].id == id then [] else [tokens[0]]) + DeleteToken(tokens[1..], id)
  }

  /** A token has expired: its expiry is strictly before `now`, or does not parse. */
  predicate Expired(t: Token, now: int) {
    !t.expires.Parsed? || t.expires.t < now
  }

  /** `verify_token`: a known, unexpired token is deleted and yields its user id. */
  function VerifyToken(store: Store, token: string, kind: string, now: int): (out: (Result<string, AuthError>, Store))
    ensures out.0.Err? ==> out == (Err(InvalidToken), store)
    ensures out.0.Err? <==> TokenIndex(store.tokens, Sha256Of(token), kind).None? ||
                             Expired(store.tokens[TokenIndex(store.tokens, Sha256Of(token), kind).value], now)
    ensures out.0.Ok? ==> out.1.users == store.users
    ensures out.0.Ok? ==> var t := store.tokens[TokenIndex(store.tokens, Sha256Of(token), kind).value];
                          out.0.value == t.userId && out.1.tokens == DeleteToken(store.tokens, t.id)
  {
    match TokenIndex(store.tokens, Sha256Of(token), kind)
    case None => (Err(InvalidToken), store)
    case Some(k) =>
      var t := store.tokens[k];
      if Expired(t, now) then (Err(InvalidToken), store)
      else (Ok(t.userId), store.(tokens := DeleteToken(store.tokens, t.id)))
  }

  /** Tokens with the same digest and kind are the same stored token (the same id). */
  predicate SingleUse(store: Store) {
    forall i, j ::
      (0 <= i < |store.tokens| && 0 <= j < |store.tokens| &&
       store.tokens[i].hash == store.tokens[j].hash && store.tokens[i].kind == store.tokens[j].kind) ==>
      store.tokens[i].id == store.tokens[j].id
  }

  /** A freshly generated token (its string and id unused) keeps tokens single-use. */
  lemma CreateTokenKeepsSingleUse(store: Store, userId: string, kind: string, lifetime: int, now: int,
                                  token: string, tokenId: string)
    requires SingleUse(store)
    requires forall k :: 0 <= k < |store.tokens| ==> store.tokens[k].hash != Sha256Of(token)
    ensures SingleUse(CreateToken(store, userId, kind, lifetime, now, token, tokenId).1)
  {
  }

  /** A token that verified once is gone: a second use fails, whenever it happens. */
  lemma SecondUseFails(store: Store, token: string, kind: string, now: int, later: int)
    requires SingleUse(store)
    requires VerifyToken(store, token, kind, now).0.Ok?
    ensures VerifyToken(VerifyToken(store, token, kind, now).1, token, kind, later).0 == Err(InvalidToken)
  {
    var k := TokenIndex(store.tokens, Sha256Of(token), kind).value;
    var rest := VerifyToken(store, token, kind, now).1.tokens;
    assert rest == DeleteToken(store.tokens, store.tokens[k].id);
    forall m | 0 <= m < |rest| ensures !(rest[m].hash == Sha256Of(token) && rest[m].kind == kind) {
      var j :| 0 <= j < |store.tokens| && store.tokens[j] == rest[m];
    }
  }

  /** A new token verifies until its expiry instant and is refused after it. */
  lemma TokenLifetime(store: Store, userId: string, kind: string, lifetime: int, now: int,
                      token: string, tokenId: string, at: int)
    requires forall k :: 0 <= k < |store.tokens| ==> store.tokens[k].hash != Sha256Of(token)
    ensures var created := CreateToken(store, userId, kind, lifetime, now, token, tokenId).1;
            VerifyToken(created, token, kind, at).0 == (if at <= now + lifetime then Ok(userId) else Err(InvalidToken))
  {
    var created := CreateToken(store, userId, kind, lifetime, now, token, tokenId).1;
    var n := |store.tokens|;
    assert created.tokens[..n] == store.tokens;
    FirstMatchingToken(created.tokens, Sha256Of(token), kind, 0, n);
  }

  /** `verify_email`: consumes a verification token and marks its user verified. */
  function VerifyEmail(store: Store, token: string, now: int): (out: (Result<(), AuthError>, Store))
    ensures out.0.Ok? <==> VerifyToken(store, token, VerifyKind, now).0.Ok?
    ensures out.0.Err? ==> out == (Err(InvalidToken), store)
    ensures out.1.tokens == VerifyToken(store, token, VerifyKind, now).1.tokens
    ensures |out.1.users| == |store.users|
    ensures out.0.Ok? ==> forall k :: 0 <= k < |out.1.users| ==>
              out.1.users[k].emailVerified == (store.users[k].emailVerified ||
                                               store.users[k].id == VerifyToken(store, token, VerifyKind, now).0.value)
    ensures forall k :: 0 <= k < |out.1.users| ==>
              out.1.users[k] == store.users[k].(emailVerified := out.1.users[k].emailVerified)
  {
    match VerifyToken(store, token, VerifyKind, now)
    case (Err(e), s) => (Err(e), s)
    case (Ok(userId), s) =>
      var users := seq(|s.users|, k requires 0 <= k < |s.users| =>
        if s.users[k].id == userId then s.users[k].(emailVerified := true) else s.users[k]);
      (Ok(()), s.(users := users))
  }

  /** `reset_password`: consumes a reset token and replaces its user's password hash. */
  function ResetPassword(store: Store, token: string, newPassword: string, now: int): (out: (Result<(), AuthError>, Store))
    ensures out.0.Ok? <==> VerifyToken(store, token, ResetKind, now).0.Ok?
    ensures out.0.Err? ==> out == (Err(InvalidToken), store)
    ensures out.1.tokens == VerifyToken(store, token, ResetKind, now).1.tokens
    ensures |out.1.users| == |store.users|
    ensures out.0.Ok? ==> forall k :: 0 <= k < |out.1.users| ==>
              out.1.users[k].passwordHash == (if store.users[k].id == VerifyToken(store, token, ResetKind, now).0.value
                                              then Argon2Of(newPassword) else store.users[k].passwordHash)
    ensures forall k :: 0 <= k < |out.1.users| ==>
              out.1.users[k] == store.users[k].(passwordHash := out.1.users[k].passwordHash)
  {
    match VerifyToken(store, token, ResetKind, now)
    case (Err(e), s) => (Err(e), s)
    case (Ok(userId), s) =>
      var users := seq(|s.users|, k requires 0 <= k < |s.users| =>
        if s.users[k].id == userId then s.users[k].(passwordHash := Argon2Of(newPassword)) else s.users[k]);
      (Ok(()), s.(users := users))
  }

  /** A freshly issued verification token, used before it expires, marks exactly its user verified. */
  lemma IssuedTokenVerifiesEmail(store: Store, userId: string, now: int, token: string, tokenId: string, at: int)
    requires forall k :: 0 <= k < |store.tokens| ==> store.tokens[k].hash != Sha256Of(token)
    requires at <= now + VerifyTokenSeconds
    ensures var out := VerifyEmail(CreateVerificationToken(store, userId, now, token, tokenId).1, token, at);
            out.0 == Ok(()) &&
            forall k :: 0 <= k < |out.1.users| ==>
              out.1.users[k].emailVerified == (store.users[k].emailVerified || store.users[k].id == userId)
  {
    TokenLifetime(store, userId, VerifyKind, VerifyTokenSeconds, now, token, tokenId, at);
  }

  /** A freshly issued reset token, used before it expires, makes the new password verify for its user and no other. */
  lemma IssuedTokenResetsPassword(store: Store, userId: string, now: int, token: string, tokenId: string,
                                  newPassword: string, at: int)
    requires forall k :: 0 <= k < |store.tokens| ==> store.tokens[k].hash != Sha256Of(token)
    requires at <= now + ResetTokenSeconds
    ensures var out := ResetPassword(CreateResetToken(store, userId, now, token, tokenId).1, token, newPassword, at);
            out.0 == Ok(()) &&
            forall k :: 0 <= k < |out.1.users| ==>
              (VerifyPassword(newPassword, out.1.users[k].passwordHash) <==>
                 store.users[k].id == userId || VerifyPassword(newPassword, store.users[k].passwordHash))
  {
    TokenLifetime(store, userId, ResetKind, ResetTokenSeconds, now, token, tokenId, at);
  }
}

=== FILE: colour.dfy ===
/** Byte-valued colour channels shared by the target page, the server layer and the spectral reconstruction. */
module Colour {

  /** Rust's `u8`. */
  type U8 = x: int | 0 <= x <= 255

  /** An sRGB colour as three 8-bit channels (`[u8; 3]`). */
  datatype Rgb = Rgb(r: U8, g: U8, b: U8)
}

=== FILE: lhtss.dfy ===
/**
 * The scaffolding of the spectral reconstruction of an sRGB colour: the
 * special cases, the bounded Newton iteration with its best-iterate fallback,
 * the 31-band output window, the 31-to-36 band padding, the smoothness
 * (difference) matrix and the CIE76 colour difference. The Newton step itself
 * (residual, Jacobian, linear solve) and `tanh` are parameters.
 */
module Lhtss {
  import opened Wrappers
  import opened Reals
  import opened Colour
  import Text

  /** Bands of the internal curve (380-730 nm) and of the returned curve (400-700 nm). */
  const FullBands: nat := 36
  const OutputBands: nat := 31
  /** First internal band of the returned window. */
  const WindowStart: nat := 2

  /** Iteration cap, convergence threshold on each residual component, and the fallback bound. */
  const MaxIter: nat := 500
  const FTol: real := 0.000001
  const FallbackBound: real := 1.0

  /** Reflectance returned for pure black. */
  const BlackReflectance: real := 0.0001

  type Vec3 = s: seq<real> | |s| == 3 witness [0.0, 0.0, 0.0]
  type Vec36 = s: seq<real> | |s| == 36 witness seq(36, _ => 0.0)
  type Vec39 = s: seq<real> | |s| == 39 witness seq(39, _ => 0.0)

  // ---------------------------------------------------------------------------
  // The T-matrix shape check of `LHTSS::new`
  // ---------------------------------------------------------------------------

  /** Every row of an `Array2` has the same length. */
  predicate Rectangular(m: seq<seq<real>>) {
    forall i :: 0 <= i < |m| ==> |m[i]| == |m[0]|
  }

  /** The `(rows, columns)` shape of a rectangular matrix. */
  function Shape(m: seq<seq<real>>): (nat, nat) {
    (|m|, if |m| == 0 then 0 else |m[0]|)
  }

  /** A reconstruction engine holding a 3x36 wavelength-to-XYZ matrix. */
  datatype Reconstructor = Reconstructor(t: seq<seq<real>>)

  /** The mismatched shape reported when the T-matrix is not 3x36. */
  datatype ShapeError = ShapeError(rows: nat, cols: nat)

  /** `LHTSS::new`: accepts exactly the 3x36 matrices and reports the shape of any other. */
  function New(t: seq<seq<real>>): (r: Result<Reconstructor, ShapeError>)
    requires Rectangular(t)
    ensures r.Ok? <==> (|t| == 3 && forall i :: 0 <= i < |t| ==> |t[i]| == FullBands)
    ensures r.Ok? ==> r.value.t == t
    ensures r.Err? ==> (r.error.rows, r.error.cols) == Shape(t)
  {
    if Shape(t) == (3, FullBands) then Ok(Reconstructor(t))
    else Err(ShapeError(Shape(t).0, Shape(t).1))
  }

  /** A matrix accepted by `New`. */
  predicate ValidT(t: seq<seq<real>>) {
    |t| == 3 && forall i :: 0 <= i < 3 ==> |t[i]| == FullBands
  }

  // ---------------------------------------------------------------------------
  // Padding and XYZ
  // ---------------------------------------------------------------------------

  /** The curve handed to the T-matrix: a 31-band curve is widened to 36 bands by
      repeating its first value twice in front and its last value three times
      behind; any other curve is used as it is. */
  function Pad(r: seq<real>): (p: seq<real>)
    ensures |r| == OutputBands ==> |p| == FullBands
    ensures |r| == OutputBands ==> p[0] == r[0] && p[1] == r[0]
    ensures |r| == OutputBands ==> forall i :: 0 <= i < OutputBands ==> p[i + WindowStart] == r[i]
    ensures |r| == OutputBands ==> p[33] == r[30] && p[34] == r[30] && p[35] == r[30]
    ensures |r| != OutputBands ==> p == r
  {
    if |r| == OutputBands then [r[0], r[0]] + r + [r[30], r[30], r[30]] else r
  }

  /** Cutting the padded curve back to its window recovers the 31-band curve. */
  lemma PadWindowRoundTrip(r: seq<real>)
    requires |r| == OutputBands
    ensures Pad(r)[WindowStart..WindowStart + OutputBands] == r
  {
  }

  /** Inner product of two equally long vectors. */
  function Dot(row: seq<real>, v: seq<real>): real
    requires |row| == |v|
  {
    if |v| == 0 then 0.0 else Dot(row[..|v| - 1], v[..|v| - 1]) + row[|v| - 1] * v[|v| - 1]
  }

  /** `reflectance_to_xyz`: the T-matrix applied to the padded curve. The matrix product
      needs a 36-band curve, so the input must have 31 or 36 bands. */
  function ReflectanceToXyz(e: Reconstructor, r: seq<real>): (xyz: Vec3)
    requires ValidT(e.t)
    requires |r| == OutputBands || |r| == FullBands
    ensures forall k :: 0 <= k < 3 ==> xyz[k] == Dot(e.t[k], Pad(r))
  {
    var p := Pad(r);
    [Dot(e.t[0], p), Dot(e.t[1], p), Dot(e.t[2], p)]
  }

  // ---------------------------------------------------------------------------
  // CIE76 colour difference
  // ---------------------------------------------------------------------------

  /** A CIE Lab colour. */
  datatype Lab = Lab(l: real, a: real, b: real)

  /** `delta_e`: the Euclidean distance between two Lab colours. */
  function DeltaE(sqrt: real -> real, lab1: Lab, lab2: Lab): real {
    var dl, da, db := lab2.l - lab1.l, lab2.a - lab1.a, lab2.b - lab1.b;
    sqrt(dl * dl + da * da + db * db)
  }

  /** The difference does not depend on the order of its arguments, and it is zero
      between a colour and itself whenever the square root of zero is zero. */
  lemma DeltaEProperties(sqrt: real -> real, lab1: Lab, lab2: Lab)
    ensures DeltaE(sqrt, lab1, lab2) == DeltaE(sqrt, lab2, lab1)
    ensures sqrt(0.0) == 0.0 ==> DeltaE(sqrt, lab1, lab1) == 0.0
  {
    var dl, da, db := lab2.l - lab1.l, lab2.a - lab1.a, lab2.b - lab1.b;
    assert (-dl) * (-dl) == dl * dl && (-da) * (-da) == da * da && (-db) * (-db) == db * db;
  }

  // ---------------------------------------------------------------------------
  // The smoothness matrix
  // ---------------------------------------------------------------------------

  /** A 36x36 matrix. */
  predicate Square36(m: seq<seq<real>>) {
    |m| == FullBands && forall i :: 0 <= i < FullBands ==> |m[i]| == FullBands
  }

  /** Row `i` of the construction loop's contribution: 4 on the diagonal, -2 beside it. */
  function BandEntry(i: int, j: int): real {
    if i == j then 4.0 else if j == i - 1 || j == i + 1 then -2.0 else 0.0
  }

  /** One pass of the construction loop: sets row `i`'s diagonal and its neighbours. */
  function SetBand(m: seq<seq<real>>, i: nat): (r: seq<seq<real>>)
    requires Square36(m) && i < FullBands
    ensures Square36(r)
  {
    var row := m[i][i := 4.0];
    var row := if i > 0 then row[i - 1 := -2.0] else row;
    var row := if i < FullBands - 1 then row[i + 1 := -2.0] else row;
    m[i := row]
  }

  /** The construction loop from row `i` onwards. */
  function SetBandsFrom(m: seq<seq<real>>, i: nat): (r: seq<seq<real>>)
    requires Square36(m) && i <= FullBands
    ensures Square36(r)
    decreases FullBands - i
  {
    if i == FullBands then m else SetBandsFrom(SetBand(m, i), i + 1)
  }

  /** `create_difference_matrix`: the band loop over a zero matrix, then the two corners set to 2. */
  function DifferenceMatrix(): (d: seq<seq<real>>)
    ensures Square36(d)
  {
    var zero := seq(FullBands, _ => seq(FullBands, _ => 0.0));
    var m := SetBandsFrom(zero, 0);
    m[0 := m[0][0 := 2.0]][35 := m[35][35 := 2.0]]
  }

  /** Rows below `k` hold their band entries, the others are still zero. */
  predicate BandsBelow(m: seq<seq<real>>, k: nat) {
    Square36(m) &&
    forall i, j :: 0 <= i < FullBands && 0 <= j < FullBands ==>
      m[i][j] == if i < k then BandEntry(i, j) else 0.0
  }

  lemma {:induction false} SetBandsFromCorrect(m: seq<seq<real>>, k: nat)
    requires k <= FullBands && BandsBelow(m, k)
    ensures BandsBelow(SetBandsFrom(m, k), FullBands)
    decreases FullBands - k
  {
    if k < FullBands {
      var m' := SetBand(m, k);
      assert BandsBelow(m', k + 1);
      SetBandsFromCorrect(m', k + 1);
    }
  }

  /** The entries of the smoothness matrix: 2 in the two corners, 4 elsewhere on the
      diagonal, -2 next to the diagonal and 0 everywhere else. */
  function DifferenceEntry(i: int, j: int): real {
    if i == j && (i == 0 || i == 35) then 2.0 else BandEntry(i, j)
  }

  lemma DifferenceMatrixEntries()
    ensures forall i, j :: 0 <= i < FullBands && 0 <= j < FullBands ==>
              DifferenceMatrix()[i][j] == DifferenceEntry(i, j)
  {
    var zero := seq(FullBands, _ => seq(FullBands, _ => 0.0));
    assert BandsBelow(zero, 0);
    SetBandsFromCorrect(zero, 0);
  }

  /** The smoothness matrix is symmetric. */
  lemma DifferenceMatrixSymmetric()
    ensures forall i, j :: 0 <= i < FullBands && 0 <= j < FullBands ==>
              DifferenceMatrix()[i][j] == DifferenceMatrix()[j][i]
  {
    DifferenceMatrixEntries();
  }

  /** The sum of the first `k` entries of row `i` of the smoothness matrix. */
  lemma {:induction false} RowPrefixSum(i: nat, k: nat)
    requires i < FullBands && k <= FullBands
    ensures Sum(DifferenceMatrix()[i][..k]) ==
              (if 0 < i && i - 1 < k then -2.0 else 0.0)
            + (if i < k then DifferenceEntry(i, i) else 0.0)
            + (if i < FullBands - 1 && i + 1 < k then -2.0 else 0.0)
  {
    DifferenceMatrixEntries();
    var row := DifferenceMatrix()[i];
    if k > 0 {
      RowPrefixSum(i, k - 1);
      assert row[..k][..k - 1] == row[..k - 1];
      assert row[..k][k - 1] == DifferenceEntry(i, k - 1);
    }
  }

  /** Every row of the smoothness matrix sums to zero (constant curves are perfectly smooth). */
  lemma DifferenceMatrixRowsSumToZero(i: nat)
    requires i < FullBands
    ensures Sum(DifferenceMatrix()[i]) == 0.0
  {
    RowPrefixSum(i, FullBands);
    assert DifferenceMatrix()[i][..FullBands] == DifferenceMatrix()[i];
  }

  // ---------------------------------------------------------------------------
  // The reconstruction loop
  // ---------------------------------------------------------------------------

  /** The Newton machinery for one target colour, left abstract: the 39-component
      residual of the current iterate (36 stationarity and 3 colour equations), the
      solve of the Jacobian system for the update (which may fail), and `tanh`. */
  datatype Newton = Newton(
    residual: (Vec36, Vec3) -> Vec39,
    solve: (Vec36, Vec3, Vec39) -> Result<Vec39, string>,
    tanh: real -> real)

  /** The unknowns of the iteration: the latent curve `z` and the multipliers `lambda`. */
  datatype Iterate = Iterate(z: Vec36, lambda: Vec3)

  /** The starting point: all zeros. */
  function Start(): Iterate {
    Iterate(seq(36, _ => 0.0), [0.0, 0.0, 0.0])
  }

  /** Applies the update: the first 36 components move `z`, the last 3 move `lambda`. */
  function Advance(it: Iterate, delta: Vec39): Iterate {
    Iterate(seq(36, i requires 0 <= i < 36 => it.z[i] + delta[i]),
            [it.lambda[0] + delta[36], it.lambda[1] + delta[37], it.lambda[2] + delta[38]])
  }

  /** The residual of an iterate. */
  function Residual(nw: Newton, it: Iterate): Vec39 {
    nw.residual(it.z, it.lambda)
  }

  /** The squared norm of the residual: the error tracked for the fallback. */
  function SquaredNorm(f: seq<real>): real {
    Sum(seq(|f|, k requires 0 <= k < |f| => f[k] * f[k]))
  }

  /** Every residual component is below the tolerance in absolute value. */
  predicate Converged(f: seq<real>) {
    forall k :: 0 <= k < |f| ==> -FTol < f[k] < FTol
  }

  /** The reflectance of a latent curve, `(tanh(z) + 1) / 2` band by band. */
  function Activation(nw: Newton, z: Vec36): (r: Vec36) {
    seq(36, i requires 0 <= i < 36 => (nw.tanh(z[i]) + 1.0) / 2.0)
  }

  /** The 400-700 nm window of a 36-band curve: bands 2 to 32. */
  function Window(full: Vec36): (r: seq<real>)
    ensures |r| == OutputBands
    ensures forall i :: 0 <= i < OutputBands ==> r[i] == full[i + WindowStart]
  {
    full[WindowStart..WindowStart + OutputBands]
  }

  /** Reference definition of the `k`-th iterate, or the failure of a solve on the way. */
  function IterateAt(nw: Newton, k: nat): Result<Iterate, string> {
    if k == 0 then Ok(Start())
    else
      match IterateAt(nw, k - 1)
      case Err(e) => Err(e)
      case Ok(it) =>
        match nw.solve(it.z, it.lambda, Residual(nw, it))
        case Err(e) => Err(e)
        case Ok(delta) => Ok(Advance(it, delta))
  }

  /** The first `k` passes all completed without returning: each solve succeeded
      and no residual was within tolerance. */
  predicate Runs(nw: Newton, k: nat) {
    forall j :: 0 <= j < k ==> PassCompletes(nw, j)
  }

  /** Pass `j` solved for its update and its residual was not within tolerance. */
  predicate PassCompletes(nw: Newton, j: nat) {
    IterateAt(nw, j + 1).Ok? && !Converged(Residual(nw, IterateAt(nw, j).value))
  }

  lemma {:induction false} RunsDefined(nw: Newton, k: nat, j: nat)
    requires Runs(nw, k) && j <= k
    ensures IterateAt(nw, j).Ok?
  {
    if j > 0 {
      assert PassCompletes(nw, j - 1);
    }
  }

  /** The lowest squared residual norm among the first `k` iterates, with that iterate;
      a later iterate replaces the record only when strictly better, starting from `f64::MAX`. */
  function BestUpTo(nw: Newton, k: nat): (b: (real, Vec36))
    requires forall j :: 0 <= j < k ==> IterateAt(nw, j).Ok?
  {
    if k == 0 then (F64Max, Start().z)
    else
      var prev := BestUpTo(nw, k - 1);
      var it := IterateAt(nw, k - 1).value;
      var e := SquaredNorm(Residual(nw, it));
      if e < prev.0 then (e, it.z) else prev
  }

  /** Pass `k` returns the updated curve: every earlier pass completed, this pass's
      solve succeeded and its residual was within tolerance. */
  predicate ReturnsEarlyAt(nw: Newton, k: nat) {
    k < MaxIter && Runs(nw, k) && IterateAt(nw, k + 1).Ok? && Converged(Residual(nw, IterateAt(nw, k).value))
  }

  /** Pass `k` fails: every earlier pass completed and this pass's solve failed. */
  predicate FailsAt(nw: Newton, k: nat) {
    k < MaxIter && Runs(nw, k) && IterateAt(nw, k).Ok? && IterateAt(nw, k + 1).Err?
  }

  /** At most one pass can end the loop. */
  lemma ExitIsUnique(nw: Newton, k: nat, m: nat)
    requires ReturnsEarlyAt(nw, k) || FailsAt(nw, k)
    requires ReturnsEarlyAt(nw, m) || FailsAt(nw, m)
    ensures k == m
  {
    assert k < m ==> PassCompletes(nw, k);
    assert m < k ==> PassCompletes(nw, m);
  }

  /** The error of a colour that did not converge; `bestError` is the best squared residual norm as `{:.6}` renders it. */
  function NotConvergedMessage(srgb: Rgb, bestError: string): string {
    "LHTSS did not converge for RGB(" + Text.DecimalString(srgb.r) + "," + Text.DecimalString(srgb.g) + "," +
    Text.DecimalString(srgb.b) + "), best error: " + bestError
  }

  /** `compute_reflectance_target`. Black and white return constant curves at once.
      Otherwise the Newton iteration runs for at most 500 passes; each pass records the
      best iterate, solves for the update (a failed solve ends the call with its error),
      applies it, and returns the updated curve's window when the residual it started
      from was within tolerance. After 500 passes the best iterate's window is returned
      when its squared residual norm is below 1, and otherwise an error naming the colour
      and that norm; `fixed6` is the six-decimal rendering of a float. */
  method ComputeReflectanceTarget(nw: Newton, fixed6: real -> string, srgb: Rgb) returns (r: Result<seq<real>, string>)
    ensures srgb == Rgb(0, 0, 0) ==> r == Ok(seq(OutputBands, _ => BlackReflectance))
    ensures srgb == Rgb(255, 255, 255) ==> r == Ok(seq(OutputBands, _ => 1.0))
    ensures r.Ok? ==> |r.value| == OutputBands
    ensures srgb != Rgb(0, 0, 0) && srgb != Rgb(255, 255, 255) ==>
              forall k: nat :: ReturnsEarlyAt(nw, k) ==> r == Ok(Window(Activation(nw, IterateAt(nw, k + 1).value.z)))
    ensures srgb != Rgb(0, 0, 0) && srgb != Rgb(255, 255, 255) ==>
              forall k: nat :: FailsAt(nw, k) ==> r.Err?
    ensures srgb != Rgb(0, 0, 0) && srgb != Rgb(255, 255, 255) && Runs(nw, MaxIter) ==>
              (forall j :: 0 <= j < MaxIter ==> IterateAt(nw, j).Ok?) &&
              (r.Ok? <==> BestUpTo(nw, MaxIter).0 < FallbackBound) &&
              (r.Ok? ==> r.value == Window(Activation(nw, BestUpTo(nw, MaxIter).1))) &&
              (r.Err? ==> r == Err(NotConvergedMessage(srgb, fixed6(BestUpTo(nw, MaxIter).0))))
  {
    if srgb == Rgb(0, 0, 0) {
      return Ok(seq(OutputBands, _ => BlackReflectance));
    }
    if srgb == Rgb(255, 255, 255) {
      return Ok(seq(OutputBands, _ => 1.0));
    }
    var it := Start();
    var bestZ := it.z;
    var bestError := F64Max;
    var iter := 0;
    while iter < MaxIter
      invariant 0 <= iter <= MaxIter
      invariant Runs(nw, iter)
      invariant IterateAt(nw, iter) == Ok(it)
      invariant forall j :: 0 <= j < iter ==> IterateAt(nw, j).Ok?
      invariant (bestError, bestZ) == BestUpTo(nw, iter)
    {
      var f := Residual(nw, it);
      var error := SquaredNorm(f);
      if error < bestError {
        bestError := error;
        bestZ := it.z;
      }
      var step := nw.solve(it.z, it.lambda, f);
      if step.Err? {
        assert FailsAt(nw, iter);
        assert !PassCompletes(nw, iter);
        assert !Runs(nw, MaxIter);
        forall k: nat | ReturnsEarlyAt(nw, k) || FailsAt(nw, k)
          ensures k == iter
        {
          ExitIsUnique(nw, k, iter);
        }
        return Err(step.error);
      }
      var next := Advance(it, step.value);
      assert IterateAt(nw, iter + 1) == Ok(next);
      if Converged(f) {
        assert ReturnsEarlyAt(nw, iter);
        assert !PassCompletes(nw, iter);
        assert !Runs(nw, MaxIter);
        forall k: nat | ReturnsEarlyAt(nw, k) || FailsAt(nw, k)
          ensures k == iter
        {
          ExitIsUnique(nw, k, iter);
        }
        return Ok(Window(Activation(nw, next.z)));
      }
      assert PassCompletes(nw, iter);
      it := next;
      iter := iter + 1;
    }
    forall k: nat | k < MaxIter
      ensures !ReturnsEarlyAt(nw, k) && !FailsAt(nw, k)
    {
      assert PassCompletes(nw, k);
    }
    if bestError < FallbackBound {
      return Ok(Window(Activation(nw, bestZ)));
    }
    return Err(NotConvergedMessage(srgb, fixed6(bestError)));
  }
}

=== FILE: optimization.dfy ===
/**
 * Kubelka-Munk mixing and the projected gradient search for mixing weights.
 * Arithmetic is over `real` (no rounding); the square root is a parameter
 * `sqrt`, about which nothing is assumed unless a lemma says so.
 */
module Optimization {
  import opened Reals
  import PaintModels
  import Wrappers

  /** Reflectance is clamped into this range before the K/S conversion. */
  const MinReflectance: real := 0.001
  const MaxReflectance: real := 0.999

  /** Main-loop cap, early-stop threshold and finite-difference step of the optimiser. */
  const MaxIterations: nat := 1000
  const Tolerance: real := 0.00000001
  const Delta: real := 0.001
  const InitialAlpha: real := 0.5

  /** K/S = (1 - R)^2 / (2R), with R first clamped into [0.001, 0.999].
      The clamp keeps the result strictly positive and bounded. */
  function ReflectanceToKs(r: real): (ks: real)
    ensures 0.0 < ks <= 499.0005
  {
    var c := Clamp(r, MinReflectance, MaxReflectance);
    KsBounds(c);
    (1.0 - c) * (1.0 - c) / (2.0 * c)
  }

  /** The K/S formula is positive and bounded on the clamped range. */
  lemma KsBounds(c: real)
    requires MinReflectance <= c <= MaxReflectance
    ensures 0.0 < (1.0 - c) * (1.0 - c) / (2.0 * c) <= 499.0005
  {
    var d := 1.0 - c;
    var num, den := d * d, 2.0 * c;
    assert 0.001 <= d <= 0.999;
    assert 0.0 < num by { assert d * d > 0.0 * d; }
    assert num <= 0.998001 by {
      assert d * d <= 0.999 * d;
      assert 0.999 * d <= 0.999 * 0.999;
    }
    assert den >= 0.002;
    var q := num / den;
    assert q * den == num;
    assert q > 0.0;
  }

  /** R = 1 + K/S - sqrt(K/S^2 + 2 K/S), clamped into [0, 1]; a non-positive K/S is pure white. */
  function KsToReflectance(sqrt: real -> real, ks: real): (r: real)
    ensures ks <= 0.0 ==> r == 1.0
    ensures 0.0 <= r <= 1.0
  {
    if ks <= 0.0 then 1.0
    else Clamp(1.0 + ks - sqrt(ks * ks + 2.0 * ks), 0.0, 1.0)
  }

  /** `sqrt` returns the non-negative square root of `x`. */
  predicate ExactRootAt(sqrt: real -> real, x: real) {
    sqrt(x) >= 0.0 && sqrt(x) * sqrt(x) == x
  }

  /**
   * The K/S round trip: wherever the square root is exact on the one value it is
   * applied to, converting a reflectance to K/S and back gives the reflectance
   * back, after the clamp into [0.001, 0.999].
   */
  lemma KsRoundTripExact(sqrt: real -> real, r: real)
    requires ExactRootAt(sqrt, ReflectanceToKs(r) * ReflectanceToKs(r) + 2.0 * ReflectanceToKs(r))
    ensures KsToReflectance(sqrt, ReflectanceToKs(r)) == Clamp(r, MinReflectance, MaxReflectance)
  {
    var c := Clamp(r, MinReflectance, MaxReflectance);
    var ks := ReflectanceToKs(r);
    assert ks * (2.0 * c) == (1.0 - c) * (1.0 - c);
    var v := (1.0 - c * c) / (2.0 * c);
    KsRoot(c, ks, v);
    var x := ks * ks + 2.0 * ks;
    assert x == ReflectanceToKs(r) * ReflectanceToKs(r) + 2.0 * ReflectanceToKs(r);
    assert ExactRootAt(sqrt, x);
    RootUnique(sqrt(x), v, x);
    assert 1.0 + ks - v == c by { KsLinear(c, ks, v); }
  }

  /** The value under the square root is the square of (1 - c^2) / (2c), a positive number. */
  lemma KsRoot(c: real, ks: real, v: real)
    requires MinReflectance <= c <= MaxReflectance
    requires ks * (2.0 * c) == (1.0 - c) * (1.0 - c)
    requires v * (2.0 * c) == 1.0 - c * c
    ensures v > 0.0 && v * v == ks * ks + 2.0 * ks
  {
    var d := 2.0 * c;
    assert d * d > 0.0;
    assert (v * v) * (d * d) == (1.0 - c * c) * (1.0 - c * c);
    assert (ks * ks + 2.0 * ks) * (d * d) == (1.0 - c) * (1.0 - c) * ((1.0 - c) * (1.0 - c) + 2.0 * d);
    assert (1.0 - c) * (1.0 - c) + 2.0 * d == (1.0 + c) * (1.0 + c);
    assert (1.0 - c * c) == (1.0 - c) * (1.0 + c);
    assert (v * v) * (d * d) == (ks * ks + 2.0 * ks) * (d * d);
    assert 1.0 - c * c > 0.0 by { assert c * c <= c * 1.0; }
  }

  /** A non-negative square root of v^2, for v positive, is v. */
  lemma RootUnique(s: real, v: real, x: real)
    requires s >= 0.0 && s * s == x && v > 0.0 && v * v == x
    ensures s == v
  {
    assert (s - v) * (s + v) == 0.0;
    assert s + v > 0.0;
  }

  /** 1 + K/S - (1 - c^2) / (2c) is c. */
  lemma KsLinear(c: real, ks: real, v: real)
    requires c > 0.0
    requires ks * (2.0 * c) == (1.0 - c) * (1.0 - c)
    requires v * (2.0 * c) == 1.0 - c * c
    ensures 1.0 + ks - v == c
  {
    assert (ks - v) * (2.0 * c) == 2.0 * c * c - 2.0 * c;
    assert (ks - v) * (2.0 * c) == (c - 1.0) * (2.0 * c);
  }

  /** The weighted K/S sum of band `i` over the first `m` paints. */
  function KsSum(data: seq<seq<real>>, w: seq<real>, i: nat, m: nat): real
    requires m <= |w| <= |data|
    requires forall j :: 0 <= j < m ==> i < |data[j]|
  {
    if m == 0 then 0.0
    else KsSum(data, w, i, m - 1) + ReflectanceToKs(data[m - 1][i]) * w[m - 1]
  }

  /** What `kubelka_munk_mix` needs of its inputs: at least one curve (the output
      length is taken from the first), and, when the weights have a positive sum and
      the first curve has a band to mix, a curve at least that long for every weight. */
  predicate MixInputs(data: seq<seq<real>>, weights: seq<real>) {
    && |data| > 0
    && (Sum(weights) > 0.0 && |data[0]| > 0 ==>
          |weights| <= |data| && forall j :: 0 <= j < |weights| ==> |data[j]| >= |data[0]|)
  }

  /** Kubelka-Munk mixing: per band, the normalised-weight average of the paints' K/S values,
      converted back to reflectance. Weights summing to zero or less give an all-zero curve. */
  function KubelkaMunkMix(sqrt: real -> real, data: seq<seq<real>>, weights: seq<real>): (mixed: seq<real>)
    requires MixInputs(data, weights)
    ensures |mixed| == |data[0]|
    ensures InUnitRange(mixed)
    ensures Sum(weights) <= 0.0 ==> forall i :: 0 <= i < |mixed| ==> mixed[i] == 0.0
  {
    var n := |data[0]|;
    if Sum(weights) <= 0.0 then seq(n, _ => 0.0)
    else
      var nw := Normalize(weights);
      seq(n, i requires 0 <= i < n => KsToReflectance(sqrt, KsSum(data, nw, i, |nw|)))
  }

  /** Mean of squared band differences (`mean()` of an empty array is `None`, read as `f64::MAX`). */
  function MeanSquaredError(a: seq<real>, b: seq<real>): (e: real)
    requires |a| == |b|
    ensures e >= 0.0
    ensures |a| == 0 ==> e == F64Max
  {
    if |a| == 0 then F64Max
    else
      var sq := seq(|a|, i requires 0 <= i < |a| => (a[i] - b[i]) * (a[i] - b[i]));
      SumBoundsEntries(sq);
      Sum(sq) / (|a| as real)
  }

  /** `compute_error`: the mean squared error of a mixed curve against the target. */
  function ComputeError(mixed: seq<real>, target: seq<real>): (e: real)
    requires |mixed| == |target|
    ensures e >= 0.0
  {
    MeanSquaredError(target, mixed)
  }

  /** The error is zero exactly for a curve compared with itself, and does not depend on the order of the curves. */
  lemma ComputeErrorProperties(a: seq<real>, b: seq<real>)
    requires |a| == |b| && |a| > 0
    ensures ComputeError(a, a) == 0.0
    ensures ComputeError(a, b) == ComputeError(b, a)
  {
    var z := seq(|a|, i requires 0 <= i < |a| => (a[i] - a[i]) * (a[i] - a[i]));
    assert z == seq(|a|, _ => 0.0);
    SumConst(|a|, 0.0);
    var d1 := seq(|a|, i requires 0 <= i < |a| => (a[i] - b[i]) * (a[i] - b[i]));
    var d2 := seq(|a|, i requires 0 <= i < |a| => (b[i] - a[i]) * (b[i] - a[i]));
    assert forall i :: 0 <= i < |a| ==> d1[i] == d2[i];
    assert d1 == d2;
  }

  /** Scaling all weights by a positive constant does not change the mix. */
  lemma MixScaleInvariant(sqrt: real -> real, data: seq<seq<real>>, weights: seq<real>, c: real)
    requires c > 0.0 && MixInputs(data, weights)
    ensures MixInputs(data, Scale(c, weights))
    ensures KubelkaMunkMix(sqrt, data, Scale(c, weights)) == KubelkaMunkMix(sqrt, data, weights)
  {
    SumScale(c, weights);
    if Sum(weights) > 0.0 {
      NormalizeScale(c, weights);
    } else {
      assert c * Sum(weights) <= 0.0;
    }
  }

  /** With every paint's curve equal, the weighted K/S average of a band is that curve's own K/S. */
  lemma {:induction false} KsSumOfIdentical(data: seq<seq<real>>, w: seq<real>, curve: seq<real>, i: nat, m: nat)
    requires m <= |w| <= |data| && i < |curve|
    requires forall j :: 0 <= j < m ==> data[j] == curve
    ensures KsSum(data, w, i, m) == ReflectanceToKs(curve[i]) * Sum(w[..m])
  {
    if m > 0 {
      KsSumOfIdentical(data, w, curve, i, m - 1);
      assert w[..m][..m - 1] == w[..m - 1];
      var k := ReflectanceToKs(curve[i]);
      assert k * Sum(w[..m - 1]) + k * w[m - 1] == k * (Sum(w[..m - 1]) + w[m - 1]);
    }
  }

  /** A curve converted to K/S and back, band by band. */
  function KsRoundTrip(sqrt: real -> real, curve: seq<real>): (r: seq<real>)
    ensures |r| == |curve|
    ensures forall i :: 0 <= i < |curve| ==> r[i] == KsToReflectance(sqrt, ReflectanceToKs(curve[i]))
  {
    seq(|curve|, i requires 0 <= i < |curve| => KsToReflectance(sqrt, ReflectanceToKs(curve[i])))
  }

  /** Band `i` of a mix with a positive weight sum is the converted normalised K/S sum. */
  lemma MixedBand(sqrt: real -> real, data: seq<seq<real>>, weights: seq<real>, i: nat)
    requires MixInputs(data, weights) && Sum(weights) > 0.0 && i < |data[0]|
    ensures i < |KubelkaMunkMix(sqrt, data, weights)|
    ensures KubelkaMunkMix(sqrt, data, weights)[i] == KsToReflectance(sqrt, KsSum(data, Normalize(weights), i, |weights|))
  {
  }

  /** Weights summing to one average a band of identical curves to the curve's own K/S. */
  lemma KsSumOfUnitWeights(data: seq<seq<real>>, w: seq<real>, curve: seq<real>, i: nat)
    requires Sum(w) == 1.0 && |w| <= |data| && i < |curve|
    requires forall j :: 0 <= j < |data| ==> data[j] == curve
    ensures KsSum(data, w, i, |w|) == ReflectanceToKs(curve[i])
  {
    assert w[..|w|] == w;
    KsSumOfIdentical(data, w, curve, i, |w|);
  }

  /** The normalised K/S sum of a band of identical curves is the curve's own K/S. */
  lemma NormalizedKsOfIdentical(data: seq<seq<real>>, weights: seq<real>, curve: seq<real>, i: nat)
    requires NonNegative(weights) && Sum(weights) > 0.0
    requires |weights| <= |data| && i < |curve|
    requires forall j :: 0 <= j < |data| ==> data[j] == curve
    ensures KsSum(data, Normalize(weights), i, |weights|) == ReflectanceToKs(curve[i])
  {
    NormalizeOnSimplex(weights);
    KsSumOfUnitWeights(data, Normalize(weights), curve, i);
  }

  /** One band of a mix of identical curves. */
  lemma MixedBandOfIdentical(sqrt: real -> real, data: seq<seq<real>>, weights: seq<real>, curve: seq<real>, i: nat)
    requires NonNegative(weights) && Sum(weights) > 0.0
    requires |weights| <= |data| && |data| > 0 && i < |curve|
    requires forall j :: 0 <= j < |data| ==> data[j] == curve
    ensures MixInputs(data, weights)
    ensures KubelkaMunkMix(sqrt, data, weights)[i] == KsToReflectance(sqrt, ReflectanceToKs(curve[i]))
  {
    assert data[0] == curve;
    assert MixInputs(data, weights);
    NormalizedKsOfIdentical(data, weights, curve, i);
    MixedBand(sqrt, data, weights, i);
  }

  /** Mixing copies of one paint, in any positive proportions, gives that paint's
      curve passed through the K/S conversion and back. */
  lemma MixOfIdenticalCurves(sqrt: real -> real, data: seq<seq<real>>, weights: seq<real>, curve: seq<real>)
    requires NonNegative(weights) && Sum(weights) > 0.0
    requires |weights| <= |data| && |data| > 0
    requires forall j :: 0 <= j < |data| ==> data[j] == curve
    ensures MixInputs(data, weights)
    ensures KubelkaMunkMix(sqrt, data, weights) == KsRoundTrip(sqrt, curve)
  {
    var mixed := KubelkaMunkMix(sqrt, data, weights);
    var expected := KsRoundTrip(sqrt, curve);
    forall i | 0 <= i < |curve|
      ensures mixed[i] == expected[i]
    {
      MixedBandOfIdentical(sqrt, data, weights, curve, i);
    }
  }

  /** The reflectance curves of the selected paints, in order. */
  function Curves(paints: seq<PaintModels.SpectralData>): (c: seq<seq<real>>)
    ensures |c| == |paints|
    ensures forall j :: 0 <= j < |paints| ==> c[j] == paints[j].curve
  {
    seq(|paints|, j requires 0 <= j < |paints| => paints[j].curve)
  }

  /** What `optimize_weights` needs: at least one paint, a target as long as the first
      paint's curve, a paint (with a long enough curve) for every weight, and
      non-negative starting weights. */
  predicate OptimizerInputs(paints: seq<PaintModels.SpectralData>, initial: seq<real>, target: seq<real>) {
    && |paints| > 0
    && |initial| <= |paints|
    && (forall j :: 0 <= j < |initial| ==> |paints[j].curve| >= |paints[0].curve|)
    && |target| == |paints[0].curve|
    && NonNegative(initial)
  }

  /** Any weight vector of the optimiser's length can be mixed. */
  lemma MixableWeights(paints: seq<PaintModels.SpectralData>, initial: seq<real>, target: seq<real>, w: seq<real>)
    requires OptimizerInputs(paints, initial, target) && |w| == |initial|
    ensures MixInputs(Curves(paints), w)
  {
  }

  /** The optimiser's objective: mean squared error of the mix against the target. */
  function MixError(sqrt: real -> real, paints: seq<PaintModels.SpectralData>, target: seq<real>, w: seq<real>): (e: real)
    requires |paints| > 0 && |target| == |paints[0].curve|
    requires MixInputs(Curves(paints), w)
    ensures e >= 0.0
  {
    MeanSquaredError(target, KubelkaMunkMix(sqrt, Curves(paints), w))
  }

  /** One gradient-descent step: move against the gradient, then clamp each weight into [0, 1]. */
  function Descend(weights: seq<real>, gradients: seq<real>, alpha: real): (r: seq<real>)
    requires |gradients| == |weights|
    ensures |r| == |weights|
    ensures InUnitRange(r) && NonNegative(r)
  {
    seq(|weights|, i requires 0 <= i < |weights| => Clamp(weights[i] - alpha * gradients[i], 0.0, 1.0))
  }

  /** The finite difference of the objective in weight `i`: bump that weight by `Delta`,
      renormalise, and compare the error with `currentError`. */
  function FiniteDifference(sqrt: real -> real, paints: seq<PaintModels.SpectralData>, target: seq<real>,
                            weights: seq<real>, currentError: real, i: nat): real
    requires OptimizerInputs(paints, weights, target) && i < |weights|
  {
    var test := weights[i := weights[i] + Delta];
    assert NonNegative(test) && test[i] >= Delta;
    SumBoundsEntries(test);
    MixableWeights(paints, test, target, Normalize(test));
    (MixError(sqrt, paints, target, Normalize(test)) - currentError) / Delta
  }

  /** The gradient the optimiser follows: one finite difference per weight. */
  function FdGradient(sqrt: real -> real, paints: seq<PaintModels.SpectralData>, target: seq<real>,
                      weights: seq<real>, currentError: real): (g: seq<real>)
    requires OptimizerInputs(paints, weights, target)
    ensures |g| == |weights|
  {
    seq(|weights|, i requires 0 <= i < |weights| => FiniteDifference(sqrt, paints, target, weights, currentError, i))
  }

  /** Finite-difference gradient of the objective, weight by weight. */
  method Gradients(sqrt: real -> real, paints: seq<PaintModels.SpectralData>, target: seq<real>,
                   weights: seq<real>, currentError: real)
    returns (gradients: seq<real>)
    requires OptimizerInputs(paints, weights, target)
    ensures gradients == FdGradient(sqrt, paints, target, weights, currentError)
  {
    gradients := [];
    var i := 0;
    while i < |weights|
      invariant 0 <= i <= |weights|
      invariant |gradients| == i
      invariant forall j :: 0 <= j < i ==> gradients[j] == FiniteDifference(sqrt, paints, target, weights, currentError, j)
    {
      gradients := gradients + [FiniteDifference(sqrt, paints, target, weights, currentError, i)];
      i := i + 1;
    }
    assert |gradients| == |FdGradient(sqrt, paints, target, weights, currentError)|;
  }

  /** 0.9 to the power `k`. */
  function Pow09(k: nat): (p: real)
    ensures 0.0 < p <= 1.0
  {
    if k == 0 then 1.0 else 0.9 * Pow09(k - 1)
  }

  /** The step size of pass `k`: 0.5, shrunk by 0.9 at passes 100, 200, and so on. */
  function Alpha(k: nat): real {
    InitialAlpha * Pow09(k / 100)
  }

  /** The step size changes exactly at the passes that are positive multiples of 100. */
  lemma AlphaSchedule(k: nat)
    requires k > 0
    ensures Alpha(k) == if k % 100 == 0 then Alpha(k - 1) * 0.9 else Alpha(k - 1)
  {
    if k % 100 == 0 {
      assert k / 100 == (k - 1) / 100 + 1;
    } else {
      assert k / 100 == (k - 1) / 100;
    }
  }

  /** The step-size update at the end of pass `k`: shrink by 0.9 on the positive multiples
      of 100. Starting from 0.5 it keeps the step size at `Alpha(k)`. */
  method DecayAlpha(alpha: real, k: nat) returns (next: real)
    requires alpha == if k == 0 then InitialAlpha else Alpha(k - 1)
    ensures next == Alpha(k)
  {
    next := alpha;
    if k > 0 && k % 100 == 0 {
      next := next * 0.9;
    }
    if k > 0 {
      AlphaSchedule(k);
    }
  }

  /** The next pass's weights: descend along the finite-difference gradient with the pass's
      step size, then renormalise as the next pass begins. */
  function NextIterate(sqrt: real -> real, paints: seq<PaintModels.SpectralData>, target: seq<real>,
                       weights: seq<real>, currentError: real, k: nat): (r: seq<real>)
    requires OptimizerInputs(paints, weights, target)
    ensures |r| == |weights| && NonNegative(r)
  {
    Renormalize(Descend(weights, FdGradient(sqrt, paints, target, weights, currentError), Alpha(k)))
  }

  /** The passes of the main loop as recorded by `iterates` (the renormalised weights each
      pass scores) and `trace` (their errors): the first pass scores the renormalised
      starting weights, each later one the descent step from the one before. */
  ghost predicate Passes(sqrt: real -> real, paints: seq<PaintModels.SpectralData>, initial: seq<real>,
                         target: seq<real>, iterates: seq<seq<real>>, trace: seq<real>)
    requires OptimizerInputs(paints, initial, target)
  {
    && |iterates| == |trace|
    && (forall k :: 0 <= k < |iterates| ==> |iterates[k]| == |initial| && NonNegative(iterates[k]))
    && (forall k :: 0 <= k < |iterates| ==> OptimizerInputs(paints, iterates[k], target))
    && (forall k :: 0 <= k < |iterates| ==> MixInputs(Curves(paints), iterates[k]))
    && (|iterates| > 0 ==> iterates[0] == Renormalize(initial))
    && (forall k :: 0 <= k < |iterates| ==> trace[k] == MixError(sqrt, paints, target, iterates[k]))
    && (forall k :: 0 <= k < |iterates| - 1 ==>
          iterates[k + 1] == NextIterate(sqrt, paints, target, iterates[k], trace[k], k))
  }

  /** The optimiser's last step: divide the best weights by their sum when it is positive.
      Non-negative weights end on the probability simplex, or stay all zero. */
  function Renormalize(best: seq<real>): (r: seq<real>)
    requires NonNegative(best)
    ensures |r| == |best| && InUnitRange(r)
    ensures Sum(r) == 1.0 || forall i :: 0 <= i < |r| ==> r[i] == 0.0
  {
    SumBoundsEntries(best);
    if Sum(best) > 0.0 then
      NormalizeOnSimplex(best);
      Normalize(best)
    else
      ZeroSumNonNegative(best);
      best
  }

  /** Renormalising the weights does not change the mix they produce. */
  lemma RenormalizeKeepsMix(sqrt: real -> real, data: seq<seq<real>>, best: seq<real>)
    requires NonNegative(best) && MixInputs(data, best)
    ensures MixInputs(data, Renormalize(best))
    ensures KubelkaMunkMix(sqrt, data, Renormalize(best)) == KubelkaMunkMix(sqrt, data, best)
  {
    SumBoundsEntries(best);
    if Sum(best) > 0.0 {
      NormalizeAsScale(best);
      MixScaleInvariant(sqrt, data, best, 1.0 / Sum(best));
    }
  }

  /** `(bestError, best)` is the loop's running best after the passes in `trace`: the
      first pass with the lowest error, or `f64::MAX` with the starting weights while no
      error is below `f64::MAX`. */
  ghost predicate IsRunningBest(initial: seq<real>, iterates: seq<seq<real>>, trace: seq<real>,
                                bestError: real, best: seq<real>)
    requires |iterates| == |trace|
  {
    && bestError <= F64Max
    && (forall k :: 0 <= k < |trace| ==> bestError <= trace[k])
    && (bestError < F64Max ==>
          exists k :: 0 <= k < |trace| && best == iterates[k] && bestError == trace[k] &&
                      forall j :: 0 <= j < k ==> trace[j] > bestError)
    && (bestError >= F64Max ==> best == initial && forall k :: 0 <= k < |trace| ==> trace[k] >= F64Max)
  }

  /** Replacing the best only on a strictly lower error keeps it the first minimum. */
  lemma RunningBestSnoc(initial: seq<real>, iterates: seq<seq<real>>, trace: seq<real>,
                        bestError: real, best: seq<real>, w: seq<real>, e: real)
    requires |iterates| == |trace| && IsRunningBest(initial, iterates, trace, bestError, best)
    ensures if e < bestError then IsRunningBest(initial, iterates + [w], trace + [e], e, w)
            else IsRunningBest(initial, iterates + [w], trace + [e], bestError, best)
  {
    var its, tr := iterates + [w], trace + [e];
    assert forall k :: 0 <= k < |trace| ==> tr[k] == trace[k] && its[k] == iterates[k];
    if e < bestError {
      assert its[|trace|] == w && tr[|trace|] == e;
    } else if bestError < F64Max {
      var k :| 0 <= k < |trace| && best == iterates[k] && bestError == trace[k] &&
               forall j :: 0 <= j < k ==> trace[j] > bestError;
      assert best == its[k] && bestError == tr[k];
    }
  }

  /** Remember a pass when its error is strictly below the best so far. */
  method UpdateBest(initial: seq<real>, iterates: seq<seq<real>>, trace: seq<real>,
                    bestError: real, best: seq<real>, w: seq<real>, e: real)
    returns (newError: real, newBest: seq<real>)
    requires |iterates| == |trace| && IsRunningBest(initial, iterates, trace, bestError, best)
    ensures IsRunningBest(initial, iterates + [w], trace + [e], newError, newBest)
    ensures (newError, newBest) == if e < bestError then (e, w) else (bestError, best)
  {
    RunningBestSnoc(initial, iterates, trace, bestError, best, w, e);
    newError, newBest := bestError, best;
    if e < newError {
      newError, newBest := e, w;
    }
  }

  /** The weights the next pass starts from: the starting weights before any pass, and
      after pass `k` the gradient step from that pass's weights with step size `Alpha(k)`. */
  ghost predicate PendingWeights(sqrt: real -> real, paints: seq<PaintModels.SpectralData>, initial: seq<real>,
                                 target: seq<real>, iterates: seq<seq<real>>, trace: seq<real>, pending: seq<real>)
    requires OptimizerInputs(paints, initial, target) && |iterates| == |trace|
  {
    && |pending| == |initial| && NonNegative(pending)
    && (|iterates| == 0 ==> pending == initial)
    && (|iterates| > 0 ==>
          OptimizerInputs(paints, iterates[|iterates| - 1], target) &&
          pending == Descend(iterates[|iterates| - 1],
                             FdGradient(sqrt, paints, target, iterates[|iterates| - 1], trace[|trace| - 1]),
                             Alpha(|iterates| - 1)))
  }

  /** The start of a pass: renormalise the pending weights and score them. The pass is
      recorded consistently when the pending weights are the start or the last step. */
  method Score(sqrt: real -> real, paints: seq<PaintModels.SpectralData>, initial: seq<real>, target: seq<real>,
               pending: seq<real>, iterates: seq<seq<real>>, trace: seq<real>)
    returns (weights: seq<real>, error: real)
    requires OptimizerInputs(paints, initial, target)
    requires PassesUpTo(sqrt, paints, initial, target, iterates, trace)
    requires |iterates| == |trace| && PendingWeights(sqrt, paints, initial, target, iterates, trace, pending)
    ensures weights == Renormalize(pending)
    ensures OptimizerInputs(paints, weights, target) && |weights| == |initial|
    ensures MixInputs(Curves(paints), weights) && error == MixError(sqrt, paints, target, weights)
    ensures PassesUpTo(sqrt, paints, initial, target, iterates + [weights], trace + [error])
  {
    weights := Renormalize(pending);
    MixableWeights(paints, initial, target, weights);
    error := MixError(sqrt, paints, target, weights);
    PassesUpToSnoc(sqrt, paints, initial, target, iterates, trace, weights, error);
  }

  /** The end of a pass that did not stop: a gradient step with the pass's step size. */
  method Step(sqrt: real -> real, paints: seq<PaintModels.SpectralData>, target: seq<real>,
              weights: seq<real>, error: real, alpha: real, k: nat)
    returns (next: seq<real>)
    requires OptimizerInputs(paints, weights, target) && alpha == Alpha(k)
    ensures next == Descend(weights, FdGradient(sqrt, paints, target, weights, error), Alpha(k))
    ensures |next| == |weights| && NonNegative(next)
  {
    var gradients := Gradients(sqrt, paints, target, weights, error);
    next := Descend(weights, gradients, alpha);
  }

  /** The variables of the main loop of `optimize_weights`, with the passes recorded so far. */
  datatype SearchState = SearchState(iteration: nat, stopped: bool, weights: seq<real>, alpha: real,
                                     best: seq<real>, bestError: real,
                                     iterates: seq<seq<real>>, trace: seq<real>)

  /** What holds between two passes of the main loop. */
  ghost predicate SearchInvariant(sqrt: real -> real, paints: seq<PaintModels.SpectralData>, initial: seq<real>,
                                  target: seq<real>, s: SearchState)
    requires OptimizerInputs(paints, initial, target)
  {
    && |s.iterates| == |s.trace|
    && PassesUpTo(sqrt, paints, initial, target, s.iterates, s.trace)
    && IsRunningBest(initial, s.iterates, s.trace, s.bestError, s.best)
    && (forall k :: 0 <= k < |s.trace| - 1 ==> s.trace[k] >= Tolerance)
    && if s.stopped then
         1 <= |s.trace| == s.iteration + 1 <= MaxIterations && s.trace[|s.trace| - 1] < Tolerance
       else
         && s.iteration <= MaxIterations && |s.trace| == s.iteration
         && (forall k :: 0 <= k < |s.trace| ==> s.trace[k] >= Tolerance)
         && s.alpha == (if s.iteration == 0 then InitialAlpha else Alpha(s.iteration - 1))
         && PendingWeights(sqrt, paints, initial, target, s.iterates, s.trace, s.weights)
  }

  /** What holds in the middle of a pass, once its weights are scored and recorded. */
  ghost predicate Recorded(sqrt: real -> real, paints: seq<PaintModels.SpectralData>, initial: seq<real>,
                           target: seq<real>, s: SearchState)
    requires OptimizerInputs(paints, initial, target)
  {
    && |s.iterates| == |s.trace| == s.iteration + 1
    && !s.stopped && s.iteration < MaxIterations
    && PassesUpTo(sqrt, paints, initial, target, s.iterates, s.trace)
    && IsRunningBest(initial, s.iterates, s.trace, s.bestError, s.best)
    && (forall k :: 0 <= k < s.iteration ==> s.trace[k] >= Tolerance)
    && s.alpha == (if s.iteration == 0 then InitialAlpha else Alpha(s.iteration - 1))
    && s.weights == s.iterates[s.iteration]
    && |s.weights| == |initial| && OptimizerInputs(paints, s.weights, target)
  }

  /** The first half of a pass: renormalise and score the weights, and remember them when
      their error is strictly below the best so far. */
  method Record(sqrt: real -> real, paints: seq<PaintModels.SpectralData>, initial: seq<real>, target: seq<real>,
                s: SearchState)
    returns (t: SearchState)
    requires OptimizerInputs(paints, initial, target)
    requires SearchInvariant(sqrt, paints, initial, target, s)
    requires !s.stopped && s.iteration < MaxIterations
    ensures Recorded(sqrt, paints, initial, target, t)
    ensures t.iteration == s.iteration
    ensures t.iterates == s.iterates + [t.weights] && t.trace == s.trace + [t.trace[s.iteration]]
  {
    var weights, currentError := Score(sqrt, paints, initial, target, s.weights, s.iterates, s.trace);
    var bestError, best := UpdateBest(initial, s.iterates, s.trace, s.bestError, s.best, weights, currentError);
    RecordedAfterScore(sqrt, paints, initial, target, s, weights, currentError, bestError, best);
    t := SearchState(s.iteration, false, weights, s.alpha, best, bestError, s.iterates + [weights], s.trace + [currentError]);
  }

  /** The facts a scored pass leaves behind make up `Recorded`. */
  lemma RecordedAfterScore(sqrt: real -> real, paints: seq<PaintModels.SpectralData>, initial: seq<real>,
                           target: seq<real>, s: SearchState, w: seq<real>, e: real, bestError: real, best: seq<real>)
    requires OptimizerInputs(paints, initial, target)
    requires !s.stopped && s.iteration < MaxIterations && |s.iterates| == |s.trace| == s.iteration
    requires forall k :: 0 <= k < s.iteration ==> s.trace[k] >= Tolerance
    requires s.alpha == (if s.iteration == 0 then InitialAlpha else Alpha(s.iteration - 1))
    requires PassesUpTo(sqrt, paints, initial, target, s.iterates + [w], s.trace + [e])
    requires |w| == |initial| && OptimizerInputs(paints, w, target)
    requires IsRunningBest(initial, s.iterates + [w], s.trace + [e], bestError, best)
    ensures Recorded(sqrt, paints, initial, target,
                     SearchState(s.iteration, false, w, s.alpha, best, bestError, s.iterates + [w], s.trace + [e]))
  {
    var trace := s.trace + [e];
    assert forall k :: 0 <= k < s.iteration ==> trace[k] == s.trace[k];
    assert (s.iterates + [w])[s.iteration] == w;
  }

  /** The second half of a pass whose error is not below 1e-8: update the step size and
      take a gradient step. */
  method Advance(sqrt: real -> real, paints: seq<PaintModels.SpectralData>, initial: seq<real>, target: seq<real>,
                 s: SearchState)
    returns (t: SearchState)
    requires OptimizerInputs(paints, initial, target)
    requires Recorded(sqrt, paints, initial, target, s) && s.trace[s.iteration] >= Tolerance
    ensures SearchInvariant(sqrt, paints, initial, target, t)
    ensures t.iteration == s.iteration + 1 && !t.stopped
    ensures t.iterates == s.iterates && t.trace == s.trace
  {
    var last := s.iteration;
    var alpha := DecayAlpha(s.alpha, last);
    var next := Step(sqrt, paints, target, s.weights, s.trace[last], alpha, last);
    t := SearchState(last + 1, false, next, alpha, s.best, s.bestError, s.iterates, s.trace);
  }

  /** One pass of the main loop: record the scored weights, then either stop (error below
      1e-8) or take a gradient step. */
  method Pass(sqrt: real -> real, paints: seq<PaintModels.SpectralData>, initial: seq<real>, target: seq<real>,
              s: SearchState)
    returns (t: SearchState)
    requires OptimizerInputs(paints, initial, target)
    requires SearchInvariant(sqrt, paints, initial, target, s)
    requires !s.stopped && s.iteration < MaxIterations
    ensures SearchInvariant(sqrt, paints, initial, target, t)
    ensures |t.trace| == |s.trace| + 1 && t.trace[..|s.trace|] == s.trace
    ensures t.stopped <==> t.trace[|s.trace|] < Tolerance
    ensures t.iteration == if t.stopped then s.iteration else s.iteration + 1
  {
    var u := Record(sqrt, paints, initial, target, s);
    assert u.trace[..|s.trace|] == s.trace;
    if u.trace[u.iteration] < Tolerance {
      t := u.(stopped := true);
    } else {
      t := Advance(sqrt, paints, initial, target, u);
    }
  }

  /** The main loop of `optimize_weights`, at most 1000 passes. `iterates` holds the
      weights each pass scores and `trace` their errors; `best` is the first iterate with
      the lowest error, `bestError`. */
  method Search(sqrt: real -> real, paints: seq<PaintModels.SpectralData>, initial: seq<real>, target: seq<real>)
    returns (best: seq<real>, bestError: real, iterates: seq<seq<real>>, trace: seq<real>)
    requires OptimizerInputs(paints, initial, target)
    ensures |best| == |initial| && NonNegative(best)
    ensures 1 <= |trace| <= MaxIterations
    ensures Passes(sqrt, paints, initial, target, iterates, trace)
    ensures forall k :: 0 <= k < |trace| - 1 ==> trace[k] >= Tolerance
    ensures |trace| < MaxIterations ==> trace[|trace| - 1] < Tolerance
    ensures forall k :: 0 <= k < |trace| ==> bestError <= trace[k]
    ensures bestError < F64Max ==>
              exists k :: 0 <= k < |trace| && best == iterates[k] && bestError == trace[k] &&
                          forall j :: 0 <= j < k ==> trace[j] > bestError
    ensures bestError >= F64Max ==> best == initial && forall k :: 0 <= k < |trace| ==> trace[k] >= F64Max
  {
    var s := SearchState(0, false, initial, InitialAlpha, initial, F64Max, [], []);
    while s.iteration < MaxIterations && !s.stopped
      invariant SearchInvariant(sqrt, paints, initial, target, s)
      decreases MaxIterations - s.iteration, if s.stopped then 0 else 1
    {
      s := Pass(sqrt, paints, initial, target, s);
    }
    best, bestError, iterates, trace := s.best, s.bestError, s.iterates, s.trace;
    PassesUpToAll(sqrt, paints, initial, target, iterates, trace);
  }

  /** `Passes`, built up one pass at a time, the way the loop records them. */
  ghost predicate PassesUpTo(sqrt: real -> real, paints: seq<PaintModels.SpectralData>, initial: seq<real>,
                             target: seq<real>, iterates: seq<seq<real>>, trace: seq<real>)
    requires OptimizerInputs(paints, initial, target)
    decreases |trace|, 1
  {
    |iterates| == |trace| && (|trace| == 0 || LastPassOk(sqrt, paints, initial, target, iterates, trace))
  }

  /** The last recorded pass follows on from the ones before it: its weights are the
      renormalised start or the step from the pass before, and its error is theirs. */
  ghost predicate LastPassOk(sqrt: real -> real, paints: seq<PaintModels.SpectralData>, initial: seq<real>,
                             target: seq<real>, iterates: seq<seq<real>>, trace: seq<real>)
    requires OptimizerInputs(paints, initial, target)
    requires 0 < |trace| == |iterates|
    decreases |trace|, 0
  {
    var m := |trace| - 1;
    var w := iterates[m];
    && PassesUpTo(sqrt, paints, initial, target, iterates[..m], trace[..m])
    && |w| == |initial| && NonNegative(w) && OptimizerInputs(paints, w, target)
    && MixInputs(Curves(paints), w) && trace[m] == MixError(sqrt, paints, target, w)
    && (m == 0 ==> w == Renormalize(initial))
    && (m > 0 ==> OptimizerInputs(paints, iterates[m - 1], target) &&
                  w == NextIterate(sqrt, paints, target, iterates[m - 1], trace[m - 1], m - 1))
  }

  /** Dropping the last pass of a consistent record leaves a consistent record. */
  lemma PassesUpToDropLast(sqrt: real -> real, paints: seq<PaintModels.SpectralData>, initial: seq<real>,
                           target: seq<real>, iterates: seq<seq<real>>, trace: seq<real>)
    requires OptimizerInputs(paints, initial, target)
    requires PassesUpTo(sqrt, paints, initial, target, iterates, trace) && |trace| > 0
    ensures PassesUpTo(sqrt, paints, initial, target, iterates[..|trace| - 1], trace[..|trace| - 1])
  {
    assert LastPassOk(sqrt, paints, initial, target, iterates, trace);
  }

  /** Every prefix of a consistent record is consistent. */
  lemma {:induction false} PassesUpToPrefix(sqrt: real -> real, paints: seq<PaintModels.SpectralData>,
                                            initial: seq<real>, target: seq<real>,
                                            iterates: seq<seq<real>>, trace: seq<real>, n: nat)
    requires OptimizerInputs(paints, initial, target)
    requires PassesUpTo(sqrt, paints, initial, target, iterates, trace) && n <= |trace|
    ensures PassesUpTo(sqrt, paints, initial, target, iterates[..n], trace[..n])
    decreases |trace|
  {
    if n < |trace| {
      PassesUpToDropLast(sqrt, paints, initial, target, iterates, trace);
      var m := |trace| - 1;
      PassesUpToPrefix(sqrt, paints, initial, target, iterates[..m], trace[..m], n);
      SlicePrefix(iterates, m, n);
      SlicePrefix(trace, m, n);
    } else {
      SlicePrefix(iterates, n, n);
      SlicePrefix(trace, n, n);
    }
  }

  /** A prefix of a prefix is a prefix, and the whole sequence is its own prefix. */
  lemma SlicePrefix<T>(s: seq<T>, m: nat, n: nat)
    requires n <= m <= |s|
    ensures s[..m][..n] == s[..n]
    ensures m == |s| ==> s[..m] == s
  {
  }

  /** What a consistent record says about its pass `k`. */
  lemma PassAt(sqrt: real -> real, paints: seq<PaintModels.SpectralData>, initial: seq<real>, target: seq<real>,
               iterates: seq<seq<real>>, trace: seq<real>, k: nat)
    requires OptimizerInputs(paints, initial, target)
    requires PassesUpTo(sqrt, paints, initial, target, iterates, trace) && k < |trace|
    ensures |iterates[k]| == |initial| && NonNegative(iterates[k]) && OptimizerInputs(paints, iterates[k], target)
    ensures MixInputs(Curves(paints), iterates[k]) && trace[k] == MixError(sqrt, paints, target, iterates[k])
    ensures k == 0 ==> iterates[0] == Renormalize(initial)
    ensures k > 0 ==> OptimizerInputs(paints, iterates[k - 1], target) &&
                      iterates[k] == NextIterate(sqrt, paints, target, iterates[k - 1], trace[k - 1], k - 1)
  {
    PassesUpToPrefix(sqrt, paints, initial, target, iterates, trace, k + 1);
    var its, tr := iterates[..k + 1], trace[..k + 1];
    assert LastPassOk(sqrt, paints, initial, target, its, tr);
    assert its[k] == iterates[k] && tr[k] == trace[k];
    if k > 0 {
      assert its[k - 1] == iterates[k - 1] && tr[k - 1] == trace[k - 1];
    }
  }

  /** Every pass of a consistent record scores valid weights, and the trace holds their errors. */
  lemma PassesUpToScores(sqrt: real -> real, paints: seq<PaintModels.SpectralData>, initial: seq<real>,
                         target: seq<real>, iterates: seq<seq<real>>, trace: seq<real>)
    requires OptimizerInputs(paints, initial, target)
    requires PassesUpTo(sqrt, paints, initial, target, iterates, trace)
    ensures |iterates| == |trace|
    ensures forall k :: 0 <= k < |iterates| ==> |iterates[k]| == |initial| && NonNegative(iterates[k])
    ensures forall k :: 0 <= k < |iterates| ==> OptimizerInputs(paints, iterates[k], target)
    ensures forall k :: 0 <= k < |iterates| ==> MixInputs(Curves(paints), iterates[k])
    ensures forall k :: 0 <= k < |iterates| ==> trace[k] == MixError(sqrt, paints, target, iterates[k])
  {
    forall k | 0 <= k < |trace|
      ensures |iterates[k]| == |initial| && NonNegative(iterates[k]) && OptimizerInputs(paints, iterates[k], target)
      ensures MixInputs(Curves(paints), iterates[k]) && trace[k] == MixError(sqrt, paints, target, iterates[k])
    {
      PassAt(sqrt, paints, initial, target, iterates, trace, k);
    }
  }

  /** In a consistent record every pass after the first steps from the one before it. */
  lemma PassesUpToSteps(sqrt: real -> real, paints: seq<PaintModels.SpectralData>, initial: seq<real>,
                        target: seq<real>, iterates: seq<seq<real>>, trace: seq<real>)
    requires OptimizerInputs(paints, initial, target)
    requires PassesUpTo(sqrt, paints, initial, target, iterates, trace)
    requires |iterates| == |trace| && forall k :: 0 <= k < |iterates| ==> OptimizerInputs(paints, iterates[k], target)
    ensures |iterates| > 0 ==> iterates[0] == Renormalize(initial)
    ensures forall k :: 0 <= k < |iterates| - 1 ==>
              iterates[k + 1] == NextIterate(sqrt, paints, target, iterates[k], trace[k], k)
  {
    forall k | 0 <= k < |trace| - 1
      ensures iterates[k + 1] == NextIterate(sqrt, paints, target, iterates[k], trace[k], k)
    {
      StepAt(sqrt, paints, initial, target, iterates, trace, k);
    }
    if |trace| > 0 {
      PassAt(sqrt, paints, initial, target, iterates, trace, 0);
    }
  }

  /** In a consistent record, pass `k + 1` steps from pass `k`. */
  lemma StepAt(sqrt: real -> real, paints: seq<PaintModels.SpectralData>, initial: seq<real>, target: seq<real>,
               iterates: seq<seq<real>>, trace: seq<real>, k: nat)
    requires OptimizerInputs(paints, initial, target)
    requires PassesUpTo(sqrt, paints, initial, target, iterates, trace) && k + 1 < |trace|
    ensures OptimizerInputs(paints, iterates[k], target)
    ensures iterates[k + 1] == NextIterate(sqrt, paints, target, iterates[k], trace[k], k)
  {
    var j := k + 1;
    PassAt(sqrt, paints, initial, target, iterates, trace, j);
    assert j - 1 == k;
    assert iterates[j - 1] == iterates[k] && trace[j - 1] == trace[k];
    assert NextIterate(sqrt, paints, target, iterates[j - 1], trace[j - 1], j - 1) ==
           NextIterate(sqrt, paints, target, iterates[k], trace[k], k);
  }

  /** The passes recorded one at a time satisfy `Passes`. */
  lemma PassesUpToAll(sqrt: real -> real, paints: seq<PaintModels.SpectralData>, initial: seq<real>,
                      target: seq<real>, iterates: seq<seq<real>>, trace: seq<real>)
    requires OptimizerInputs(paints, initial, target)
    requires PassesUpTo(sqrt, paints, initial, target, iterates, trace)
    ensures Passes(sqrt, paints, initial, target, iterates, trace)
  {
    PassesUpToScores(sqrt, paints, initial, target, iterates, trace);
    PassesUpToSteps(sqrt, paints, initial, target, iterates, trace);
  }

  /** Recording a pass that follows on from the last one keeps the record consistent. */
  lemma PassesUpToSnoc(sqrt: real -> real, paints: seq<PaintModels.SpectralData>, initial: seq<real>,
                       target: seq<real>, iterates: seq<seq<real>>, trace: seq<real>, w: seq<real>, e: real)
    requires OptimizerInputs(paints, initial, target)
    requires PassesUpTo(sqrt, paints, initial, target, iterates, trace)
    requires |w| == |initial| && NonNegative(w) && MixInputs(Curves(paints), w)
    requires e == MixError(sqrt, paints, target, w)
    requires |iterates| == 0 ==> w == Renormalize(initial)
    requires |iterates| > 0 ==>
               OptimizerInputs(paints, iterates[|iterates| - 1], target) &&
               w == NextIterate(sqrt, paints, target, iterates[|iterates| - 1], trace[|trace| - 1], |iterates| - 1)
    ensures PassesUpTo(sqrt, paints, initial, target, iterates + [w], trace + [e])
  {
    if |iterates| == 0 {
      FirstPassSnoc(sqrt, paints, initial, target, iterates, trace, w, e);
    } else {
      NextPassSnoc(sqrt, paints, initial, target, iterates, trace, w, e);
    }
  }

  /** Recording the first pass. */
  lemma FirstPassSnoc(sqrt: real -> real, paints: seq<PaintModels.SpectralData>, initial: seq<real>,
                      target: seq<real>, iterates: seq<seq<real>>, trace: seq<real>, w: seq<real>, e: real)
    requires OptimizerInputs(paints, initial, target)
    requires |iterates| == |trace| == 0
    requires |w| == |initial| && NonNegative(w) && MixInputs(Curves(paints), w)
    requires e == MixError(sqrt, paints, target, w)
    requires w == Renormalize(initial)
    ensures PassesUpTo(sqrt, paints, initial, target, iterates + [w], trace + [e])
  {
    assert OptimizerInputs(paints, w, target);
    FirstPassIntro(sqrt, paints, initial, target, [w], [e]);
    assert [w] == iterates + [w] && [e] == trace + [e];
  }

  /** Recording a pass after the first. */
  lemma NextPassSnoc(sqrt: real -> real, paints: seq<PaintModels.SpectralData>, initial: seq<real>,
                     target: seq<real>, iterates: seq<seq<real>>, trace: seq<real>, w: seq<real>, e: real)
    requires OptimizerInputs(paints, initial, target)
    requires PassesUpTo(sqrt, paints, initial, target, iterates, trace) && |iterates| > 0
    requires |w| == |initial| && NonNegative(w) && MixInputs(Curves(paints), w)
    requires e == MixError(sqrt, paints, target, w)
    requires OptimizerInputs(paints, iterates[|iterates| - 1], target)
    requires w == NextIterate(sqrt, paints, target, iterates[|iterates| - 1], trace[|trace| - 1], |iterates| - 1)
    ensures PassesUpTo(sqrt, paints, initial, target, iterates + [w], trace + [e])
  {
    var m := |iterates|;
    var its, tr := iterates + [w], trace + [e];
    assert |trace| == m;
    assert its[m - 1] == iterates[m - 1] && tr[m - 1] == trace[m - 1];
    assert its[m] == w && tr[m] == e;
    assert its[..m] == iterates && tr[..m] == trace;
    assert NextIterate(sqrt, paints, target, its[m - 1], tr[m - 1], m - 1) == w;
    assert OptimizerInputs(paints, w, target);
    LastPassIntro(sqrt, paints, initial, target, its, tr);
  }

  /** A single pass that scores the renormalised start is a consistent record. */
  lemma FirstPassIntro(sqrt: real -> real, paints: seq<PaintModels.SpectralData>, initial: seq<real>,
                       target: seq<real>, iterates: seq<seq<real>>, trace: seq<real>)
    requires OptimizerInputs(paints, initial, target)
    requires |iterates| == |trace| == 1
    requires |iterates[0]| == |initial| && NonNegative(iterates[0]) && OptimizerInputs(paints, iterates[0], target)
    requires MixInputs(Curves(paints), iterates[0]) && trace[0] == MixError(sqrt, paints, target, iterates[0])
    requires iterates[0] == Renormalize(initial)
    ensures PassesUpTo(sqrt, paints, initial, target, iterates, trace)
  {
    assert iterates[..0] == [] && trace[..0] == [];
    assert LastPassOk(sqrt, paints, initial, target, iterates, trace);
  }

  /** A record of two or more passes is consistent when its prefix is and its last pass
      steps from the one before it. */
  lemma LastPassIntro(sqrt: real -> real, paints: seq<PaintModels.SpectralData>, initial: seq<real>,
                      target: seq<real>, iterates: seq<seq<real>>, trace: seq<real>)
    requires OptimizerInputs(paints, initial, target)
    requires 0 < |iterates| == |trace|
    requires PassesUpTo(sqrt, paints, initial, target, iterates[..|trace| - 1], trace[..|trace| - 1])
    requires var w := iterates[|trace| - 1];
             |w| == |initial| && NonNegative(w) && OptimizerInputs(paints, w, target) &&
             MixInputs(Curves(paints), w) && trace[|trace| - 1] == MixError(sqrt, paints, target, w)
    requires |trace| > 1
    requires OptimizerInputs(paints, iterates[|trace| - 2], target)
    requires iterates[|trace| - 1] == NextIterate(sqrt, paints, target, iterates[|trace| - 2], trace[|trace| - 2], |trace| - 2)
    ensures PassesUpTo(sqrt, paints, initial, target, iterates, trace)
  {
    assert LastPassOk(sqrt, paints, initial, target, iterates, trace);
  }

  /** `optimize_weights`: projected gradient descent on the weights, keeping the best
      weights seen. It always succeeds; the result is as long as the starting weights,
      lies in [0, 1] and is either on the probability simplex or all zero. `iterates` and
      `trace` record the passes of the main loop: at most 1000, stopping early exactly
      when a pass's error drops below 1e-8. Once some pass error is finite, the result is
      the renormalised first iterate with the lowest error, and mixes with that error. */
  method OptimizeWeights(sqrt: real -> real, paints: seq<PaintModels.SpectralData>, initial: seq<real>, target: seq<real>)
    returns (result: Wrappers.Result<seq<real>, PaintModels.ColorError>, iterates: seq<seq<real>>, trace: seq<real>)
    requires OptimizerInputs(paints, initial, target)
    ensures result.Ok?
    ensures |result.value| == |initial|
    ensures InUnitRange(result.value)
    ensures Sum(result.value) == 1.0 || forall i :: 0 <= i < |result.value| ==> result.value[i] == 0.0
    ensures 1 <= |trace| <= MaxIterations
    ensures Passes(sqrt, paints, initial, target, iterates, trace)
    ensures forall k :: 0 <= k < |trace| - 1 ==> trace[k] >= Tolerance
    ensures |trace| < MaxIterations ==> trace[|trace| - 1] < Tolerance
    ensures MixInputs(Curves(paints), result.value)
    ensures (exists k :: 0 <= k < |trace| && trace[k] < F64Max) ==>
              && (exists k :: 0 <= k < |trace| && result.value == Renormalize(iterates[k]) &&
                             forall j :: 0 <= j < k ==> trace[j] > trace[k])
              && MixError(sqrt, paints, target, result.value) in trace
              && forall k :: 0 <= k < |trace| ==> MixError(sqrt, paints, target, result.value) <= trace[k]
    ensures (forall k :: 0 <= k < |trace| ==> trace[k] >= F64Max) ==> result.value == Renormalize(initial)
  {
    var best, bestError;
    best, bestError, iterates, trace := Search(sqrt, paints, initial, target);
    var chosen := Renormalize(best);
    MixableWeights(paints, initial, target, chosen);
    MixableWeights(paints, initial, target, best);
    RenormalizeKeepsMix(sqrt, Curves(paints), best);
    result := Wrappers.Ok(chosen);
  }

}

=== FILE: paint_mixing.dfy ===
/**
 * The combination search of the paint-mixing service: a mix choice selects a
 * strategy, the strategy lists candidate paint combinations, each candidate is
 * optimised and scored, and the scored results are ranked.
 *
 * The weight optimiser and the colour-difference scorer are parameters
 * (`Engine`): the search only depends on what they return. Rayon's parallel
 * `filter_map` followed by `collect` keeps input order, so it is modelled as a
 * sequential filter-map.
 */
module PaintMixing {
  import opened Wrappers
  import Text
  import opened PaintModels
  import Seqs
  import Reals
  import Ranking

  /** A catalogue entry handed to the search: name, reflectance curve, hex colour. */
  type Paint = SpectralData

  /** One candidate combination, in the order the paints are mixed. */
  type Combo = seq<Paint>

  /**
   * The numerical parts of the search. `optimize` is the weight optimiser
   * applied to a combination and its initial weights (`None` is an optimiser
   * error, which drops the candidate); `score` is the colour difference between
   * the mix of a combination under some weights and the target.
   */
  datatype Engine = Engine(optimize: (Combo, seq<real>) -> Option<seq<real>>,
                           score: (Combo, seq<real>) -> real)

  // ---------------------------------------------------------------------------
  // Name tests (ASCII lower-casing and trimming)

  /** The name lower-cases and trims to exactly `name`. */
  predicate NamedExactly(p: Paint, name: string) {
    Text.Trim(Text.Lower(p.colorName)) == name
  }

  /** One of the three paints the black-and-white strategies treat specially. */
  predicate IsReserved(p: Paint) {
    NamedExactly(p, "titanium white") || NamedExactly(p, "ivory black") || NamedExactly(p, "warm white")
  }

  /** The lower-cased name mentions grey in either spelling. */
  predicate IsGrey(p: Paint) {
    Text.Contains(Text.Lower(p.colorName), "grey") || Text.Contains(Text.Lower(p.colorName), "gray")
  }

  /** The lower-cased name mentions black. */
  predicate HasBlack(p: Paint) {
    Text.Contains(Text.Lower(p.colorName), "black")
  }

  // ---------------------------------------------------------------------------
  // Combinatorics

  /** C(k, 2), by Pascal's rule. */
  function Choose2(k: nat): nat {
    if k == 0 then 0 else (k - 1) + Choose2(k - 1)
  }

  /** C(k, 3), by Pascal's rule. */
  function Choose3(k: nat): nat {
    if k == 0 then 0 else Choose2(k - 1) + Choose3(k - 1)
  }

  /** The binomial coefficients in closed form: k(k-1)/2 and k(k-1)(k-2)/6. */
  lemma {:induction false} ChooseClosedForms(k: nat)
    ensures 2 * Choose2(k) == k * (k - 1)
    ensures 6 * Choose3(k) == k * (k - 1) * (k - 2)
  {
    if k > 0 {
      ChooseClosedForms(k - 1);
      assert k * (k - 1) == (k - 1) * (k - 2) + 2 * (k - 1);
      assert k * (k - 1) * (k - 2) == (k - 1) * (k - 2) * (k - 3) + 3 * ((k - 1) * (k - 2));
    }
  }

  /** Every combination of `cs` with `prefix` put in front. */
  function PrefixAll(prefix: Combo, cs: seq<Combo>): (r: seq<Combo>)
    ensures |r| == |cs|
    ensures forall k :: 0 <= k < |r| ==> |r[k]| == |prefix| + |cs[k]|
    ensures forall k :: 0 <= k < |r| ==> r[k][..|prefix|] == prefix && r[k][|prefix|..] == cs[k]
  {
    seq(|cs|, k requires 0 <= k < |cs| => prefix + cs[k])
  }

  /** The unordered pairs of `o`, each as the paints at two strictly increasing indices. */
  function Pairs(o: seq<Paint>): seq<Combo> {
    if |o| == 0 then []
    else seq(|o| - 1, j requires 0 <= j < |o| - 1 => [o[0], o[j + 1]]) + Pairs(o[1..])
  }

  /** The unordered triples of `o`, each as the paints at three strictly increasing indices. */
  function Triples(o: seq<Paint>): seq<Combo> {
    if |o| == 0 then [] else PrefixAll([o[0]], Pairs(o[1..])) + Triples(o[1..])
  }

  predicate IsPair(o: seq<Paint>, c: Combo, i: int, j: int) {
    0 <= i < j < |o| && c == [o[i], o[j]]
  }

  predicate IsTriple(o: seq<Paint>, c: Combo, i: int, j: int, k: int) {
    0 <= i < j < k < |o| && c == [o[i], o[j], o[k]]
  }

  /** The pairs are exactly the picks at two strictly increasing indices. */
  lemma {:induction false} PairsAreIncreasingPicks(o: seq<Paint>, c: Combo)
    ensures c in Pairs(o) <==> exists i, j :: IsPair(o, c, i, j)
  {
    if |o| > 0 {
      var head := seq(|o| - 1, j requires 0 <= j < |o| - 1 => [o[0], o[j + 1]]);
      assert Pairs(o) == head + Pairs(o[1..]);
      PairsAreIncreasingPicks(o[1..], c);
      if c in Pairs(o) {
        if c in head {
          var j :| 0 <= j < |head| && head[j] == c;
          assert IsPair(o, c, 0, j + 1);
        } else {
          var i, j :| IsPair(o[1..], c, i, j);
          assert IsPair(o, c, i + 1, j + 1);
        }
      }
      if exists i, j :: IsPair(o, c, i, j) {
        var i, j :| IsPair(o, c, i, j);
        if i == 0 {
          assert head[j - 1] == c;
        } else {
          assert IsPair(o[1..], c, i - 1, j - 1);
        }
      }
    }
  }

  /** There are C(k, 2) pairs of k paints. */
  lemma {:induction false} PairsCount(o: seq<Paint>)
    ensures |Pairs(o)| == Choose2(|o|)
  {
    if |o| > 0 {
      PairsCount(o[1..]);
    }
  }

  /** The triples are exactly the picks at three strictly increasing indices. */
  lemma TriplesAreIncreasingPicks(o: seq<Paint>, c: Combo)
    ensures c in Triples(o) <==> exists i, j, k :: IsTriple(o, c, i, j, k)
  {
    if c in Triples(o) {
      TriplesSound(o, c);
    }
    if exists i, j, k :: IsTriple(o, c, i, j, k) {
      var i, j, k :| IsTriple(o, c, i, j, k);
      TriplesComplete(o, i, j, k);
    }
  }

  lemma {:induction false} TriplesSound(o: seq<Paint>, c: Combo)
    requires c in Triples(o)
    ensures exists i, j, k :: IsTriple(o, c, i, j, k)
  {
    var head := PrefixAll([o[0]], Pairs(o[1..]));
    assert Triples(o) == head + Triples(o[1..]);
    if c in head {
      var n :| 0 <= n < |head| && head[n] == c;
      var p := Pairs(o[1..])[n];
      PairsAreIncreasingPicks(o[1..], p);
      var i, j :| IsPair(o[1..], p, i, j);
      assert c == [o[0]] + p;
      assert IsTriple(o, c, 0, i + 1, j + 1);
    } else {
      TriplesSound(o[1..], c);
      var i, j, k :| IsTriple(o[1..], c, i, j, k);
      assert IsTriple(o, c, i + 1, j + 1, k + 1);
    }
  }

  lemma {:induction false} TriplesComplete(o: seq<Paint>, i: nat, j: nat, k: nat)
    requires i < j < k < |o|
    ensures [o[i], o[j], o[k]] in Triples(o)
  {
    var head := PrefixAll([o[0]], Pairs(o[1..]));
    assert Triples(o) == head + Triples(o[1..]);
    if i == 0 {
      PrefixedPairIn(o, j, k);
    } else {
      TriplesComplete(o[1..], i - 1, j - 1, k - 1);
      assert [o[1..][i - 1], o[1..][j - 1], o[1..][k - 1]] == [o[i], o[j], o[k]];
    }
  }

  /** A pair of later paints, with the first paint put in front, is among the first paint's triples. */
  lemma PrefixedPairIn(o: seq<Paint>, j: nat, k: nat)
    requires 0 < j < k < |o|
    ensures [o[0], o[j], o[k]] in PrefixAll([o[0]], Pairs(o[1..]))
  {
    var head := PrefixAll([o[0]], Pairs(o[1..]));
    var p := [o[j], o[k]];
    assert IsPair(o[1..], p, j - 1, k - 1);
    PairsAreIncreasingPicks(o[1..], p);
    var n :| 0 <= n < |Pairs(o[1..])| && Pairs(o[1..])[n] == p;
    assert head[n][..1] == [o[0]] && head[n][1..] == p;
    assert head[n] == [o[0]] + p == [o[0], o[j], o[k]];
  }


  /** There are C(k, 3) triples of k paints. */
  lemma {:induction false} TriplesCount(o: seq<Paint>)
    ensures |Triples(o)| == Choose3(|o|)
  {
    if |o| > 0 {
      TriplesCount(o[1..]);
      PairsCount(o[1..]);
    }
  }

  /** The contiguous windows of length `n`, as `0..len.saturating_sub(n - 1)` enumerates them. */
  function Windows(s: seq<Paint>, n: nat): (r: seq<Combo>)
    requires n >= 1
    ensures |r| == if |s| >= n then |s| - n + 1 else 0
    ensures forall i :: 0 <= i < |r| ==> |r[i]| == n && r[i] == s[i..i + n]
  {
    var count := if |s| >= n - 1 then |s| - (n - 1) else 0;
    seq(count, i requires 0 <= i < count => s[i..i + n])
  }

  /**
   * `r` lists, for each width of `widths` in turn, every window of `s` of
   * that width, by increasing start index.
   */
  ghost predicate WindowsInOrder(s: seq<Paint>, r: seq<Combo>, widths: seq<nat>)
    decreases |widths|
  {
    if |widths| == 0 then r == []
    else
      var n := widths[0];
      var count := if |s| >= n then |s| - n + 1 else 0;
      n >= 1 && count <= |r| &&
      (forall i :: 0 <= i < count ==> r[i] == s[i..i + n]) &&
      WindowsInOrder(s, r[count..], widths[1..])
  }

  lemma WindowsThen(s: seq<Paint>, n: nat, rest: seq<Combo>, widths: seq<nat>)
    requires n >= 1 && WindowsInOrder(s, rest, widths)
    ensures WindowsInOrder(s, Windows(s, n) + rest, [n] + widths)
  {
    var r := Windows(s, n) + rest;
    assert r[|Windows(s, n)|..] == rest;
    assert ([n] + widths)[1..] == widths;
  }

  /** Windows of width `a`, then of width `b`, listed one after the other. */
  lemma WindowsOfTwoWidths(s: seq<Paint>, a: nat, b: nat)
    requires a >= 1 && b >= 1
    ensures WindowsInOrder(s, Windows(s, a) + Windows(s, b), [a] + [b])
  {
    WindowsThen(s, b, [], []);
    assert Windows(s, b) + [] == Windows(s, b);
    WindowsThen(s, a, Windows(s, b), [b]);
  }

  // ---------------------------------------------------------------------------
  // Strategies: the candidate lists

  /** The paints other than titanium white, ivory black and warm white, in order. */
  function Others(paints: seq<Paint>): (r: seq<Paint>)
    ensures forall i :: 0 <= i < |r| ==> r[i] in paints && !IsReserved(r[i])
    ensures forall i :: 0 <= i < |paints| && !IsReserved(paints[i]) ==> paints[i] in r
  {
    Seqs.Filter(paints, p => !IsReserved(p))
  }

  /** The first titanium white and the first ivory black; white is looked up first. */
  function Anchors(paints: seq<Paint>): (r: Result<(Paint, Paint), ColorError>)
    ensures r.Ok? ==> NamedExactly(r.value.0, "titanium white") && NamedExactly(r.value.1, "ivory black")
    ensures r.Ok? ==> r.value.0 in paints && r.value.1 in paints
    ensures r.Ok? ==> exists i :: IsFirstNamed(paints, "titanium white", i) && paints[i] == r.value.0
    ensures r.Ok? ==> exists i :: IsFirstNamed(paints, "ivory black", i) && paints[i] == r.value.1
  {
    match FirstNamed(paints, "titanium white")
    case None => Err(MissingColor("Titanium White"))
    case Some(white) =>
      match FirstNamed(paints, "ivory black")
      case None => Err(MissingColor("Ivory Black"))
      case Some(black) => Ok((white, black))
  }

  /** White is looked for first: without it the error names white, whether or not black is present. */
  lemma AnchorsMissingWhite(paints: seq<Paint>)
    requires forall i :: 0 <= i < |paints| ==> !NamedExactly(paints[i], "titanium white")
    ensures Anchors(paints) == Err(MissingColor("Titanium White"))
  {
  }

  /** With white present and black absent, the error names black. */
  lemma AnchorsMissingBlack(paints: seq<Paint>, w: nat)
    requires w < |paints| && NamedExactly(paints[w], "titanium white")
    requires forall i :: 0 <= i < |paints| ==> !NamedExactly(paints[i], "ivory black")
    ensures Anchors(paints) == Err(MissingColor("Ivory Black"))
  {
  }

  /** With both present, the anchors are found. */
  lemma AnchorsFound(paints: seq<Paint>, w: nat, b: nat)
    requires w < |paints| && NamedExactly(paints[w], "titanium white")
    requires b < |paints| && NamedExactly(paints[b], "ivory black")
    ensures Anchors(paints).Ok?
  {
  }

  /** Index `i` holds a paint so named, and no earlier paint is. */
  predicate IsFirstNamed(paints: seq<Paint>, name: string, i: int) {
    0 <= i < |paints| && NamedExactly(paints[i], name) &&
    forall k :: 0 <= k < i ==> !NamedExactly(paints[k], name)
  }

  /** The first paint whose name lower-cases and trims to `name` (`iter().find(..)`). */
  function FirstNamed(paints: seq<Paint>, name: string): (r: Option<Paint>)
    ensures r.Some? <==> exists i :: 0 <= i < |paints| && NamedExactly(paints[i], name)
    ensures r.Some? ==> r.value in paints && NamedExactly(r.value, name)
    ensures r.Some? ==> exists i :: IsFirstNamed(paints, name, i) && paints[i] == r.value
  {
    var r := Seqs.Find(paints, p => NamedExactly(p, name));
    assert r.Some? ==> exists i :: IsFirstNamed(paints, name, i) && paints[i] == r.value;
    r
  }

  /** White, black and `nExtra` other paints (only 2 and 3 give candidates). */
  function BlackWhiteCandidates(paints: seq<Paint>, nExtra: nat): (r: Result<seq<Combo>, ColorError>)
    ensures r.Err? <==> Anchors(paints).Err?
    ensures r.Ok? ==> |r.value| == if nExtra == 2 then Choose2(|Others(paints)|)
                                   else if nExtra == 3 then Choose3(|Others(paints)|) else 0
  {
    match Anchors(paints)
    case Err(e) => Err(e)
    case Ok((white, black)) =>
      var others := Others(paints);
      PairsCount(others);
      TriplesCount(others);
      var picks := if nExtra == 2 then Pairs(others) else if nExtra == 3 then Triples(others) else [];
      Ok(PrefixAll([white, black], picks))
  }

  /** The members of `PrefixAll` are exactly the prefixed members of `cs`. */
  lemma PrefixAllMembers(prefix: Combo, cs: seq<Combo>, c: Combo)
    ensures c in PrefixAll(prefix, cs) <==> |prefix| <= |c| && c[..|prefix|] == prefix && c[|prefix|..] in cs
  {
    var r := PrefixAll(prefix, cs);
    if |prefix| <= |c| && c[..|prefix|] == prefix && c[|prefix|..] in cs {
      var n :| 0 <= n < |cs| && cs[n] == c[|prefix|..];
      assert c == prefix + c[|prefix|..];
      assert r[n] == c;
    }
  }

  /**
   * With two extras, each candidate is white, black, then two of the
   * non-reserved paints at strictly increasing indices; every such pick occurs.
   */
  lemma BlackWhitePairShape(paints: seq<Paint>, c: Combo)
    requires Anchors(paints).Ok?
    ensures c in BlackWhiteCandidates(paints, 2).value <==>
              |c| == 4 && c[..2] == [Anchors(paints).value.0, Anchors(paints).value.1] &&
              exists i, j :: IsPair(Others(paints), c[2..], i, j)
  {
    var anchors := Anchors(paints).value;
    PrefixAllMembers([anchors.0, anchors.1], Pairs(Others(paints)), c);
    if |c| >= 2 {
      PairsAreIncreasingPicks(Others(paints), c[2..]);
    }
  }

  /** With three extras, the same with three strictly increasing indices. */
  lemma BlackWhiteTripleShape(paints: seq<Paint>, c: Combo)
    requires Anchors(paints).Ok?
    ensures c in BlackWhiteCandidates(paints, 3).value <==>
              |c| == 5 && c[..2] == [Anchors(paints).value.0, Anchors(paints).value.1] &&
              exists i, j, k :: IsTriple(Others(paints), c[2..], i, j, k)
  {
    var anchors := Anchors(paints).value;
    PrefixAllMembers([anchors.0, anchors.1], Triples(Others(paints)), c);
    if |c| >= 2 {
      TriplesAreIncreasingPicks(Others(paints), c[2..]);
    }
  }

  /** Windows of 3, 4 and 5 consecutive paints of the whole list. */
  function AllAvailableCandidates(paints: seq<Paint>): (r: seq<Combo>)
    ensures |r| == |Windows(paints, 3)| + |Windows(paints, 4)| + |Windows(paints, 5)|
    ensures WindowsInOrder(paints, r, [3] + ([4] + [5]))
  {
    WindowsOfTwoWidths(paints, 4, 5);
    WindowsThen(paints, 3, Windows(paints, 4) + Windows(paints, 5), [4] + [5]);
    Windows(paints, 3) + (Windows(paints, 4) + Windows(paints, 5))
  }

  /** Each grey followed by each pair of `pairs`, greys in the outer loop. */
  function GreyCombos(greys: seq<Paint>, pairs: seq<Combo>): (r: seq<Combo>)
    ensures |r| == |greys| * |pairs|
  {
    if |greys| == 0 then [] else PrefixAll([greys[0]], pairs) + GreyCombos(greys[1..], pairs)
  }

  /** The grey combinations are exactly one grey followed by one pair. */
  lemma {:induction false} GreyCombosMembers(greys: seq<Paint>, pairs: seq<Combo>, c: Combo)
    ensures c in GreyCombos(greys, pairs) <==> |c| > 0 && c[0] in greys && c[1..] in pairs
  {
    if |greys| > 0 {
      var head := PrefixAll([greys[0]], pairs);
      assert GreyCombos(greys, pairs) == head + GreyCombos(greys[1..], pairs);
      GreyCombosMembers(greys[1..], pairs, c);
      assert greys == [greys[0]] + greys[1..];
      if c in head {
        var n :| 0 <= n < |head| && head[n] == c;
        assert c[..1] == [greys[0]];
      }
      if |c| > 0 && c[0] == greys[0] && c[1..] in pairs {
        var n :| 0 <= n < |pairs| && pairs[n] == c[1..];
        assert c == [greys[0]] + c[1..];
        assert head[n] == c;
      }
    }
  }

  /** The greys, and the paints that are neither grey nor reserved. */
  function Greys(paints: seq<Paint>): (r: seq<Paint>)
    ensures forall i :: 0 <= i < |r| ==> r[i] in paints && IsGrey(r[i])
    ensures forall i :: 0 <= i < |paints| && IsGrey(paints[i]) ==> paints[i] in r
  {
    Seqs.Filter(paints, IsGrey)
  }

  function NonGreys(paints: seq<Paint>): (r: seq<Paint>)
    ensures forall i :: 0 <= i < |r| ==> r[i] in paints && !IsGrey(r[i]) && !IsReserved(r[i])
    ensures forall i :: 0 <= i < |paints| && !IsGrey(paints[i]) && !IsReserved(paints[i]) ==> paints[i] in r
  {
    Seqs.Filter(paints, p => !IsGrey(p) && !IsReserved(p))
  }

  /** One grey and an unordered pair of other paints; nothing when there is no grey. */
  function NeutralGreyCandidates(paints: seq<Paint>): (r: seq<Combo>)
    ensures |Greys(paints)| == 0 ==> r == []
    ensures |r| == |Greys(paints)| * Choose2(|NonGreys(paints)|)
  {
    var greys := Greys(paints);
    PairsCount(NonGreys(paints));
    if |greys| == 0 then [] else GreyCombos(greys, Pairs(NonGreys(paints)))
  }

  /** Each neutral-grey candidate is a grey followed by two other paints at increasing indices. */
  lemma NeutralGreyCandidateShape(paints: seq<Paint>, c: Combo)
    ensures c in NeutralGreyCandidates(paints) <==>
              |c| == 3 && c[0] in Greys(paints) && exists i, j :: IsPair(NonGreys(paints), c[1..], i, j)
  {
    var greys, o := Greys(paints), NonGreys(paints);
    GreyCombosMembers(greys, Pairs(o), c);
    if |c| > 0 {
      PairsAreIncreasingPicks(o, c[1..]);
    }
  }

  /** The paints without black in their name. */
  function Blackless(paints: seq<Paint>): (r: seq<Paint>)
    ensures forall i :: 0 <= i < |r| ==> r[i] in paints && !HasBlack(r[i])
    ensures forall i :: 0 <= i < |paints| && !HasBlack(paints[i]) ==> paints[i] in r
  {
    Seqs.Filter(paints, p => !HasBlack(p))
  }

  /** Windows of 3 and 4 consecutive paints among those without black. */
  function NoBlackCandidates(paints: seq<Paint>): (r: seq<Combo>)
    ensures forall c :: c in r ==> |c| == 3 || |c| == 4
    ensures WindowsInOrder(Blackless(paints), r, [3] + [4])
  {
    var avail := Blackless(paints);
    WindowsOfTwoWidths(avail, 3, 4);
    Windows(avail, 3) + Windows(avail, 4)
  }

  /** The "no black" candidates are exactly the contiguous 3- and 4-slices of the black-free paints. */
  lemma NoBlackAreWindows(paints: seq<Paint>, c: Combo)
    ensures c in NoBlackCandidates(paints) <==>
              exists n, i :: 3 <= n <= 4 && IsWindow(Blackless(paints), c, n, i)
  {
    var avail := Blackless(paints);
    WindowMembers(avail, 3, c);
    WindowMembers(avail, 4, c);
    if exists n, i :: 3 <= n <= 4 && IsWindow(avail, c, n, i) {
      var n, i :| 3 <= n <= 4 && IsWindow(avail, c, n, i);
      assert n == 3 || n == 4;
    }
  }

  /** No "no black" candidate holds a paint whose name mentions black. */
  lemma NoBlackExcludesBlack(paints: seq<Paint>, c: Combo, m: nat)
    requires c in NoBlackCandidates(paints) && m < |c|
    ensures !HasBlack(c[m])
  {
    var avail := Blackless(paints);
    NoBlackAreWindows(paints, c);
    var n, i :| 3 <= n <= 4 && IsWindow(avail, c, n, i);
    assert c[m] == avail[i + m];
  }

  predicate IsWindow(s: seq<Paint>, c: Combo, n: nat, i: int) {
    0 <= i && i + n <= |s| && c == s[i..i + n]
  }

  /** The windows of length `n` are exactly the contiguous slices of that length. */
  lemma WindowMembers(s: seq<Paint>, n: nat, c: Combo)
    requires n >= 1
    ensures c in Windows(s, n) <==> exists i :: IsWindow(s, c, n, i)
  {
    if exists i :: IsWindow(s, c, n, i) {
      var i :| IsWindow(s, c, n, i);
      assert Windows(s, n)[i] == c;
    }
    if c in Windows(s, n) {
      var k :| 0 <= k < |Windows(s, n)| && Windows(s, n)[k] == c;
      assert IsWindow(s, c, n, k);
    }
  }

  /** The "all available" candidates are the windows of 3, then of 4, then of 5 consecutive paints. */
  lemma AllAvailableAreWindows(paints: seq<Paint>, c: Combo)
    ensures c in AllAvailableCandidates(paints) <==>
              exists n, i :: 3 <= n <= 5 && IsWindow(paints, c, n, i)
  {
    WindowMembers(paints, 3, c);
    WindowMembers(paints, 4, c);
    WindowMembers(paints, 5, c);
    if exists n, i :: 3 <= n <= 5 && IsWindow(paints, c, n, i) {
      var n, i :| 3 <= n <= 5 && IsWindow(paints, c, n, i);
      assert n == 3 || n == 4 || n == 5;
    }
  }

  /** The candidate list of a strategy. */
  function Candidates(paints: seq<Paint>, choice: MixChoice): (r: Result<seq<Combo>, ColorError>)
    ensures r.Err? ==> (choice == BlackWhite2Colors || choice == BlackWhite3Colors) && r.error.MissingColor?
  {
    match choice
    case BlackWhite2Colors => BlackWhiteCandidates(paints, 2)
    case BlackWhite3Colors => BlackWhiteCandidates(paints, 3)
    case AllAvailableColors => Ok(AllAvailableCandidates(paints))
    case NeutralGreys => Ok(NeutralGreyCandidates(paints))
    case NoBlack => Ok(NoBlackCandidates(paints))
  }

  // ---------------------------------------------------------------------------
  // Scoring and ranking

  /** n copies of 1/n: the optimiser's starting point. */
  function Uniform(n: nat): (w: seq<real>)
    ensures |w| == n
    ensures n > 0 ==> Reals.Sum(w) == 1.0
  {
    var w := seq(n, i requires 0 <= i < n => 1.0 / n as real);
    assert n > 0 ==> Reals.Sum(w) == 1.0 by {
      if n > 0 {
        assert w == seq(n, _ => 1.0 / n as real);
        Reals.SumConst(n, 1.0 / n as real);
      }
    }
    w
  }

  /** The result record of a combination: names and hex colours in combination order. */
  function CreateResult(engine: Engine, combo: Combo, weights: seq<real>): (r: MixingResult)
    ensures |r.paints| == |combo| && |r.hexColors| == |combo|
    ensures forall i :: 0 <= i < |combo| ==> r.paints[i] == combo[i].colorName && r.hexColors[i] == combo[i].hex
    ensures r.weights == weights
    ensures r.error == engine.score(combo, weights)
  {
    MixingResult(seq(|combo|, i requires 0 <= i < |combo| => combo[i].colorName),
                 weights,
                 engine.score(combo, weights),
                 seq(|combo|, i requires 0 <= i < |combo| => combo[i].hex))
  }

  /** The optimised and scored candidates; those the optimiser rejects are dropped. */
  function Evaluate(engine: Engine, combos: seq<Combo>): (r: seq<MixingResult>)
    ensures |r| <= |combos|
  {
    if |combos| == 0 then []
    else
      var c := combos[0];
      (match engine.optimize(c, Uniform(|c|))
       case None => []
       case Some(w) => [CreateResult(engine, c, w)]) + Evaluate(engine, combos[1..])
  }

  /** Evaluation works candidate by candidate, so it keeps the candidates' order. */
  lemma {:induction false} EvaluateAppend(engine: Engine, a: seq<Combo>, b: seq<Combo>)
    ensures Evaluate(engine, a + b) == Evaluate(engine, a) + Evaluate(engine, b)
  {
    if |a| > 0 {
      assert (a + b)[0] == a[0] && (a + b)[1..] == a[1..] + b;
      EvaluateAppend(engine, a[1..], b);
    } else {
      assert a + b == b;
    }
  }

  /** When the optimiser never fails, every candidate yields its own result, in order. */
  lemma {:induction false} EvaluateTotal(engine: Engine, combos: seq<Combo>)
    requires forall i :: 0 <= i < |combos| ==> engine.optimize(combos[i], Uniform(|combos[i]|)).Some?
    ensures |Evaluate(engine, combos)| == |combos|
    ensures forall i :: 0 <= i < |combos| ==>
              Evaluate(engine, combos)[i].paints == CreateResult(engine, combos[i], Evaluate(engine, combos)[i].weights).paints
  {
    if |combos| > 0 {
      EvaluateTotal(engine, combos[1..]);
      var r := Evaluate(engine, combos);
      assert r[1..] == Evaluate(engine, combos[1..]);
      forall i | 1 <= i < |combos|
        ensures r[i].paints == CreateResult(engine, combos[i], r[i].weights).paints
      {
        assert combos[1..][i - 1] == combos[i];
        assert r[i] == Evaluate(engine, combos[1..])[i - 1];
      }
    }
  }

  /**
   * The search: dispatch on the case-insensitive mix choice, list the
   * candidates, score them, and keep the five best after a stable sort.
   */
  function FindCombinations(engine: Engine, paints: seq<Paint>, choice: string): (r: Result<seq<MixingResult>, ColorError>)
    ensures FromStr(choice).None? <==> r == Err(OptimizationError("Invalid mix choice"))
    ensures r.Err? && r.error.MissingColor? ==>
              FromStr(choice) == Some(BlackWhite2Colors) || FromStr(choice) == Some(BlackWhite3Colors)
    ensures r.Ok? ==> Ranking.Sorted(r.value) && |r.value| <= Ranking.TopCount
  {
    match FromStr(choice)
    case None => Err(OptimizationError("Invalid mix choice"))
    case Some(c) =>
      match Candidates(paints, c)
      case Err(e) => Err(e)
      case Ok(combos) => Ok(Ranking.Rank(Evaluate(engine, combos)))
  }

  /** Every name `MixChoice::as_str` produces is accepted by the dispatch. */
  lemma AsStrAccepted(engine: Engine, paints: seq<Paint>, c: MixChoice)
    ensures FindCombinations(engine, paints, AsStr(c)) != Err(OptimizationError("Invalid mix choice"))
  {
    RoundTrip(c);
  }

  /**
   * The output is the first five entries of any stable sort of the scored
   * candidates: it depends only on the errors and the enumeration order.
   */
  lemma FindCombinationsIsStableTop(engine: Engine, paints: seq<Paint>, choice: string, sorted: seq<MixingResult>)
    requires FromStr(choice).Some? && Candidates(paints, FromStr(choice).value).Ok?
    requires var all := Evaluate(engine, Candidates(paints, FromStr(choice).value).value);
             Ranking.Sorted(sorted) && Ranking.SameTies(all, sorted)
    ensures FindCombinations(engine, paints, choice) ==
              Ok(sorted[..if |sorted| < Ranking.TopCount then |sorted| else Ranking.TopCount])
  {
    var all := Evaluate(engine, Candidates(paints, FromStr(choice).value).value);
    Ranking.AnyStableSortRanksAlike(all, sorted);
  }
}

=== FILE: paint_models.dfy ===
/**
 * The value types shared by the mixing engine and the server layer:
 * mixing results, the engine's error type and the five mix strategies.
 */
module PaintModels {
  import opened Wrappers
  import Text

  /** One catalogue paint handed to the engine: name, reflectance curve and display hex. */
  datatype SpectralData = SpectralData(colorName: string, curve: seq<real>, hex: string)

  /** A ranked mixture: the paints, their weights, the ΔE error and the paints' hex colours. */
  datatype MixingResult = MixingResult(paints: seq<string>, weights: seq<real>, error: real, hexColors: seq<string>)

  /** Errors of the mixing engine. */
  datatype ColorError =
    | MissingColor(name: string)
    | NoValidMixture
    | OptimizationError(message: string)

  /** The `Display` text of a `ColorError`. */
  function ErrorMessage(e: ColorError): (m: string)
    ensures e.MissingColor? ==> m == "Missing required color: " + e.name
    ensures e.OptimizationError? ==> m == "Optimization error: " + e.message
    ensures e.NoValidMixture? ==> m == "No valid mixture found"
  {
    match e
    case MissingColor(n) => "Missing required color: " + n
    case NoValidMixture => "No valid mixture found"
    case OptimizationError(msg) => "Optimization error: " + msg
  }

  /** The five search strategies offered to the user. */
  datatype MixChoice = BlackWhite2Colors | BlackWhite3Colors | AllAvailableColors | NeutralGreys | NoBlack

  /** The canonical (lower-case) name of a strategy. */
  function AsStr(c: MixChoice): string {
    match c
    case BlackWhite2Colors => "black + white + 2 colours"
    case BlackWhite3Colors => "black + white + 3 colours"
    case AllAvailableColors => "all available colours"
    case NeutralGreys => "neutral greys"
    case NoBlack => "no black"
  }

  /** Parses a strategy name, ignoring case: a strategy is returned exactly when
      the lower-cased input is that strategy's name, and nothing otherwise. */
  function FromStr(s: string): (r: Option<MixChoice>)
    ensures forall c :: r == Some(c) <==> Text.Lower(s) == AsStr(c)
    ensures r.None? <==> forall c :: Text.Lower(s) != AsStr(c)
  {
    var l := Text.Lower(s);
    if l == "black + white + 2 colours" then Some(BlackWhite2Colors)
    else if l == "black + white + 3 colours" then Some(BlackWhite3Colors)
    else if l == "all available colours" then Some(AllAvailableColors)
    else if l == "neutral greys" then Some(NeutralGreys)
    else if l == "no black" then Some(NoBlack)
    else None
  }

  /** The position of a strategy in `All()`. */
  function Ordinal(c: MixChoice): (i: nat)
    ensures i < 5
  {
    match c
    case BlackWhite2Colors => 0
    case BlackWhite3Colors => 1
    case AllAvailableColors => 2
    case NeutralGreys => 3
    case NoBlack => 4
  }

  /** Every strategy, in the order the settings page lists them. */
  function All(): (r: seq<MixChoice>)
    ensures |r| == 5
    ensures forall c :: c in r
    ensures forall i, j :: 0 <= i < j < |r| ==> r[i] != r[j] && AsStr(r[i]) != AsStr(r[j])
  {
    var r := [BlackWhite2Colors, BlackWhite3Colors, AllAvailableColors, NeutralGreys, NoBlack];
    assert forall c :: r[Ordinal(c)] == c && c in r;
    r
  }

  /** Lower-casing an already lower-cased string changes nothing. */
  lemma {:induction false} LowerIdempotent(s: string)
    ensures Text.Lower(Text.Lower(s)) == Text.Lower(s)
  {
    var l := Text.Lower(s);
    assert forall i :: 0 <= i < |l| ==> Text.LowerChar(l[i]) == l[i];
  }

  /** Parsing the name of a strategy gives that strategy back. */
  lemma RoundTrip(c: MixChoice)
    ensures FromStr(AsStr(c)) == Some(c)
  {
    LowerIdempotent(AsStr(c));
    assert Text.Lower(AsStr(c)) == AsStr(c);
  }

  /** Two inputs that agree after lower-casing parse to the same strategy;
      in particular upper-case variants of the names are accepted. */
  lemma CaseInsensitive(s: string)
    ensures FromStr(s) == FromStr(Text.Lower(s))
  {
    LowerIdempotent(s);
  }

  /** Distinct strategies have distinct names. */
  lemma AsStrInjective(c1: MixChoice, c2: MixChoice)
    ensures AsStr(c1) == AsStr(c2) ==> c1 == c2
  {
  }
}

=== FILE: ranking.dfy ===
/**
 * Ranking of mixing results: Rust's `sort_by` on the error (a stable sort)
 * followed by `take(5)`. The sort is modelled as a stable insertion sort, and
 * `StableSortIsUnique` shows that every stable sort of the same input yields
 * the same sequence, so the choice of algorithm does not matter.
 */
module Ranking {
  import opened PaintModels

  /** Number of results kept after sorting. */
  const TopCount: nat := 5

  predicate Sorted(s: seq<MixingResult>) {
    forall i, j :: 0 <= i < j < |s| ==> s[i].error <= s[j].error
  }

  /** The results of `s` whose error is exactly `e`, in their order in `s`. */
  function Ties(s: seq<MixingResult>, e: real): seq<MixingResult> {
    if |s| == 0 then [] else (if s[0].error == e then [s[0]] else []) + Ties(s[1..], e)
  }

  /** `t` is a stable rearrangement of `s`: per error value, the same results in the same order. */
  ghost predicate SameTies(s: seq<MixingResult>, t: seq<MixingResult>) {
    forall e :: Ties(s, e) == Ties(t, e)
  }

  /** Ties of a sequence with one result put in front. */
  lemma TiesCons(x: MixingResult, s: seq<MixingResult>, e: real)
    ensures Ties([x] + s, e) == (if x.error == e then [x] else []) + Ties(s, e)
  {
    assert ([x] + s)[1..] == s;
  }

  /** Inserts `x` before the first result whose error is not below `x`'s, so that `x` precedes its ties. */
  function Insert(x: MixingResult, s: seq<MixingResult>): seq<MixingResult> {
    if |s| == 0 || x.error <= s[0].error then [x] + s
    else [s[0]] + Insert(x, s[1..])
  }

  /** Insertion adds exactly `x`. */
  lemma {:induction false} InsertMultiset(x: MixingResult, s: seq<MixingResult>)
    ensures multiset(Insert(x, s)) == multiset(s) + multiset{x}
  {
    if |s| > 0 && x.error > s[0].error {
      InsertMultiset(x, s[1..]);
      assert s == [s[0]] + s[1..];
    }
  }

  /** Insertion into a sorted sequence keeps it sorted. */
  lemma {:induction false} InsertSorted(x: MixingResult, s: seq<MixingResult>)
    requires Sorted(s)
    ensures Sorted(Insert(x, s))
  {
    if |s| == 0 || x.error <= s[0].error {
      SortedCons(x, s);
    } else {
      var rest := Insert(x, s[1..]);
      InsertSorted(x, s[1..]);
      InsertMultiset(x, s[1..]);
      forall i | 0 <= i < |rest| ensures s[0].error <= rest[i].error {
        assert rest[i] in multiset(s[1..]) + multiset{x};
      }
      SortedCons(s[0], rest);
    }
  }

  /** A sorted sequence stays sorted when a result no worse than all of it is put in front. */
  lemma SortedCons(x: MixingResult, s: seq<MixingResult>)
    requires Sorted(s)
    requires forall i :: 0 <= i < |s| ==> x.error <= s[i].error
    ensures Sorted([x] + s)
  {
  }

  /** Insertion puts `x` in front of its ties and leaves every other error's ties alone. */
  lemma {:induction false} InsertTies(x: MixingResult, s: seq<MixingResult>, e: real)
    ensures Ties(Insert(x, s), e) == (if x.error == e then [x] else []) + Ties(s, e)
  {
    if |s| == 0 || x.error <= s[0].error {
      TiesCons(x, s, e);
    } else {
      InsertTies(x, s[1..], e);
      TiesCons(s[0], Insert(x, s[1..]), e);
      TiesCons(s[0], s[1..], e);
      assert s == [s[0]] + s[1..];
    }
  }

  /** Stable sort by ascending error. */
  function StableSort(s: seq<MixingResult>): (r: seq<MixingResult>)
    ensures Sorted(r)
    ensures multiset(r) == multiset(s)
  {
    if |s| == 0 then []
    else
      var t := StableSort(s[1..]);
      InsertSorted(s[0], t);
      InsertMultiset(s[0], t);
      assert s == [s[0]] + s[1..];
      Insert(s[0], t)
  }

  /** The stable sort keeps the results of each error value in their input order. */
  lemma {:induction false} StableSortKeepsTies(s: seq<MixingResult>)
    ensures SameTies(s, StableSort(s))
  {
    if |s| > 0 {
      StableSortKeepsTies(s[1..]);
      forall e ensures Ties(s, e) == Ties(StableSort(s), e) {
        InsertTies(s[0], StableSort(s[1..]), e);
        TiesCons(s[0], s[1..], e);
        assert s == [s[0]] + s[1..];
      }
    }
  }

  /** The first `TopCount` results of the stable sort (`sort_by` then `take(5)`). */
  function Rank(results: seq<MixingResult>): (r: seq<MixingResult>)
    ensures |r| == if |results| < TopCount then |results| else TopCount
    ensures Sorted(r)
    ensures multiset(r) <= multiset(results)
  {
    var sorted := StableSort(results);
    var n := if |sorted| < TopCount then |sorted| else TopCount;
    assert sorted == sorted[..n] + sorted[n..];
    assert multiset(sorted) == multiset(sorted[..n]) + multiset(sorted[n..]);
    sorted[..n]
  }

  /** Nothing that was cut off has a smaller error than anything kept. */
  lemma RankKeepsSmallest(results: seq<MixingResult>, x: MixingResult, y: MixingResult)
    requires x in Rank(results) && y in results && y !in Rank(results)
    ensures x.error <= y.error
  {
    var sorted := StableSort(results);
    var n := |Rank(results)|;
    assert Rank(results) == sorted[..n];
    assert y in multiset(sorted);
    var i :| 0 <= i < n && sorted[i] == x;
    var j :| 0 <= j < |sorted| && sorted[j] == y;
    assert j >= n;
  }

  /** Every member of `s` shows up among the ties for its own error. */
  lemma {:induction false} InOwnTies(s: seq<MixingResult>, x: MixingResult)
    requires x in s
    ensures x in Ties(s, x.error)
  {
    if s[0] != x {
      InOwnTies(s[1..], x);
    }
  }

  /** Every member of the ties for `e` has error `e` and belongs to `s`. */
  lemma {:induction false} TiesMembers(s: seq<MixingResult>, e: real, x: MixingResult)
    requires x in Ties(s, e)
    ensures x.error == e && x in s
  {
    if |s| > 0 && x !in (if s[0].error == e then [s[0]] else []) {
      TiesMembers(s[1..], e, x);
    }
  }

  /**
   * Two sorted sequences with the same ties are equal: a stable sort has
   * exactly one possible output, whichever algorithm produces it.
   */
  lemma {:induction false} StableSortIsUnique(a: seq<MixingResult>, b: seq<MixingResult>)
    requires Sorted(a) && Sorted(b) && SameTies(a, b)
    ensures a == b
  {
    if |a| > 0 {
      InOwnTies(a, a[0]);
      TiesMembers(b, a[0].error, a[0]);
    }
    if |b| > 0 {
      InOwnTies(b, b[0]);
      TiesMembers(a, b[0].error, b[0]);
    }
    if |a| > 0 {
      var e := a[0].error;
      assert e <= b[0].error && b[0].error <= e;
      assert Ties(a, e) == [a[0]] + Ties(a[1..], e);
      assert Ties(b, e) == [b[0]] + Ties(b[1..], e);
      assert a[0] == Ties(a, e)[0] == Ties(b, e)[0] == b[0];
      forall e' ensures Ties(a[1..], e') == Ties(b[1..], e') {
        TailTies(a, b, e');
      }
      StableSortIsUnique(a[1..], b[1..]);
      assert a == [a[0]] + a[1..] && b == [b[0]] + b[1..];
    }
  }

  /** Sequences with the same ties and the same head have the same ties in their tails. */
  lemma TailTies(a: seq<MixingResult>, b: seq<MixingResult>, e: real)
    requires |a| > 0 && |b| > 0 && a[0] == b[0] && Ties(a, e) == Ties(b, e)
    ensures Ties(a[1..], e) == Ties(b[1..], e)
  {
    var ta, tb := Ties(a[1..], e), Ties(b[1..], e);
    if a[0].error == e {
      assert Ties(a, e) == [a[0]] + ta && Ties(b, e) == [a[0]] + tb;
      assert ([a[0]] + ta)[1..] == ta && ([a[0]] + tb)[1..] == tb;
    } else {
      assert Ties(a, e) == [] + ta && Ties(b, e) == [] + tb;
      assert [] + ta == ta && [] + tb == tb;
    }
  }

  /** Whatever stable sort is used, ranking gives the prefix of `StableSort`. */
  lemma AnyStableSortRanksAlike(results: seq<MixingResult>, sorted: seq<MixingResult>)
    requires Sorted(sorted) && SameTies(results, sorted)
    ensures sorted == StableSort(results)
    ensures Rank(results) == sorted[..if |sorted| < TopCount then |sorted| else TopCount]
  {
    var s := StableSort(results);
    StableSortKeepsTies(results);
    forall e ensures Ties(sorted, e) == Ties(s, e) {
      assert Ties(results, e) == Ties(sorted, e);
      assert Ties(results, e) == Ties(s, e);
    }
    StableSortIsUnique(sorted, s);
  }
}

=== FILE: reals.dfy ===
/** Sums and elementwise operations over sequences of reals (Rust's `f64` iterators, without rounding). */
module Reals {

  /** The largest finite `f64`, 2^1024 - 2^971: the starting "best error" of both iterative solvers. */
  const F64Max: real := 179769313486231570814527423731704356798070567525844996598917476803157260780028538760589558632766878171540458953514382464234321326889464182768467546703537516986049910576551282076245490090389328944075868508455133942304583236903222948165808559332123348274797826204144723168738177180919299881250404026184124858368.0

  /** `f64::max` followed by `f64::min`: `x.max(lo).min(hi)`. */
  function Clamp(x: real, lo: real, hi: real): (r: real)
    requires lo <= hi
    ensures lo <= r <= hi
    ensures lo <= x <= hi ==> r == x
  {
    var m := if x < lo then lo else x;
    if m > hi then hi else m
  }

  /** `iter().sum()`, adding from the front. */
  function Sum(s: seq<real>): real {
    if |s| == 0 then 0.0 else Sum(s[..|s| - 1]) + s[|s| - 1]
  }

  /** Every entry is non-negative. */
  predicate NonNegative(s: seq<real>) {
    forall i :: 0 <= i < |s| ==> s[i] >= 0.0
  }

  /** Every entry lies in [0, 1]. */
  predicate InUnitRange(s: seq<real>) {
    forall i :: 0 <= i < |s| ==> 0.0 <= s[i] <= 1.0
  }

  /** Each entry multiplied by `c`. */
  function Scale(c: real, s: seq<real>): (r: seq<real>)
    ensures |r| == |s|
    ensures forall i :: 0 <= i < |s| ==> r[i] == c * s[i]
  {
    seq(|s|, i requires 0 <= i < |s| => c * s[i])
  }

  /** Each entry divided by the sum: `w / sum` for every weight. */
  function Normalize(s: seq<real>): (r: seq<real>)
    requires Sum(s) != 0.0
    ensures |r| == |s|
    ensures forall i :: 0 <= i < |s| ==> r[i] == s[i] / Sum(s)
  {
    var total := Sum(s);
    seq(|s|, i requires 0 <= i < |s| => s[i] / total)
  }

  /** The sum of a sequence of zeros, or of a one-element sequence. */
  lemma {:induction false} SumConst(n: nat, c: real)
    ensures Sum(seq(n, _ => c)) == n as real * c
  {
    if n > 0 {
      var s := seq(n, _ => c);
      assert s[..n - 1] == seq(n - 1, _ => c);
      SumConst(n - 1, c);
    }
  }

  /** Summation distributes over concatenation. */
  lemma {:induction false} SumAppend(a: seq<real>, b: seq<real>)
    ensures Sum(a + b) == Sum(a) + Sum(b)
  {
    if |b| > 0 {
      assert (a + b)[..|a + b| - 1] == a + b[..|b| - 1];
      SumAppend(a, b[..|b| - 1]);
    } else {
      assert a + b == a;
    }
  }

  /** Summing from the back gives the same total as summing from the front. */
  lemma SumFront(s: seq<real>)
    requires |s| > 0
    ensures Sum(s) == s[0] + Sum(s[1..])
  {
    assert s == [s[0]] + s[1..];
    SumAppend([s[0]], s[1..]);
    assert Sum([s[0]]) == s[0] by { assert [s[0]][..0] == []; }
  }

  /** Scaling every entry scales the sum. */
  lemma {:induction false} SumScale(c: real, s: seq<real>)
    ensures Sum(Scale(c, s)) == c * Sum(s)
  {
    if |s| > 0 {
      var a, b := Scale(c, s)[..|s| - 1], Scale(c, s[..|s| - 1]);
      assert |a| == |b|;
      assert forall i :: 0 <= i < |a| ==> a[i] == b[i];
      SumScale(c, s[..|s| - 1]);
      var p, x := Sum(s[..|s| - 1]), s[|s| - 1];
      assert a == b;
      assert Sum(Scale(c, s)) == Sum(a) + c * x;
      assert c * p + c * x == c * (p + x);
    }
  }

  /** A sum of non-negative entries is at least each entry, and so is non-negative. */
  lemma {:induction false} SumBoundsEntries(s: seq<real>)
    requires NonNegative(s)
    ensures Sum(s) >= 0.0
    ensures forall i :: 0 <= i < |s| ==> s[i] <= Sum(s)
  {
    if |s| > 0 {
      SumBoundsEntries(s[..|s| - 1]);
      assert forall i :: 0 <= i < |s| - 1 ==> s[..|s| - 1][i] == s[i];
    }
  }

  /** Non-negative entries summing to zero are all zero. */
  lemma ZeroSumNonNegative(s: seq<real>)
    requires NonNegative(s) && Sum(s) == 0.0
    ensures forall i :: 0 <= i < |s| ==> s[i] == 0.0
  {
    SumBoundsEntries(s);
  }

  /** Replacing one entry changes the sum by the difference. */
  lemma {:induction false} SumUpdate(s: seq<real>, i: nat, x: real)
    requires i < |s|
    ensures Sum(s[i := x]) == Sum(s) - s[i] + x
  {
    var t := s[i := x];
    assert s == s[..i] + [s[i]] + s[i + 1..];
    assert t == s[..i] + [x] + s[i + 1..];
    SumAppend(s[..i] + [s[i]], s[i + 1..]);
    SumAppend(s[..i], [s[i]]);
    SumAppend(s[..i] + [x], s[i + 1..]);
    SumAppend(s[..i], [x]);
    assert Sum([s[i]]) == s[i] by { assert [s[i]][..0] == []; }
    assert Sum([x]) == x by { assert [x][..0] == []; }
  }

  /** Division is multiplication by the reciprocal. */
  lemma DivAsProduct(x: real, t: real)
    requires t != 0.0
    ensures x / t == (1.0 / t) * x
  {
  }

  /** A share of a positive total that does not exceed it lies in [0, 1]. */
  lemma DivAtMostOne(x: real, t: real)
    requires 0.0 <= x <= t && t > 0.0
    ensures 0.0 <= x / t <= 1.0
  {
    var q := x / t;
    assert q * t == x;
  }

  /** Normalising is scaling by the reciprocal of the sum. */
  lemma NormalizeAsScale(s: seq<real>)
    requires Sum(s) != 0.0
    ensures Normalize(s) == Scale(1.0 / Sum(s), s)
  {
    var total := Sum(s);
    var inv := 1.0 / total;
    var n := Normalize(s);
    var sc := Scale(inv, s);
    forall i | 0 <= i < |s|
      ensures n[i] == sc[i]
    {
      assert n[i] == s[i] / total && sc[i] == inv * s[i];
      DivAsProduct(s[i], total);
    }
    assert n == sc;
  }

  /** Normalised non-negative weights with a positive sum lie on the probability simplex. */
  lemma NormalizeOnSimplex(s: seq<real>)
    requires NonNegative(s) && Sum(s) > 0.0
    ensures Sum(Normalize(s)) == 1.0
    ensures InUnitRange(Normalize(s))
  {
    var total := Sum(s);
    var inv := 1.0 / total;
    NormalizeAsScale(s);
    SumScale(inv, s);
    DivAsProduct(total, total);
    SumBoundsEntries(s);
    forall i | 0 <= i < |s|
      ensures 0.0 <= Normalize(s)[i] <= 1.0
    {
      DivAtMostOne(s[i], total);
    }
  }

  /** A common positive factor cancels from a quotient. */
  lemma DivCancel(c: real, a: real, t: real, x: real, u: real)
    requires c > 0.0 && t != 0.0 && x == c * a && u == c * t
    ensures x / u == a / t
  {
    var q := a / t;
    assert q * t == a;
    assert x == q * u;
  }

  /** Normalising a scaled sequence gives the same result as normalising the original. */
  lemma NormalizeScale(c: real, s: seq<real>)
    requires c > 0.0 && Sum(s) != 0.0
    ensures Sum(Scale(c, s)) != 0.0
    ensures Normalize(Scale(c, s)) == Normalize(s)
  {
    SumScale(c, s);
    var total := Sum(s);
    var scaled := Scale(c, s);
    assert Sum(scaled) == c * total;
    forall i | 0 <= i < |s|
      ensures Normalize(scaled)[i] == Normalize(s)[i]
    {
      DivCancel(c, s[i], total, scaled[i], Sum(scaled));
    }
  }
}

=== FILE: seqs.dfy ===
/** Order-preserving filtering of sequences (Rust's `iter().filter(..).collect()`). */
module Seqs {
  import opened Wrappers

  /** The elements of `s` that satisfy `keep`, in their original order. */
  function Filter<T>(s: seq<T>, keep: T -> bool): (r: seq<T>)
    ensures |r| <= |s|
    ensures forall i :: 0 <= i < |r| ==> r[i] in s && keep(r[i])
    ensures forall i :: 0 <= i < |s| && keep(s[i]) ==> s[i] in r
  {
    if |s| == 0 then [] else (if keep(s[0]) then [s[0]] else []) + Filter(s[1..], keep)
  }

  /** Filtering distributes over concatenation, so it keeps the relative order of what it keeps. */
  lemma {:induction false} FilterAppend<T>(a: seq<T>, b: seq<T>, keep: T -> bool)
    ensures Filter(a + b, keep) == Filter(a, keep) + Filter(b, keep)
  {
    if |a| > 0 {
      assert (a + b)[1..] == a[1..] + b;
      FilterAppend(a[1..], b, keep);
    } else {
      assert a + b == b;
    }
  }

  /** Filtering with a condition that every element meets changes nothing. */
  lemma {:induction false} FilterAll<T>(s: seq<T>, keep: T -> bool)
    requires forall i :: 0 <= i < |s| ==> keep(s[i])
    ensures Filter(s, keep) == s
  {
    if |s| > 0 {
      FilterAll(s[1..], keep);
    }
  }

  /** The first element satisfying `test` (`iter().find(..)`). */
  function Find<T>(s: seq<T>, test: T -> bool): (r: Option<T>)
    ensures r.Some? <==> exists i :: 0 <= i < |s| && test(s[i])
    ensures r.Some? ==> exists i :: 0 <= i < |s| && s[i] == r.value && test(s[i]) &&
                                   forall k :: 0 <= k < i ==> !test(s[k])
  {
    if |s| == 0 then None
    else if test(s[0]) then Some(s[0])
    else
      var r := Find(s[1..], test);
      assert forall i :: 1 <= i < |s| ==> s[i] == s[1..][i - 1];
      r
  }
}

=== FILE: server_paint.dfy ===
/**
 * The server functions behind the paint pages: brand and colour listings, the
 * saved paint settings, and the validation pipelines of `find_paint_mix` and
 * `test_paint_mix`.
 *
 * Storage, the session and the decoders are inputs: the rows the database
 * returns are parameters, `serde_json` parsing and `bincode` curve decoding are
 * partial functions, and the colour reconstruction, the search engine and the
 * final mix-to-hex conversion are function parameters.
 */
module ServerPaint {
  import opened Wrappers
  import Text
  import opened PaintModels
  import Seqs
  import Colour
  import PaintMixing
  import Optimization

  /** Colour shown when a catalogue row has no stored hex. */
  const DefaultHex: string := "#808080"

  /** Mix choice used when the settings row has none. */
  const DefaultMixChoice: string := "black + white + 2 colours"

  // ---------------------------------------------------------------------------
  // Records

  datatype PaintBrand = PaintBrand(id: string, name: string)

  datatype PaintColorInfo = PaintColorInfo(id: string, hex: string)

  datatype UserPaintSettings = UserPaintSettings(mixChoice: string, brand: string, colors: seq<string>)

  /** A catalogue row: paint id, optional stored hex, optional encoded reflectance curve. */
  datatype ColorRow = ColorRow(id: string, hex: Option<string>, spectralCurve: Option<seq<bv8>>)

  /** A user's settings row: optional mix choice, optional JSON text of the selection. */
  datatype SettingsRow = SettingsRow(mixChoice: Option<string>, selectedColors: Option<string>)

  /** The JSON values the settings use; object members are listed in the map's iteration order. */
  datatype Json =
    | JNull
    | JBool(b: bool)
    | JNumber(n: int)
    | JString(s: string)
    | JArray(items: seq<Json>)
    | JObject(members: seq<(string, Json)>)

  /** `serde_json` text parsing and rendering. */
  datatype JsonCodec = JsonCodec(parse: string -> Option<Json>, render: Json -> string)

  // ---------------------------------------------------------------------------
  // Brands and colours

  /** A brand's table id made readable: underscores to spaces, words capitalised, single spaces. */
  function BrandDisplayName(id: string): (name: string)
    ensures Text.Words(name) ==
              seq(|Text.Words(Text.ReplaceChar(id, '_', ' '))|,
                  k requires 0 <= k < |Text.Words(Text.ReplaceChar(id, '_', ' '))| =>
                    Text.Capitalize(Text.Words(Text.ReplaceChar(id, '_', ' '))[k]))
    ensures name == Text.Join(Text.Words(name), " ")
  {
    var words := Text.Words(Text.ReplaceChar(id, '_', ' '));
    var caps := seq(|words|, k requires 0 <= k < |words| => Text.Capitalize(words[k]));
    assert forall k :: 0 <= k < |caps| ==> Text.IsWord(caps[k]) by {
      forall k | 0 <= k < |caps| ensures Text.IsWord(caps[k]) {
        Text.CapitalizeWord(words[k]);
      }
    }
    Text.WordsOfJoin(caps);
    Text.Join(caps, " ")
  }

  /** The characters of a space-joined list are the words' characters and spaces. */
  lemma {:induction false} JoinChars(ws: seq<string>, c: char)
    requires c != ' ' && forall k :: 0 <= k < |ws| ==> c !in ws[k]
    ensures c !in Text.Join(ws, " ")
  {
    if |ws| > 1 {
      JoinChars(ws[1..], c);
      assert Text.Join(ws, " ") == ws[0] + " " + Text.Join(ws[1..], " ");
    }
  }

  /** A word of a string is a piece of it. */
  lemma {:induction false} WordsChars(s: string, c: char)
    requires c !in s
    ensures forall k :: 0 <= k < |Text.Words(s)| ==> c !in Text.Words(s)[k]
    decreases |s|
  {
    if |s| > 0 {
      if Text.IsSpace(s[0]) {
        WordsChars(s[1..], c);
      } else {
        var n := Text.WordLength(s);
        WordsChars(s[n..], c);
        assert Text.Words(s) == [s[..n]] + Text.Words(s[n..]);
        assert c !in s[..n];
      }
    }
  }

  /** A display name has no underscore left. */
  lemma DisplayNameHasNoUnderscore(id: string)
    ensures '_' !in BrandDisplayName(id)
  {
    var spaced := Text.ReplaceChar(id, '_', ' ');
    var words := Text.Words(spaced);
    var caps := seq(|words|, k requires 0 <= k < |words| => Text.Capitalize(words[k]));
    WordsChars(spaced, '_');
    forall k | 0 <= k < |caps| ensures '_' !in caps[k] {
      assert caps[k][0] == Text.UpperChar(words[k][0]);
      forall i | 0 < i < |caps[k]| ensures caps[k][i] != '_' {
        assert caps[k][i] == caps[k][1..][i - 1] == words[k][1..][i - 1];
      }
    }
    JoinChars(caps, '_');
  }

  /** Formatting a display name again changes nothing. */
  lemma DisplayNameIdempotent(id: string)
    ensures BrandDisplayName(BrandDisplayName(id)) == BrandDisplayName(id)
  {
    var name := BrandDisplayName(id);
    DisplayNameHasNoUnderscore(id);
    assert Text.ReplaceChar(name, '_', ' ') == name;
    var words := Text.Words(Text.ReplaceChar(id, '_', ' '));
    var caps := seq(|words|, k requires 0 <= k < |words| => Text.Capitalize(words[k]));
    assert Text.Words(name) == caps;
    var recaps := seq(|caps|, k requires 0 <= k < |caps| => Text.Capitalize(caps[k]));
    forall k | 0 <= k < |caps| ensures recaps[k] == caps[k] {
      Text.CapitalizeIdempotent(words[k]);
    }
    assert recaps == caps;
  }

  /** `get_paint_brands`: one entry per brand table, in order, the id unchanged. */
  function PaintBrands(ids: seq<string>): (r: seq<PaintBrand>)
    ensures |r| == |ids|
    ensures forall k :: 0 <= k < |ids| ==> r[k].id == ids[k] && r[k].name == BrandDisplayName(ids[k])
  {
    seq(|ids|, k requires 0 <= k < |ids| => PaintBrand(ids[k], BrandDisplayName(ids[k])))
  }

  /** The stored hex of a catalogue row, or the neutral grey when none is stored. */
  function HexOf(row: ColorRow): (hex: string)
    ensures row.hex.Some? ==> hex == row.hex.value
    ensures row.hex.None? ==> hex == DefaultHex
  {
    row.hex.GetOr(DefaultHex)
  }

  /** `get_paint_colors`: id and display hex of every row of the brand, in order. */
  function PaintColors(rows: seq<ColorRow>): (r: seq<PaintColorInfo>)
    ensures |r| == |rows|
    ensures forall k :: 0 <= k < |rows| ==> r[k].id == rows[k].id && r[k].hex == HexOf(rows[k])
  {
    seq(|rows|, k requires 0 <= k < |rows| => PaintColorInfo(rows[k].id, HexOf(rows[k])))
  }

  // ---------------------------------------------------------------------------
  // Saved settings: `{ brand: [colour, ...] }`

  /** The JSON object `save_user_paint_settings` stores. */
  function SelectionJson(brand: string, colors: seq<string>): Json {
    JObject([(brand, JArray(seq(|colors|, k requires 0 <= k < |colors| => JString(colors[k]))))])
  }

  /** The string items of a JSON array (others skipped); nothing for a non-array. */
  function StringItems(v: Json): (r: seq<string>)
    ensures v.JArray? && (forall k :: 0 <= k < |v.items| ==> v.items[k].JString?) ==>
              |r| == |v.items| && forall k :: 0 <= k < |r| ==> r[k] == v.items[k].s
    ensures !v.JArray? ==> r == []
  {
    match v
    case JArray(items) => StringsOf(items)
    case _ => []
  }

  function StringsOf(items: seq<Json>): (r: seq<string>)
    ensures |r| <= |items|
    ensures (forall k :: 0 <= k < |items| ==> items[k].JString?) ==>
              |r| == |items| && forall k :: 0 <= k < |r| ==> r[k] == items[k].s
  {
    if |items| == 0 then []
    else (if items[0].JString? then [items[0].s] else []) + StringsOf(items[1..])
  }

  /** The first member of a JSON object, if the value is an object with one. */
  function FirstMember(v: Json): (r: Option<(string, Json)>)
    ensures r.Some? <==> v.JObject? && |v.members| > 0
  {
    if v.JObject? && |v.members| > 0 then Some(v.members[0]) else None
  }

  /** Brand and colours of a stored selection; absent or malformed text reads as no selection. */
  function DecodeSettingsSelection(codec: JsonCodec, stored: Option<string>): (r: (string, seq<string>))
    ensures stored.None? ==> r == ("", [])
    ensures stored.Some? && codec.parse(stored.value).None? ==> r == ("", [])
    ensures stored.Some? && codec.parse(stored.value).Some? && FirstMember(codec.parse(stored.value).value).None? ==>
              r == ("", [])
  {
    var selected := match stored
      case None => JObject([])
      case Some(text) => codec.parse(text).GetOr(JObject([]));
    match FirstMember(selected)
    case None => ("", [])
    case Some((brand, colors)) => (brand, StringItems(colors))
  }

  /** `get_user_paint_settings` */
  function GetUserPaintSettings(codec: JsonCodec, loggedIn: bool, row: Option<SettingsRow>): (r: Result<UserPaintSettings, string>)
    ensures !loggedIn <==> r == Err("Not authenticated")
    ensures loggedIn && row.None? ==> r == Ok(UserPaintSettings("", "", []))
  {
    if !loggedIn then Err("Not authenticated")
    else match row
      case None => Ok(UserPaintSettings("", "", []))
      case Some(s) =>
        var (brand, colors) := DecodeSettingsSelection(codec, s.selectedColors);
        Ok(UserPaintSettings(s.mixChoice.GetOr(""), brand, colors))
  }

  /** `save_user_paint_settings`: the row written for a logged-in user. */
  function SaveUserPaintSettings(codec: JsonCodec, mixChoice: string, brand: string, colors: seq<string>): (row: SettingsRow)
    ensures row.mixChoice == Some(mixChoice)
    ensures row.selectedColors == Some(codec.render(SelectionJson(brand, colors)))
  {
    SettingsRow(Some(mixChoice), Some(codec.render(SelectionJson(brand, colors))))
  }

  /** Saved settings read back as they were saved, as long as the JSON text parses back to its value. */
  lemma SettingsRoundTrip(codec: JsonCodec, mixChoice: string, brand: string, colors: seq<string>)
    requires codec.parse(codec.render(SelectionJson(brand, colors))) == Some(SelectionJson(brand, colors))
    ensures GetUserPaintSettings(codec, true, Some(SaveUserPaintSettings(codec, mixChoice, brand, colors))) ==
              Ok(UserPaintSettings(mixChoice, brand, colors))
  {
    var j := SelectionJson(brand, colors);
    assert FirstMember(j) == Some(j.members[0]);
    var items := j.members[0].1.items;
    assert forall k :: 0 <= k < |items| ==> items[k].JString?;
    assert StringItems(j.members[0].1) == colors;
  }

  // ---------------------------------------------------------------------------
  // find_paint_mix

  /** The selection a settings row names: the brand and the string colour ids of the first member. */
  function SelectionOf(codec: JsonCodec, row: SettingsRow): (r: Result<(string, seq<string>), string>)
    ensures (row.selectedColors.None? || codec.parse(row.selectedColors.value).None?) <==>
              r == Err("Please select your paints first")
    ensures row.selectedColors.Some? && codec.parse(row.selectedColors.value).Some? ==>
              (r == Err("Invalid paint selection") <==> FirstMember(codec.parse(row.selectedColors.value).value).None?)
  {
    match row.selectedColors
    case None => Err("Please select your paints first")
    case Some(text) =>
      match codec.parse(text)
      case None => Err("Please select your paints first")
      case Some(selected) =>
        match FirstMember(selected)
        case None => Err("Invalid paint selection")
        case Some((brand, colors)) => Ok((brand, StringItems(colors)))
  }

  /** The paint a catalogue row contributes, if its curve is present and decodes. */
  function Decoded(decode: seq<bv8> -> Option<seq<real>>, row: ColorRow): (p: Option<SpectralData>)
    ensures p.Some? <==> row.spectralCurve.Some? && decode(row.spectralCurve.value).Some?
    ensures p.Some? ==> p.value == SpectralData(row.id, decode(row.spectralCurve.value).value, HexOf(row))
  {
    match row.spectralCurve
    case None => None
    case Some(bytes) =>
      match decode(bytes)
      case None => None
      case Some(curve) => Some(SpectralData(row.id, curve, HexOf(row)))
  }

  /** The catalogue entries that are selected and whose curves decode, in catalogue order. */
  function PaintData(decode: seq<bv8> -> Option<seq<real>>, rows: seq<ColorRow>, names: seq<string>): (r: seq<SpectralData>)
    ensures |r| <= |rows|
  {
    if |rows| == 0 then []
    else
      var here := if rows[0].id in names && Decoded(decode, rows[0]).Some? then [Decoded(decode, rows[0]).value] else [];
      here + PaintData(decode, rows[1..], names)
  }

  /** Paint data is selected row by row, so it keeps catalogue order. */
  lemma {:induction false} PaintDataAppend(decode: seq<bv8> -> Option<seq<real>>, a: seq<ColorRow>, b: seq<ColorRow>, names: seq<string>)
    ensures PaintData(decode, a + b, names) == PaintData(decode, a, names) + PaintData(decode, b, names)
  {
    if |a| > 0 {
      assert (a + b)[0] == a[0] && (a + b)[1..] == a[1..] + b;
      PaintDataAppend(decode, a[1..], b, names);
    } else {
      assert a + b == b;
    }
  }

  /** The paint data are exactly the decodable selected rows. */
  lemma {:induction false} PaintDataMembers(decode: seq<bv8> -> Option<seq<real>>, rows: seq<ColorRow>, names: seq<string>, p: SpectralData)
    ensures p in PaintData(decode, rows, names) <==>
              exists k :: 0 <= k < |rows| && rows[k].id in names && Decoded(decode, rows[k]) == Some(p)
  {
    if |rows| > 0 {
      PaintDataMembers(decode, rows[1..], names, p);
      if exists k :: 0 <= k < |rows| && rows[k].id in names && Decoded(decode, rows[k]) == Some(p) {
        var k :| 0 <= k < |rows| && rows[k].id in names && Decoded(decode, rows[k]) == Some(p);
        if k > 0 {
          assert rows[1..][k - 1] == rows[k];
        }
      }
      if p in PaintData(decode, rows[1..], names) {
        var k :| 0 <= k < |rows[1..]| && rows[1..][k].id in names && Decoded(decode, rows[1..][k]) == Some(p);
        assert rows[k + 1] == rows[1..][k];
      }
    }
  }

  /** The first paint whose curve length differs from the target's. */
  function LengthMismatch(paints: seq<SpectralData>, n: nat): (r: Option<SpectralData>)
    ensures r.None? <==> forall k :: 0 <= k < |paints| ==> |paints[k].curve| == n
    ensures r.Some? ==> r.value in paints && |r.value.curve| != n
    ensures r.Some? ==> exists i :: 0 <= i < |paints| && paints[i] == r.value &&
                                   forall k :: 0 <= k < i ==> |paints[k].curve| == n
  {
    Seqs.Find(paints, (p: SpectralData) => |p.curve| != n)
  }

  /** The message for a curve of the wrong length. */
  function MismatchMessage(p: SpectralData, expected: nat): string {
    "Paint '" + p.colorName + "' has " + Text.DecimalString(|p.curve|) + " spectral values, expected " + Text.DecimalString(expected)
  }

  /** The external pieces of the search: reflectance reconstruction and the engine for a target curve. */
  datatype Services = Services(
    reconstruct: Colour.Rgb -> Result<seq<real>, string>,
    engineFor: seq<real> -> PaintMixing.Engine)

  /**
   * `find_paint_mix`: the checks in their order, then the search. `catalogue`
   * gives the rows of a brand; `loggedIn` is whether a session user exists.
   */
  function FindPaintMix(codec: JsonCodec, decode: seq<bv8> -> Option<seq<real>>, services: Services,
                        loggedIn: bool, settings: Option<SettingsRow>, catalogue: string -> seq<ColorRow>,
                        rgb: Colour.Rgb): (r: Result<seq<MixingResult>, string>)
    ensures !loggedIn ==> r == Err("Not authenticated")
    ensures loggedIn && settings.None? ==> r == Err("Please configure your paint settings first")
    ensures loggedIn && settings.Some? && SelectionOf(codec, settings.value).Err? ==>
              r == Err(SelectionOf(codec, settings.value).error)
  {
    if !loggedIn then Err("Not authenticated")
    else match settings
      case None => Err("Please configure your paint settings first")
      case Some(row) =>
        var mixChoice := row.mixChoice.GetOr(DefaultMixChoice);
        match SelectionOf(codec, row)
        case Err(e) => Err(e)
        case Ok((brand, names)) =>
          if |names| == 0 then Err("Please select at least some paints")
          else
            var paints := PaintData(decode, catalogue(brand), names);
            if |paints| < 3 then Err("Not enough paint data. Please select more colors.")
            else match services.reconstruct(rgb)
              case Err(e) => Err("Failed to compute target reflectance: " + e)
              case Ok(target) =>
                match LengthMismatch(paints, |target|)
                case Some(p) => Err(MismatchMessage(p, |target|))
                case None =>
                  match PaintMixing.FindCombinations(services.engineFor(target), paints, mixChoice)
                  case Err(e) => Err("Failed to find combinations: " + ErrorMessage(e))
                  case Ok(results) => Ok(results)
  }

  /**
   * A search only happens on a valid selection: some colours named, at least
   * three decodable paints, every curve as long as the target; and its result
   * is what the search returns for the stored (or default) mix choice.
   */
  lemma FindPaintMixSearchesValidInput(codec: JsonCodec, decode: seq<bv8> -> Option<seq<real>>, services: Services,
                                       loggedIn: bool, settings: Option<SettingsRow>, catalogue: string -> seq<ColorRow>,
                                       rgb: Colour.Rgb)
    requires FindPaintMix(codec, decode, services, loggedIn, settings, catalogue, rgb).Ok?
    ensures loggedIn && settings.Some? && SelectionOf(codec, settings.value).Ok?
    ensures var (brand, names) := SelectionOf(codec, settings.value).value;
            var paints := PaintData(decode, catalogue(brand), names);
            |names| > 0 && |paints| >= 3 && services.reconstruct(rgb).Ok? &&
            (forall k :: 0 <= k < |paints| ==> |paints[k].curve| == |services.reconstruct(rgb).value|) &&
            Ok(FindPaintMix(codec, decode, services, loggedIn, settings, catalogue, rgb).value) ==
              PaintMixing.FindCombinations(services.engineFor(services.reconstruct(rgb).value), paints,
                                           settings.value.mixChoice.GetOr(DefaultMixChoice))
  {
  }

  /** The outcome of each step after the selection is read: each rejection's message, else the search's results. */
  lemma FindPaintMixRejections(codec: JsonCodec, decode: seq<bv8> -> Option<seq<real>>, services: Services,
                               settings: SettingsRow, catalogue: string -> seq<ColorRow>, rgb: Colour.Rgb)
    requires SelectionOf(codec, settings).Ok?
    ensures var (brand, names) := SelectionOf(codec, settings).value;
            var paints := PaintData(decode, catalogue(brand), names);
            var r := FindPaintMix(codec, decode, services, true, Some(settings), catalogue, rgb);
            (|names| == 0 ==> r == Err("Please select at least some paints")) &&
            (|names| > 0 && |paints| < 3 ==> r == Err("Not enough paint data. Please select more colors.")) &&
            (|names| > 0 && |paints| >= 3 && services.reconstruct(rgb).Err? ==>
               r == Err("Failed to compute target reflectance: " + services.reconstruct(rgb).error)) &&
            (|names| > 0 && |paints| >= 3 && services.reconstruct(rgb).Ok? &&
             LengthMismatch(paints, |services.reconstruct(rgb).value|).Some? ==>
               r == Err(MismatchMessage(LengthMismatch(paints, |services.reconstruct(rgb).value|).value,
                                        |services.reconstruct(rgb).value|))) &&
            (|names| > 0 && |paints| >= 3 && services.reconstruct(rgb).Ok? &&
             LengthMismatch(paints, |services.reconstruct(rgb).value|).None? ==>
               var search := PaintMixing.FindCombinations(services.engineFor(services.reconstruct(rgb).value), paints,
                                                          settings.mixChoice.GetOr(DefaultMixChoice));
               r == (if search.Err? then Err("Failed to find combinations: " + ErrorMessage(search.error))
                     else Ok(search.value)))
  {
  }

  // ---------------------------------------------------------------------------
  // test_paint_mix

  /** The catalogue row with the given id, the first if several. */
  function RowNamed(rows: seq<ColorRow>, id: string): (r: Option<ColorRow>)
    ensures r.Some? <==> exists k :: 0 <= k < |rows| && rows[k].id == id
    ensures r.Some? ==> r.value in rows && r.value.id == id
  {
    Seqs.Find(rows, (row: ColorRow) => row.id == id)
  }

  /** The decoded curve of each requested paint that has one, in request order. */
  function Reflectances(decode: seq<bv8> -> Option<seq<real>>, rows: seq<ColorRow>, paints: seq<string>): (r: seq<seq<real>>)
    ensures |r| <= |paints|
  {
    if |paints| == 0 then []
    else
      var here := match RowNamed(rows, paints[0])
        case None => []
        case Some(row) => if Decoded(decode, row).Some? then [Decoded(decode, row).value.curve] else [];
      here + Reflectances(decode, rows, paints[1..])
  }

  /** Every requested paint has a row whose curve decodes exactly when none is dropped. */
  lemma {:induction false} ReflectancesComplete(decode: seq<bv8> -> Option<seq<real>>, rows: seq<ColorRow>, paints: seq<string>)
    ensures |Reflectances(decode, rows, paints)| == |paints| <==>
              forall k :: 0 <= k < |paints| ==>
                RowNamed(rows, paints[k]).Some? && Decoded(decode, RowNamed(rows, paints[k]).value).Some?
  {
    if |paints| > 0 {
      ReflectancesComplete(decode, rows, paints[1..]);
      assert forall k :: 1 <= k < |paints| ==> paints[k] == paints[1..][k - 1];
    }
  }

  /** How a server function call ends: with a reply, or with a panic of the handler. */
  datatype Outcome<T> = Reply(result: Result<T, string>) | Panic

  /** The bands the CIE 1931 colour matching tables cover (400-700 nm in 10 nm steps). */
  const CmfBands: nat := 31

  /**
   * The inputs on which `kubelka_munk_mix` followed by the 31-band XYZ sum
   * panics: no curve at all, a weight without a curve or a curve shorter than
   * the first (only read when the weights sum above zero), or a first curve
   * shorter than 31 bands.
   */
  predicate MixPanics(curves: seq<seq<real>>, weights: seq<real>) {
    !Optimization.MixInputs(curves, weights) || |curves[0]| < CmfBands
  }

  /**
   * `test_paint_mix`. The curves are mixed by `kubelka_munk_mix`; `toHex` stands
   * for the XYZ, sRGB and gamma conversion of the first 31 mixed bands.
   */
  function TestPaintMix(codec: JsonCodec, decode: seq<bv8> -> Option<seq<real>>, sqrt: real -> real,
                        toHex: seq<real> -> string,
                        loggedIn: bool, settings: Option<SettingsRow>, catalogue: string -> seq<ColorRow>,
                        paints: seq<string>, weights: seq<real>): (r: Outcome<string>)
    ensures !loggedIn ==> r == Reply(Err("Not authenticated"))
    ensures loggedIn && settings.None? ==> r == Reply(Err("Please configure your paint settings first"))
    ensures loggedIn && settings.Some? && SelectionOf(codec, settings.value).Err? ==>
              r == Reply(Err(SelectionOf(codec, settings.value).error))
    ensures r.Panic? ==> |paints| != 1 && MixPanics(Reflectances(decode, catalogue(SelectionOf(codec, settings.value).value.0), paints), weights)
  {
    if !loggedIn then Reply(Err("Not authenticated"))
    else match settings
      case None => Reply(Err("Please configure your paint settings first"))
      case Some(row) =>
        match SelectionOf(codec, row)
        case Err(e) => Reply(Err(e))
        case Ok((brand, _)) =>
          var rows := catalogue(brand);
          if |paints| == 1 && RowNamed(rows, paints[0]).Some? then Reply(Ok(HexOf(RowNamed(rows, paints[0]).value)))
          else
            var curves := Reflectances(decode, rows, paints);
            if |curves| != |paints| then Reply(Err("Could not find all paint data"))
            else if MixPanics(curves, weights) then Panic
            else Reply(Ok(toHex(Optimization.KubelkaMunkMix(sqrt, curves, weights)[..CmfBands])))
  }

  /**
   * Once the brand is known: a single catalogued paint answers with its stored
   * hex (or the default) without mixing; otherwise a paint without data is an
   * error; complete data panics exactly on the inputs the mix cannot index,
   * and is otherwise mixed and converted.
   */
  lemma TestPaintMixOutcomes(codec: JsonCodec, decode: seq<bv8> -> Option<seq<real>>, sqrt: real -> real,
                             toHex: seq<real> -> string,
                             settings: SettingsRow, catalogue: string -> seq<ColorRow>,
                             paints: seq<string>, weights: seq<real>)
    requires SelectionOf(codec, settings).Ok?
    ensures var rows := catalogue(SelectionOf(codec, settings).value.0);
            var curves := Reflectances(decode, rows, paints);
            var r := TestPaintMix(codec, decode, sqrt, toHex, true, Some(settings), catalogue, paints, weights);
            (|paints| == 1 && RowNamed(rows, paints[0]).Some? ==> r == Reply(Ok(HexOf(RowNamed(rows, paints[0]).value)))) &&
            (!(|paints| == 1 && RowNamed(rows, paints[0]).Some?) ==>
               (r == Reply(Err("Could not find all paint data")) <==>
                  exists k :: 0 <= k < |paints| &&
                    (RowNamed(rows, paints[k]).None? || Decoded(decode, RowNamed(rows, paints[k]).value).None?)) &&
               (|curves| == |paints| ==> (r.Panic? <==> MixPanics(curves, weights))) &&
               (|curves| == |paints| && !MixPanics(curves, weights) ==>
                  r == Reply(Ok(toHex(Optimization.KubelkaMunkMix(sqrt, curves, weights)[..CmfBands])))))
  {
    var rows := catalogue(SelectionOf(codec, settings).value.0);
    ReflectancesComplete(decode, rows, paints);
  }

  /** An empty paint list passes the completeness check and then panics on the missing first curve. */
  lemma TestPaintMixEmptyPanics(codec: JsonCodec, decode: seq<bv8> -> Option<seq<real>>, sqrt: real -> real,
                                toHex: seq<real> -> string,
                                settings: SettingsRow, catalogue: string -> seq<ColorRow>, weights: seq<real>)
    requires SelectionOf(codec, settings).Ok?
    ensures TestPaintMix(codec, decode, sqrt, toHex, true, Some(settings), catalogue, [], weights) == Panic
  {
  }
}

=== FILE: settings.dfy ===
/**
 * The settings page: the chosen brand, the selected colour ids and the mix
 * strategy, with the two effects that fill them in (saved settings, auto-select
 * of every colour) and the handlers that edit them.
 * The brand's colour list is represented by its ids, in the order the server lists them.
 */
module Settings {
  import opened Wrappers
  import Seqs

  const DefaultBrand: string := "michael_harding"
  const DefaultMixChoice: string := "black + white + 2 colours"

  /** The page's signals: brand, selection, strategy, the two flags and the loaded colour ids. */
  datatype PageState = PageState(
    brand: string,
    selected: seq<string>,
    mixChoice: string,
    initialized: bool,
    interacted: bool,
    available: seq<string>)

  /** The settings a user saved, as the settings server function returns them. */
  datatype SavedSettings = SavedSettings(brand: string, colors: seq<string>, mixChoice: string)

  function Initial(): (s: PageState)
    ensures s.brand == DefaultBrand && s.mixChoice == DefaultMixChoice
    ensures s.selected == [] && s.available == []
    ensures !s.initialized && !s.interacted
  {
    PageState(DefaultBrand, [], DefaultMixChoice, false, false, [])
  }

  // ---------------------------------------------------------------------------
  // Selecting colours
  // ---------------------------------------------------------------------------

  /** `toggle_color`: a selected colour is removed (every copy of it); an unselected one is appended. */
  function ToggleColor(sel: seq<string>, c: string): (r: seq<string>)
    ensures c in sel ==> c !in r
    ensures c in sel ==> forall i :: 0 <= i < |sel| && sel[i] != c ==> sel[i] in r
    ensures c in sel ==> forall i :: 0 <= i < |r| ==> r[i] in sel
    ensures c !in sel ==> r == sel + [c]
  {
    if c in sel then Seqs.Filter(sel, (x: string) => x != c) else sel + [c]
  }

  /** After a toggle, the colour is selected exactly when it was not before; no other colour changes. */
  lemma ToggleFlipsMembership(sel: seq<string>, c: string, d: string)
    ensures c in ToggleColor(sel, c) <==> c !in sel
    ensures d != c ==> (d in ToggleColor(sel, c) <==> d in sel)
  {
    var r := ToggleColor(sel, c);
    if d != c && d in sel {
      var i :| 0 <= i < |sel| && sel[i] == d;
      assert sel[i] in r;
    }
  }

  /** Toggling an unselected colour twice restores the selection, order included. */
  lemma ToggleAbsentTwice(sel: seq<string>, c: string)
    requires c !in sel
    ensures ToggleColor(ToggleColor(sel, c), c) == sel
  {
    var keep := (x: string) => x != c;
    assert c in sel + [c];
    Seqs.FilterAppend(sel, [c], keep);
    Seqs.FilterAll(sel, keep);
    assert Seqs.Filter([c], keep) == [];
  }

  /**
   * `all_selected`: the list is loaded and the selection has as many entries as it.
   * Only the counts are compared, not the ids.
   */
  predicate AllSelected(available: seq<string>, selected: seq<string>) {
    |available| > 0 && |available| == |selected|
  }

  /** The toggle-all button: deselect everything when all are selected, else select every loaded id in order. */
  function ToggleAll(s: PageState): (r: PageState)
    ensures r.interacted
    ensures AllSelected(s.available, s.selected) ==> r.selected == []
    ensures !AllSelected(s.available, s.selected) ==> r.selected == s.available
    ensures r.brand == s.brand && r.mixChoice == s.mixChoice && r.available == s.available &&
            r.initialized == s.initialized
  {
    var sel := if AllSelected(s.available, s.selected) then [] else s.available;
    s.(interacted := true, selected := sel)
  }

  /** With colours loaded, toggle-all alternates between every colour and none. */
  lemma ToggleAllAlternates(s: PageState)
    requires |s.available| > 0
    ensures AllSelected(ToggleAll(s).available, ToggleAll(s).selected) <==> !AllSelected(s.available, s.selected)
    ensures ToggleAll(ToggleAll(s)).selected == (if AllSelected(s.available, s.selected) then s.available else [])
  {
  }

  /** Because only counts are compared, a selection of other ids of the same number reads as "all selected". */
  lemma AllSelectedComparesCounts()
    ensures AllSelected(["a", "b"], ["x", "y"])
    ensures ToggleAll(PageState(DefaultBrand, ["x", "y"], DefaultMixChoice, true, false, ["a", "b"])).selected == []
  {
  }

  /**
   * Choosing another brand stores it and clears the selection; its colours load
   * afterwards. Clearing the selection re-runs the auto-select effect while the
   * previous brand's list is still the one loaded, so on an initialised page whose
   * toggle-all is untouched that list is selected again.
   */
  function ChangeBrand(s: PageState, brand: string): (r: PageState)
    ensures r.brand == brand
    ensures r.selected == (if s.initialized && !s.interacted && |s.available| > 0 then s.available else [])
    ensures r.mixChoice == s.mixChoice && r.interacted == s.interacted && r.initialized == s.initialized &&
            r.available == s.available
  {
    EditSelection(s.(brand := brand), [])
  }

  /**
   * What a brand change leaves selected once the new brand's colours have arrived:
   * nothing after toggle-all has been used or before the page is initialised;
   * otherwise the previous brand's list when one was loaded, else the new list.
   */
  lemma BrandChangeSelection(s: PageState, brand: string, colours: seq<string>)
    ensures var r := ColoursLoaded(ChangeBrand(s, brand), colours);
            && r.brand == brand && r.available == colours
            && r.selected == (if s.initialized && !s.interacted then
                                (if |s.available| > 0 then s.available else colours)
                              else [])
  {
  }

  /** Once toggle-all has been used, a brand change leaves nothing selected, whatever colours arrive. */
  lemma BrandChangeAfterToggleAllClears(s: PageState, brand: string, colours: seq<string>)
    ensures ColoursLoaded(ChangeBrand(ToggleAll(s), brand), colours).selected == []
  {
  }

  /** Choosing a mix strategy stores it and nothing else. */
  function ChangeMixChoice(s: PageState, choice: string): (r: PageState)
    ensures r.mixChoice == choice && r.(mixChoice := s.mixChoice) == s
  {
    s.(mixChoice := choice)
  }

  // ---------------------------------------------------------------------------
  // Effects
  // ---------------------------------------------------------------------------

  /**
   * Applying the loaded settings: a non-empty brand replaces the brand, and only then
   * do non-empty colours replace the selection; a non-empty strategy replaces the
   * strategy; the page becomes initialised, which re-runs the auto-select effect on
   * the list already loaded. A failed load changes nothing.
   */
  function ApplySaved(s: PageState, loaded: Result<SavedSettings, string>): (r: PageState)
    ensures loaded.Err? ==> r == s
    ensures loaded.Ok? ==> r.initialized
    ensures loaded.Ok? ==> (if |loaded.value.brand| > 0 then r.brand == loaded.value.brand else r.brand == s.brand)
    ensures loaded.Ok? ==>
              var applied := if |loaded.value.brand| > 0 && |loaded.value.colors| > 0
                             then loaded.value.colors else s.selected;
              r.selected == (if |applied| == 0 && !s.interacted && |s.available| > 0 then s.available else applied)
    ensures loaded.Ok? ==>
              (if |loaded.value.mixChoice| > 0 then r.mixChoice == loaded.value.mixChoice else r.mixChoice == s.mixChoice)
    ensures r.interacted == s.interacted && r.available == s.available
  {
    match loaded
    case Err(_) => s
    case Ok(saved) =>
      var withBrand :=
        if |saved.brand| > 0 then
          s.(brand := saved.brand, selected := if |saved.colors| > 0 then saved.colors else s.selected)
        else s;
      var withChoice := if |saved.mixChoice| > 0 then withBrand.(mixChoice := saved.mixChoice) else withBrand;
      AutoSelect(withChoice.(initialized := true))
  }

  /** The condition under which the auto-select effect selects every colour. */
  predicate AutoSelectFires(s: PageState, colours: seq<string>) {
    s.initialized && !s.interacted && |s.selected| == 0 && |colours| > 0
  }

  /**
   * A colour list has arrived: when the page is initialised, the user has not used
   * toggle-all, nothing is selected and the list is non-empty, every colour is
   * selected; the list is stored as the available colours in any case.
   */
  function ColoursLoaded(s: PageState, colours: seq<string>): (r: PageState)
    ensures r.available == colours
    ensures AutoSelectFires(s, colours) ==> r.selected == colours
    ensures !AutoSelectFires(s, colours) ==> r.selected == s.selected
    ensures r.brand == s.brand && r.mixChoice == s.mixChoice && r.initialized == s.initialized &&
            r.interacted == s.interacted
  {
    var sel := if AutoSelectFires(s, colours) then colours else s.selected;
    s.(selected := sel, available := colours)
  }

  /** A fresh user (saved settings with no brand) gets every colour of the default brand selected. */
  lemma FreshUserSelectsAll(colours: seq<string>)
    requires |colours| > 0
    ensures var s := ApplySaved(Initial(), Ok(SavedSettings("", [], "")));
            var r := ColoursLoaded(s, colours);
            r.brand == DefaultBrand && r.selected == colours && AllSelected(r.available, r.selected)
  {
  }

  /** When the colours arrive before the settings, a user with no saved brand still gets every colour selected. */
  lemma ColoursFirstFreshUserSelectsAll(colours: seq<string>)
    requires |colours| > 0
    ensures var r := ApplySaved(ColoursLoaded(Initial(), colours), Ok(SavedSettings("", [], "")));
            r.brand == DefaultBrand && r.selected == colours && AllSelected(r.available, r.selected)
  {
  }

  /** When the settings fail to load the page never initialises, so loading colours never auto-selects. */
  lemma FailedLoadNeverAutoSelects(e: string, colours: seq<string>)
    ensures ColoursLoaded(ApplySaved(Initial(), Err(e)), colours).selected == []
  {
  }

  /** Once the user has pressed toggle-all, arriving colours never override the selection. */
  lemma ToggleAllStopsAutoSelect(s: PageState, colours: seq<string>)
    ensures ColoursLoaded(ToggleAll(s), colours).selected == ToggleAll(s).selected
  {
  }

  /** A re-run of the auto-select effect on the list already loaded. */
  function AutoSelect(s: PageState): (r: PageState)
    ensures AutoSelectFires(s, s.available) ==> r.selected == s.available
    ensures !AutoSelectFires(s, s.available) ==> r == s
    ensures r.(selected := s.selected) == s
  {
    if AutoSelectFires(s, s.available) then s.(selected := s.available) else s
  }

  /**
   * The auto-select effect also re-runs whenever the selection or the initialised flag
   * changes, with the colour list already loaded (the one stored as `available`). A
   * selection edit is therefore followed by that effect: an edit that empties the
   * selection of an initialised page whose toggle-all is untouched puts every colour back.
   */
  function EditSelection(s: PageState, sel: seq<string>): (r: PageState)
    ensures |sel| > 0 ==> r.selected == sel
    ensures |sel| == 0 ==>
              r.selected == (if s.initialized && !s.interacted && |s.available| > 0 then s.available else [])
    ensures r.(selected := s.selected) == s
  {
    AutoSelect(s.(selected := sel))
  }

  /** Deselecting the only selected colour, before toggle-all is used, selects every colour again. */
  lemma DeselectLastReselectsAll(s: PageState, c: string)
    requires s.initialized && !s.interacted && |s.available| > 0 && s.selected == [c]
    ensures ToggleColor(s.selected, c) == []
    ensures EditSelection(s, ToggleColor(s.selected, c)).selected == s.available
  {
    var keep := (x: string) => x != c;
    assert c in s.selected;
    assert Seqs.Filter([c], keep) == [];
  }

  /** On an initialised page with colours loaded and toggle-all untouched, no edit leaves the selection empty. */
  lemma EditedSelectionNeverEmpty(s: PageState, sel: seq<string>)
    requires s.initialized && !s.interacted && |s.available| > 0
    ensures |EditSelection(s, sel).selected| > 0
  {
  }

  /** The status line after saving: a confirmation, or the error text behind "Error: ". */
  function SaveStatus(outcome: Result<(), string>): (r: string)
    ensures outcome.Ok? ==> r == "Settings saved!"
    ensures outcome.Err? ==> r == "Error: " + outcome.error
  {
    match outcome
    case Ok(_) => "Settings saved!"
    case Err(e) => "Error: " + e
  }
}

=== FILE: target_mix.dfy ===
/**
 * The target-colour page: the hex text field and the three channel signals,
 * kept in step by `update_from_hex` and `update_hex`, and the mapping of a click
 * on a scaled image to a pixel of the image at its natural size.
 */
module TargetMix {
  import opened Wrappers
  import opened Colour
  import Text

  /** The page's initial state: "#808080" with every channel at 128. */
  const InitialHex: string := "#808080"

  /** `u32::MAX`, the ceiling of Rust's saturating float-to-`u32` cast. */
  const U32Max: int := 0xFFFF_FFFF

  /** The target colour text and the r, g, b signals. */
  datatype TargetState = TargetState(targetColour: string, rgb: Rgb)

  function Initial(): (s: TargetState)
    ensures s.rgb == Rgb(128, 128, 128)
    ensures s.targetColour == InitialHex
  {
    TargetState(InitialHex, Rgb(128, 128, 128))
  }

  // ---------------------------------------------------------------------------
  // u8::from_str_radix(_, 16)
  // ---------------------------------------------------------------------------

  /** `char::to_digit(16)`: both letter cases are accepted. */
  function HexDigit(c: char): (r: Option<nat>)
    ensures r.Some? ==> r.value < 16
    ensures r.Some? <==> ('0' <= c <= '9' || 'a' <= c <= 'f' || 'A' <= c <= 'F')
  {
    if '0' <= c <= '9' then Some(c as int - '0' as int)
    else if 'a' <= c <= 'f' then Some(c as int - 'a' as int + 10)
    else if 'A' <= c <= 'F' then Some(c as int - 'A' as int + 10)
    else None
  }

  /** The value of a string of base-16 digits, most significant first; `None` at the first non-digit. */
  function DigitsValue(s: string): (r: Option<nat>)
  {
    if |s| == 0 then Some(0)
    else
      match DigitsValue(s[..|s| - 1])
      case None => None
      case Some(high) =>
        match HexDigit(s[|s| - 1])
        case None => None
        case Some(d) => Some(high * 16 + d)
  }

  /**
   * `u8::from_str_radix(s, 16)` with `Ok` as `Some`: the empty string and a lone sign
   * are rejected, one leading '+' is skipped, '-' is never a digit of an unsigned
   * type, and a value above 255 overflows.
   */
  function ParseHexU8(s: string): (r: Option<U8>)
    ensures r.Some? ==> |s| > 0 && (s[0] == '+' ==> |s| > 1)
    ensures r.Some? ==> forall i :: 0 <= i < |s| ==> s[i] != '-'
  {
    if |s| == 0 then None
    else if (s[0] == '+' || s[0] == '-') && |s| == 1 then None
    else
      var digits := if s[0] == '+' then s[1..] else s;
      match DigitsValue(digits)
      case None => None
      case Some(v) =>
        DigitsHaveNoMinus(digits);
        if v <= 255 then Some(v) else None
  }

  /** A string with a value contains digits only, so no '-'. */
  lemma {:induction false} DigitsHaveNoMinus(s: string)
    ensures DigitsValue(s).Some? ==> forall i :: 0 <= i < |s| ==> HexDigit(s[i]).Some?
  {
    if |s| > 0 && DigitsValue(s).Some? {
      DigitsHaveNoMinus(s[..|s| - 1]);
      assert forall i :: 0 <= i < |s| - 1 ==> s[i] == s[..|s| - 1][i];
    }
  }

  /** Two base-16 digits parse to `16 * high + low`. */
  lemma TwoDigits(a: char, b: char)
    requires HexDigit(a).Some? && HexDigit(b).Some?
    ensures ParseHexU8([a, b]) == Some(16 * HexDigit(a).value + HexDigit(b).value)
  {
    assert [a, b][..1] == [a];
    assert [a][..0] == [];
    assert DigitsValue([a]) == Some(HexDigit(a).value);
    assert DigitsValue([a, b]) == Some(16 * HexDigit(a).value + HexDigit(b).value);
  }

  /** `to_lowercase` on the slice does not change what it parses to: digits are read in either case. */
  lemma {:induction false} DigitsIgnoreCase(s: string)
    ensures DigitsValue(Text.Lower(s)) == DigitsValue(s)
  {
    if |s| > 0 {
      var l := Text.Lower(s);
      assert l[..|l| - 1] == Text.Lower(s[..|s| - 1]);
      DigitsIgnoreCase(s[..|s| - 1]);
      assert HexDigit(l[|l| - 1]) == HexDigit(s[|s| - 1]);
    }
  }

  lemma ParseIgnoresCase(s: string)
    ensures ParseHexU8(Text.Lower(s)) == ParseHexU8(s)
  {
    var l := Text.Lower(s);
    if |s| > 0 {
      if s[0] == '+' {
        assert l[1..] == Text.Lower(s[1..]);
        DigitsIgnoreCase(s[1..]);
      } else {
        DigitsIgnoreCase(s);
      }
    }
  }

  // ---------------------------------------------------------------------------
  // format!("#{:02x}{:02x}{:02x}")
  // ---------------------------------------------------------------------------

  predicate IsLowerHexChar(c: char) {
    '0' <= c <= '9' || 'a' <= c <= 'f'
  }

  /** The lower-case digit for a value below 16. */
  function HexChar(d: nat): (c: char)
    requires d < 16
    ensures IsLowerHexChar(c)
    ensures HexDigit(c) == Some(d)
  {
    if d < 10 then ('0' as int + d) as char else ('a' as int + d - 10) as char
  }

  /** `{:02x}`: two lower-case digits, zero-padded. */
  function Hex2(v: U8): (s: string)
    ensures |s| == 2 && IsLowerHexChar(s[0]) && IsLowerHexChar(s[1])
  {
    [HexChar(v / 16), HexChar(v % 16)]
  }

  /** The formatted byte parses back to itself. */
  lemma Hex2RoundTrip(v: U8)
    ensures ParseHexU8(Hex2(v)) == Some(v)
  {
    TwoDigits(HexChar(v / 16), HexChar(v % 16));
  }

  /** `update_hex`'s text for a colour. */
  function FormatHex(c: Rgb): (s: string)
    ensures |s| == 7 && s[0] == '#'
    ensures forall i :: 1 <= i < 7 ==> IsLowerHexChar(s[i])
  {
    "#" + Hex2(c.r) + Hex2(c.g) + Hex2(c.b)
  }

  /** `update_hex`: the colour text follows the channels; the channels stay. */
  function UpdateHex(s: TargetState): (r: TargetState)
    ensures r.rgb == s.rgb
    ensures r.targetColour == FormatHex(s.rgb)
  {
    s.(targetColour := FormatHex(s.rgb))
  }

  // ---------------------------------------------------------------------------
  // update_from_hex
  // ---------------------------------------------------------------------------

  /** The colour a `#rrggbb` text denotes, when it has that shape and each pair parses. */
  function ParseHexColour(hex: string): (r: Option<Rgb>)
    ensures r.Some? <==> |hex| == 7 && hex[0] == '#' && ParseHexU8(hex[1..3]).Some? &&
                         ParseHexU8(hex[3..5]).Some? && ParseHexU8(hex[5..7]).Some?
    ensures r.Some? ==> ParseHexU8(hex[1..3]) == Some(r.value.r) && ParseHexU8(hex[3..5]) == Some(r.value.g) &&
                        ParseHexU8(hex[5..7]) == Some(r.value.b)
  {
    if |hex| == 7 && Text.StartsWith(hex, "#") then
      match (ParseHexU8(hex[1..3]), ParseHexU8(hex[3..5]), ParseHexU8(hex[5..7]))
      case (Some(red), Some(green), Some(blue)) => Some(Rgb(red, green, blue))
      case _ => None
    else None
  }

  /**
   * `update_from_hex`: the text is always stored; the channels change only when the
   * text is 7 long, starts with '#' and all three pairs parse as base-16 bytes.
   */
  function UpdateFromHex(s: TargetState, hex: string): (r: TargetState)
    ensures r.targetColour == hex
    ensures ParseHexColour(hex).Some? ==> r.rgb == ParseHexColour(hex).value
    ensures ParseHexColour(hex).None? ==> r.rgb == s.rgb
  {
    match ParseHexColour(hex)
    case Some(c) => TargetState(hex, c)
    case None => s.(targetColour := hex)
  }

  /** Formatting then parsing returns the same channels: `update_from_hex` undoes `update_hex`. */
  lemma FormatParseRoundTrip(c: Rgb)
    ensures ParseHexColour(FormatHex(c)) == Some(c)
  {
    var h := FormatHex(c);
    var (r, g, b) := (Hex2(c.r), Hex2(c.g), Hex2(c.b));
    assert h == "#" + r + g + b;
    assert h[1] == r[0] && h[2] == r[1];
    assert h[3] == g[0] && h[4] == g[1];
    assert h[5] == b[0] && h[6] == b[1];
    assert h[1..3] == r;
    assert h[3..5] == g;
    assert h[5..7] == b;
    Hex2RoundTrip(c.r);
    Hex2RoundTrip(c.g);
    Hex2RoundTrip(c.b);
    assert Text.StartsWith(h, "#");
  }

  lemma UpdateRoundTrip(s: TargetState)
    ensures UpdateFromHex(s, UpdateHex(s).targetColour) == UpdateHex(s)
  {
    FormatParseRoundTrip(s.rgb);
  }

  /** Upper-case input denotes the same colour as its lower-case form. */
  lemma ParseHexColourIgnoresCase(hex: string)
    ensures ParseHexColour(Text.Lower(hex)) == ParseHexColour(hex)
  {
    var l := Text.Lower(hex);
    if |hex| == 7 {
      assert l[1..3] == Text.Lower(hex[1..3]);
      assert l[3..5] == Text.Lower(hex[3..5]);
      assert l[5..7] == Text.Lower(hex[5..7]);
      ParseIgnoresCase(hex[1..3]);
      ParseIgnoresCase(hex[3..5]);
      ParseIgnoresCase(hex[5..7]);
      assert Text.StartsWith(l, "#") <==> Text.StartsWith(hex, "#");
    }
  }

  /** A signed pair such as "+f" parses too, so "#+f+f+f" sets every channel to 15. */
  lemma PlusSignedPairsAccepted(s: TargetState)
    ensures UpdateFromHex(s, "#+f+f+f").rgb == Rgb(15, 15, 15)
  {
    var hex := "#+f+f+f";
    assert hex[1..3] == "+f" && hex[3..5] == "+f" && hex[5..7] == "+f";
    assert "+f"[1..] == "f";
    assert "f"[..0] == [];
    assert Text.StartsWith(hex, "#");
  }

  /** Every character of a parsed slice is a digit, except a leading '+'. */
  lemma ParsedCharsAreDigits(s: string)
    ensures ParseHexU8(s).Some? ==>
              forall i :: 0 <= i < |s| && (i > 0 || s[i] != '+') ==> HexDigit(s[i]).Some?
  {
    if |s| > 0 {
      var digits := if s[0] == '+' then s[1..] else s;
      DigitsHaveNoMinus(digits);
      if s[0] == '+' {
        assert forall i :: 1 <= i < |s| ==> s[i] == digits[i - 1];
      }
    }
  }

  /** A text whose pair holds a '-', or a non-digit other than a sign, leaves the channels alone. */
  lemma InvalidPairKeepsChannels(s: TargetState, hex: string, i: int)
    requires 1 <= i < |hex|
    requires hex[i] == '-' || (HexDigit(hex[i]).None? && hex[i] != '+')
    ensures UpdateFromHex(s, hex).rgb == s.rgb
  {
    if |hex| == 7 {
      var lo := if i < 3 then 1 else if i < 5 then 3 else 5;
      var pair := hex[lo..lo + 2];
      ParsedCharsAreDigits(pair);
      assert pair[i - lo] == hex[i];
    }
  }

  // ---------------------------------------------------------------------------
  // handle_image_click
  // ---------------------------------------------------------------------------

  /** `f64::round`: to the nearest integer, halves away from zero. */
  function RoundHalfAway(v: real): (n: int)
    ensures v >= 0.0 ==> n >= 0
    ensures (n as real) - 0.5 <= v <= (n as real) + 0.5
    ensures v >= 0.0 ==> v < (n as real) + 0.5
    ensures v < 0.0 ==> (n as real) - 0.5 < v
  {
    if v >= 0.0 then (v + 0.5).Floor else -((-v + 0.5).Floor)
  }

  /** `as u32` on a float: saturates at both ends. */
  function SaturateU32(n: int): (r: nat)
    ensures r <= U32Max
    ensures 0 <= n <= U32Max ==> r == n
    ensures n < 0 ==> r == 0
    ensures n > U32Max ==> r == U32Max
  {
    if n < 0 then 0 else if n > U32Max then U32Max else n
  }

  /** One axis of the click mapping: scale, round, saturate, clamp to the last pixel. */
  function ScaleOffset(offset: int, displayed: nat, natural: nat): (p: nat)
    requires displayed > 0 && 0 < natural <= U32Max
    ensures p < natural
    ensures var scaled := RoundHalfAway(offset as real * (natural as real / displayed as real));
            0 <= scaled < natural ==> p == scaled
    ensures var scaled := RoundHalfAway(offset as real * (natural as real / displayed as real));
            scaled >= natural ==> p == natural - 1
    ensures offset <= 0 ==> p == 0
  {
    var scaled := RoundHalfAway(offset as real * (natural as real / displayed as real));
    var x := SaturateU32(scaled);
    if x < natural - 1 then x else natural - 1
  }

  /**
   * The pixel a click samples: `None` when either displayed or natural dimension is
   * zero (the handler returns early); otherwise a position inside the natural image.
   */
  function ClickPixel(offsetX: int, offsetY: int, displayedW: nat, displayedH: nat,
                      naturalW: nat, naturalH: nat): (r: Option<(nat, nat)>)
    requires naturalW <= U32Max && naturalH <= U32Max
    ensures r.None? <==> (displayedW == 0 || displayedH == 0 || naturalW == 0 || naturalH == 0)
    ensures r.Some? ==> r.value.0 < naturalW && r.value.1 < naturalH
  {
    if displayedW == 0 || displayedH == 0 || naturalW == 0 || naturalH == 0 then None
    else Some((ScaleOffset(offsetX, displayedW, naturalW), ScaleOffset(offsetY, displayedH, naturalH)))
  }

  /** When the image is shown at its natural size, a click inside it samples exactly that pixel. */
  lemma UnscaledClickIsIdentity(offset: int, size: nat)
    requires 0 <= offset < size <= U32Max
    ensures ScaleOffset(offset, size, size) == offset
  {
    var z := size as real;
    assert z >= 1.0;
    var q := z / z;
    assert q * z == z;
    assert (q - 1.0) * z == 0.0;
    assert q == 1.0;
    assert offset as real * q == offset as real;
    assert RoundHalfAway(offset as real) == offset;
  }

  /**
   * A click sets the channels to the sampled pixel and then formats the text from them;
   * a failed read of the pixel, or a zero dimension, changes nothing.
   */
  function ImageClick(s: TargetState, offsetX: int, offsetY: int, displayedW: nat, displayedH: nat,
                      naturalW: nat, naturalH: nat, pixel: (nat, nat) -> Option<Rgb>): (r: TargetState)
    requires naturalW <= U32Max && naturalH <= U32Max
    ensures ClickPixel(offsetX, offsetY, displayedW, displayedH, naturalW, naturalH).None? ==> r == s
    ensures var p := ClickPixel(offsetX, offsetY, displayedW, displayedH, naturalW, naturalH);
            p.Some? && pixel(p.value.0, p.value.1).Some? ==>
              r.rgb == pixel(p.value.0, p.value.1).value && ParseHexColour(r.targetColour) == Some(r.rgb)
    ensures var p := ClickPixel(offsetX, offsetY, displayedW, displayedH, naturalW, naturalH);
            p.Some? && pixel(p.value.0, p.value.1).None? ==> r == s
  {
    match ClickPixel(offsetX, offsetY, displayedW, displayedH, naturalW, naturalH)
    case None => s
    case Some(p) =>
      match pixel(p.0, p.1)
      case None => s
      case Some(c) =>
        FormatParseRoundTrip(c);
        UpdateHex(TargetState(s.targetColour, c))
  }
}

=== FILE: test_mix.dfy ===
/**
 * The test-mix page: a list of (paint, weight) entries edited by add, remove and
 * weight updates, the total used for percentages, and the request sent to the
 * mixing server function whenever the list changes.
 */
module TestMix {
  import opened Wrappers
  import Reals
  import Seqs

  /** One row of `selected_paints`: a paint id with its raw (unnormalised) weight. */
  datatype Entry = Entry(paint: string, weight: real)

  type Mix = seq<Entry>

  /** The floor `total_weight` never goes below, so percentages never divide by zero. */
  const MinTotal: real := 0.001

  /** The weight a newly added paint starts with. */
  const DefaultWeight: real := 1.0

  predicate Has(m: Mix, paint: string) {
    exists i :: 0 <= i < |m| && m[i].paint == paint
  }

  predicate UniqueNames(m: Mix) {
    forall i, j :: 0 <= i < j < |m| ==> m[i].paint != m[j].paint
  }

  function Names(m: Mix): (r: seq<string>)
    ensures |r| == |m| && forall i :: 0 <= i < |m| ==> r[i] == m[i].paint
  {
    seq(|m|, i requires 0 <= i < |m| => m[i].paint)
  }

  function Weights(m: Mix): (r: seq<real>)
    ensures |r| == |m| && forall i :: 0 <= i < |m| ==> r[i] == m[i].weight
  {
    seq(|m|, i requires 0 <= i < |m| => m[i].weight)
  }

  // ---------------------------------------------------------------------------
  // add_paint / remove_paint / update_weight
  // ---------------------------------------------------------------------------

  /** `add_paint`: a paint not yet in the list is appended with weight 1; otherwise nothing changes. */
  function AddPaint(m: Mix, paint: string): (r: Mix)
    ensures Has(r, paint)
    ensures Has(m, paint) ==> r == m
    ensures !Has(m, paint) ==> r == m + [Entry(paint, DefaultWeight)]
  {
    if Has(m, paint) then m
    else
      var r := m + [Entry(paint, DefaultWeight)];
      assert r[|m|].paint == paint;
      r
  }

  /** Adding keeps the names unique. */
  lemma AddPaintKeepsUnique(m: Mix, paint: string)
    requires UniqueNames(m)
    ensures UniqueNames(AddPaint(m, paint))
  {
  }

  /** Adding the same paint twice is the same as adding it once. */
  lemma AddPaintIdempotent(m: Mix, paint: string)
    ensures AddPaint(AddPaint(m, paint), paint) == AddPaint(m, paint)
  {
  }

  /** A new paint adds exactly one unit to the sum of weights. */
  lemma AddPaintAddsOne(m: Mix, paint: string)
    requires !Has(m, paint)
    ensures Reals.Sum(Weights(AddPaint(m, paint))) == Reals.Sum(Weights(m)) + DefaultWeight
  {
    assert Weights(AddPaint(m, paint)) == Weights(m) + [DefaultWeight];
    Reals.SumAppend(Weights(m), [DefaultWeight]);
  }

  /** `remove_paint`: every entry with that paint goes; the others stay, in order. */
  function RemovePaint(m: Mix, paint: string): (r: Mix)
    ensures !Has(r, paint)
    ensures forall i :: 0 <= i < |r| ==> r[i] in m
    ensures forall i :: 0 <= i < |m| && m[i].paint != paint ==> m[i] in r
  {
    Seqs.Filter(m, (e: Entry) => e.paint != paint)
  }

  /** Removal works piecewise, so the kept entries keep their relative order. */
  lemma RemovePaintPiecewise(a: Mix, b: Mix, paint: string)
    ensures RemovePaint(a + b, paint) == RemovePaint(a, paint) + RemovePaint(b, paint)
  {
    Seqs.FilterAppend(a, b, (e: Entry) => e.paint != paint);
  }

  /** Removing a paint that is absent changes nothing. */
  lemma RemoveAbsentPaint(m: Mix, paint: string)
    requires !Has(m, paint)
    ensures RemovePaint(m, paint) == m
  {
    Seqs.FilterAll(m, (e: Entry) => e.paint != paint);
  }

  /** Removing a paint that was just added restores the list. */
  lemma RemoveUndoesAdd(m: Mix, paint: string)
    requires !Has(m, paint)
    ensures RemovePaint(AddPaint(m, paint), paint) == m
  {
    RemovePaintPiecewise(m, [Entry(paint, DefaultWeight)], paint);
    RemoveAbsentPaint(m, paint);
    assert RemovePaint([Entry(paint, DefaultWeight)], paint) == [];
  }

  /** The entry index `update_weight` writes to: the first with that paint. */
  function FirstIndex(m: Mix, paint: string): (r: Option<nat>)
    ensures r.None? <==> !Has(m, paint)
    ensures r.Some? ==> r.value < |m| && m[r.value].paint == paint &&
                        forall j :: 0 <= j < r.value ==> m[j].paint != paint
  {
    if |m| == 0 then None
    else if m[0].paint == paint then Some(0)
    else
      match FirstIndex(m[1..], paint)
      case None => None
      case Some(k) => Some(k + 1)
  }

  /**
   * `update_weight`: the first entry with that paint takes the new weight; every
   * other entry, and every name, stays as it was.
   */
  function UpdateWeight(m: Mix, paint: string, w: real): (r: Mix)
    ensures |r| == |m| && Names(r) == Names(m)
    ensures FirstIndex(m, paint).None? ==> r == m
    ensures FirstIndex(m, paint).Some? ==> r[FirstIndex(m, paint).value].weight == w
    ensures FirstIndex(m, paint).Some? ==>
              forall i :: 0 <= i < |m| && i != FirstIndex(m, paint).value ==> r[i] == m[i]
  {
    match FirstIndex(m, paint)
    case None => m
    case Some(k) => m[k := m[k].(weight := w)]
  }

  /** With unique names, the updated entry is the only one with that paint: every entry for it has the new weight. */
  lemma UpdateWeightOfUnique(m: Mix, paint: string, w: real)
    requires UniqueNames(m)
    ensures UniqueNames(UpdateWeight(m, paint, w))
    ensures forall i :: 0 <= i < |m| && m[i].paint == paint ==> UpdateWeight(m, paint, w)[i].weight == w
  {
    var r := UpdateWeight(m, paint, w);
    assert forall i :: 0 <= i < |m| ==> r[i].paint == Names(r)[i] == Names(m)[i] == m[i].paint;
  }

  // ---------------------------------------------------------------------------
  // total_weight and calculate_mix
  // ---------------------------------------------------------------------------

  /** `total_weight`: the sum of weights, raised to 0.001 when smaller (`f64::max`). */
  function TotalWeight(m: Mix): (t: real)
    ensures t >= MinTotal && t >= Reals.Sum(Weights(m))
    ensures t == MinTotal || t == Reals.Sum(Weights(m))
  {
    var s := Reals.Sum(Weights(m));
    if s >= MinTotal then s else MinTotal
  }

  /** A non-empty list of weights of at least 0.001 each has the sum of its weights as its total. */
  lemma TotalWeightIsSum(m: Mix)
    requires |m| > 0 && forall i :: 0 <= i < |m| ==> m[i].weight >= MinTotal
    ensures TotalWeight(m) == Reals.Sum(Weights(m))
  {
    var ws := Weights(m);
    Reals.SumBoundsEntries(ws);
    assert ws[0] <= Reals.Sum(ws);
  }

  /** What the page shows after a calculation: the mixed colour and the error text. */
  datatype MixView = MixView(result: Option<string>, error: Option<string>)

  /** The server request for a mix: its paint names and weights in list order, or none for an empty list. */
  function MixRequest(m: Mix): (r: Option<(seq<string>, seq<real>)>)
    ensures r.None? <==> |m| == 0
    ensures r.Some? ==> r.value.0 == Names(m) && r.value.1 == Weights(m)
  {
    if |m| == 0 then None else Some((Names(m), Weights(m)))
  }

  /**
   * `calculate_mix`: an empty list clears both the colour and the error and sends
   * nothing; otherwise the error is cleared, then a colour replaces the result or an
   * error is shown next to the previous result.
   */
  function CalculateMix(v: MixView, m: Mix, server: (seq<string>, seq<real>) -> Result<string, string>): (r: MixView)
    ensures MixRequest(m).None? ==> r == MixView(None, None)
    ensures MixRequest(m).Some? && server(Names(m), Weights(m)).Ok? ==>
              r == MixView(Some(server(Names(m), Weights(m)).value), None)
    ensures MixRequest(m).Some? && server(Names(m), Weights(m)).Err? ==>
              r == MixView(v.result, Some(server(Names(m), Weights(m)).error))
  {
    match MixRequest(m)
    case None => MixView(None, None)
    case Some((names, weights)) =>
      match server(names, weights)
      case Ok(hex) => MixView(Some(hex), None)
      case Err(e) => MixView(v.result, Some(e))
  }

  /** The empty list's outcome does not depend on the server or on what was shown before. */
  lemma EmptyMixIgnoresServer(v1: MixView, v2: MixView,
                              s1: (seq<string>, seq<real>) -> Result<string, string>,
                              s2: (seq<string>, seq<real>) -> Result<string, string>)
    ensures CalculateMix(v1, [], s1) == CalculateMix(v2, [], s2)
  {
  }

  /** The brand the page loads colours for: the saved brand when it is non-empty, else the current one. */
  function ApplySavedBrand(current: string, saved: string): (r: string)
    ensures |saved| > 0 ==> r == saved
    ensures |saved| == 0 ==> r == current
  {
    if |saved| > 0 then saved else current
  }
}

=== FILE: text.dfy ===
/**
 * ASCII text helpers standing in for Rust's `str` methods.
 * Only the ASCII behaviour of `to_lowercase`, `to_uppercase`, `trim` and
 * `split_whitespace` is modelled.
 */
module Text {

  /** ASCII letters A-Z become a-z; every other character is unchanged. */
  function LowerChar(c: char): (r: char)
    ensures 'A' <= c <= 'Z' ==> r as int == c as int + 32
    ensures !('A' <= c <= 'Z') ==> r == c
  {
    if 'A' <= c <= 'Z' then (c as int + 32) as char else c
  }

  /** ASCII letters a-z become A-Z; every other character is unchanged. */
  function UpperChar(c: char): (r: char)
    ensures 'a' <= c <= 'z' ==> r as int == c as int - 32
    ensures !('a' <= c <= 'z') ==> r == c
  {
    if 'a' <= c <= 'z' then (c as int - 32) as char else c
  }

  /** `str::to_lowercase`, character by character. */
  function Lower(s: string): (r: string)
    ensures |r| == |s|
    ensures forall i :: 0 <= i < |s| ==> r[i] == LowerChar(s[i])
  {
    seq(|s|, i requires 0 <= i < |s| => LowerChar(s[i]))
  }

  /** The whitespace characters of the ASCII range (`char::is_whitespace`). */
  predicate IsSpace(c: char) {
    c == ' ' || c == '\t' || c == '\n' || c == '\r' || c == '\U{000B}' || c == '\U{000C}'
  }

  /** `str::trim_start`. */
  function TrimStart(s: string): (r: string)
    ensures |r| <= |s| && r == s[|s| - |r|..]
    ensures |r| > 0 ==> !IsSpace(r[0])
    ensures forall i :: 0 <= i < |s| - |r| ==> IsSpace(s[i])
  {
    if |s| > 0 && IsSpace(s[0]) then TrimStart(s[1..]) else s
  }

  /** `str::trim_end`. */
  function TrimEnd(s: string): (r: string)
    ensures |r| <= |s| && r == s[..|r|]
    ensures |r| > 0 ==> !IsSpace(r[|r| - 1])
    ensures forall i :: |r| <= i < |s| ==> IsSpace(s[i])
  {
    if |s| > 0 && IsSpace(s[|s| - 1]) then TrimEnd(s[..|s| - 1]) else s
  }

  /** `str::trim`: leading and trailing whitespace removed. */
  function Trim(s: string): string {
    TrimEnd(TrimStart(s))
  }

  /** `str::starts_with`. */
  predicate StartsWith(s: string, prefix: string) {
    |prefix| <= |s| && s[..|prefix|] == prefix
  }

  /** `needle` occurs in `s` starting at index `i`. */
  predicate OccursAt(s: string, needle: string, i: int) {
    0 <= i <= |s| - |needle| && s[i..i + |needle|] == needle
  }

  /** `str::contains`: `needle` occurs as a contiguous piece of `s`. */
  predicate Contains(s: string, needle: string) {
    exists i | 0 <= i <= |s| - |needle| :: OccursAt(s, needle, i)
  }

  /** Every character of `c` replaced by `sub` (`str::replace` on one char). */
  function ReplaceChar(s: string, c: char, sub: char): (r: string)
    ensures |r| == |s|
    ensures forall i :: 0 <= i < |s| ==> r[i] == (if s[i] == c then sub else s[i])
  {
    seq(|s|, i requires 0 <= i < |s| => if s[i] == c then sub else s[i])
  }

  // ---------------------------------------------------------------------------
  // Words

  /** A non-empty run of non-whitespace characters, as `split_whitespace` yields. */
  predicate IsWord(w: string) {
    |w| > 0 && forall i :: 0 <= i < |w| ==> !IsSpace(w[i])
  }

  /** The length of the run of non-whitespace characters at the start of `s`. */
  function WordLength(s: string): (n: nat)
    ensures n <= |s|
    ensures forall i :: 0 <= i < n ==> !IsSpace(s[i])
    ensures n < |s| ==> IsSpace(s[n])
  {
    if |s| == 0 || IsSpace(s[0]) then 0 else 1 + WordLength(s[1..])
  }

  /** `str::split_whitespace`: the maximal runs of non-whitespace characters, in order. */
  function Words(s: string): (ws: seq<string>)
    ensures forall k :: 0 <= k < |ws| ==> IsWord(ws[k])
    decreases |s|
  {
    if |s| == 0 then []
    else if IsSpace(s[0]) then Words(s[1..])
    else
      var n := WordLength(s);
      [s[..n]] + Words(s[n..])
  }

  /** `join(sep)`: the pieces with `sep` between consecutive ones. */
  function Join(ws: seq<string>, sep: string): string {
    if |ws| == 0 then "" else if |ws| == 1 then ws[0] else ws[0] + sep + Join(ws[1..], sep)
  }

  /** The first character upper-cased, the rest unchanged. */
  function Capitalize(w: string): (r: string)
    ensures |r| == |w|
    ensures |w| > 0 ==> r[0] == UpperChar(w[0]) && r[1..] == w[1..]
  {
    if |w| == 0 then "" else [UpperChar(w[0])] + w[1..]
  }

  /** A word followed by whitespace (or nothing) is read as exactly that word. */
  lemma {:induction false} WordLengthOfWord(w: string, t: string)
    requires IsWord(w) && (|t| == 0 || IsSpace(t[0]))
    ensures WordLength(w + t) == |w|
  {
    if |w| > 1 {
      assert (w + t)[1..] == w[1..] + t;
      WordLengthOfWord(w[1..], t);
    } else {
      assert (w + t)[1..] == t;
    }
  }

  /** Splitting words joined by single spaces gives the words back. */
  lemma {:induction false} WordsOfJoin(ws: seq<string>)
    requires forall k :: 0 <= k < |ws| ==> IsWord(ws[k])
    ensures Words(Join(ws, " ")) == ws
  {
    if |ws| == 1 {
      var w := ws[0];
      WordLengthOfWord(w, "");
      assert w + "" == w;
      assert w[|w|..] == "";
    } else if |ws| > 1 {
      var w, rest := ws[0], Join(ws[1..], " ");
      var s := w + " " + rest;
      WordLengthOfWord(w, " " + rest);
      assert s == w + (" " + rest);
      assert s[..|w|] == w;
      assert s[|w|..] == " " + rest;
      assert (" " + rest)[1..] == rest;
      WordsOfJoin(ws[1..]);
      assert Words(s[|w|..]) == Words(rest);
      assert ws == [w] + ws[1..];
    }
  }

  /** Upper-casing keeps a word a word. */
  lemma CapitalizeWord(w: string)
    requires IsWord(w)
    ensures IsWord(Capitalize(w))
  {
    var r := Capitalize(w);
    forall i | 0 <= i < |r| ensures !IsSpace(r[i]) {
      if i > 0 {
        assert r[i] == r[1..][i - 1] == w[1..][i - 1];
      }
    }
  }

  /** Capitalising twice is capitalising once. */
  lemma CapitalizeIdempotent(w: string)
    ensures Capitalize(Capitalize(w)) == Capitalize(w)
  {
  }

  /** Decimal digits of a natural number (`format!("{}", n)`). */
  function DecimalString(n: nat): (s: string)
    ensures |s| > 0 && forall k :: 0 <= k < |s| ==> '0' <= s[k] <= '9'
  {
    (if n < 10 then "" else DecimalString(n / 10)) + [('0' as int + n % 10) as char]
  }

  /** The value of a string of decimal digits. */
  function DecimalValue(s: string): int {
    if |s| == 0 then 0 else 10 * DecimalValue(s[..|s| - 1]) + (s[|s| - 1] as int - '0' as int)
  }

  /** Appending a digit multiplies the value by ten and adds the digit. */
  lemma DecimalValueSnoc(front: string, digit: char)
    ensures DecimalValue(front + [digit]) == 10 * DecimalValue(front) + (digit as int - '0' as int)
  {
    assert (front + [digit])[..|front|] == front;
  }

  /** Reading back a formatted number gives the number. */
  lemma {:induction false} DecimalRoundTrip(n: nat)
    ensures DecimalValue(DecimalString(n)) == n
  {
    var front := if n < 10 then "" else DecimalString(n / 10);
    var digit := ('0' as int + n % 10) as char;
    assert DecimalString(n) == front + [digit];
    if n >= 10 {
      DecimalRoundTrip(n / 10);
    }
    DecimalValueSnoc(front, digit);
    var q, m := n / 10, n % 10;
    assert DecimalValue(front) == q;
    assert digit as int - '0' as int == m;
    assert n == 10 * q + m;
  }
}

=== FILE: wrappers.dfy ===
/** Failure-carrying datatypes shared by every module of the model. */
module Wrappers {

  /** An optional value: Rust's `Option<T>`. */
  datatype Option<+T> = None | Some(value: T) {

    /** The value, or `default` when there is none (`unwrap_or`). */
    function GetOr(default: T): (r: T)
      ensures Some? ==> r == value
      ensures None? ==> r == default
    {
      match this
      case Some(v) => v
      case None => default
    }
  }

  /** Rust's `Result<R, E>`. */
  datatype Result<+R, +E> = Ok(value: R) | Err(error: E)
}
